=== FILE: README.md ===
# Metric-learning losses of nntools, modelled in Dafny

This project models the arithmetic core of `nntools/tensorflow/losses.py`:
the graph-building functions that turn a batch of embeddings, labels and
class centres into a loss value and a centre update. Tensors are
`seq<seq<real>>` matrices. Every graph op is a pure function, and each
failure an op can meet returns an `Err` naming its kind:

- a shape that does not agree (an operand of length 1 is broadcast where the op broadcasts it);
- a gather or scatter index outside the table;
- a reshape that cannot be carried out;
- a mean over nothing (0/0);
- a division of a non-zero value by zero where the result feeds a later op as a value. The one exception is the gamma schedule of `pair_loss`: a zero denominator there makes t = +inf and gamma = 0, and the model returns that 0.

Modules follow the structure of the file:

- `Outcome`: the `Result` and `Option` types.
- `Linalg`: vectors, matrices, dot products, squared distances, sums.
- `Distance`: `euclidean_distance` and `mahalanobis_distance`. Both use the
  expansion `XX + YY - 2XY`. Only the Euclidean one clamps at 0.
- `Selection`: `tf.boolean_mask` followed by `tf.reshape(.., [rows, -1])`.
  It shows when the reshape re-creates the per-row selections and when it
  mixes rows.
- `Masks`: the label masks.
  - positive pairs: same label, off the diagonal;
  - negative pairs: different label;
  - one-hot rows and their complement.
- `Reductions`: `reduce_mean`, `reduce_max` and `-reduce_max(-x)`.
  It also has `masked_reduce_mean` and `reduce_mean_nonzero`, whose
  denominators are guarded by `+ 1e-8`.
- `Triplet`: the hinge losses with hard mining. These are `triplet_loss`,
  `triplet_avghard_loss` and `contrastive_loss`.
- `Centers`: the scatter machinery.
  - `tf.unique_with_counts`, appear-times, `tf.gather`;
  - `tf.scatter_sub`, including repeated indices;
  - `centers_by_label`.
- `CenterUpdates`: the centre updates of four groups of functions.
  - `center_loss`, `euc_loss` and `class_divergence` pull each centre by
    alpha;
  - the decay branch of `softmax_loss` uses a fixed 0.01;
  - `split_softmax` moves a centre by 0.5 / (1 + n);
  - `am_softmax_imprint` uses the undamped pull (for a numeric alpha).

  Of these, only the `center_loss` and `am_softmax_imprint` updates run as
  the file is written, the latter only when it is given a numeric alpha
  (the `live_center_loss` update in `LiveCenter` runs as well). The other
  four sit behind a test that their variable is not trainable, and those
  variables are created trainable. Their models state what the branch
  would compute if it ran.

  The module also models the `center_loss` value.
- `LiveCenter`: `live_center_loss`, with one centre for the class-0 rows.
- `Angular`: the parts of `angular_softmax` that need no transcendental
  function:
  - the annealing of lambda;
  - the clamp of cos(theta);
  - the blend of the target logit.
- `SplitSoftmax`: the `split_softmax` loss.
- `PairLoss`: `pair_loss` over interleaved template/probe pairs, with its
  gamma schedule. Both versions are modelled: the column mining as written
  and the column mining as intended (see Findings).

## Model

All source paths below are in `nntools/tensorflow/losses.py`.

| member | source | states |
|---|---|---|
| Distance.EuclideanIsSquaredDistance | nntools/tensorflow/losses.py:55-73 | Entry (i, j) of euclidean_distance(X, Y) is the squared distance between row i of X and column j of Y. The expansion XX + YY - 2XY is already non-negative before the clamp, so the clamp never changes a value. |
| Distance.SelfDistanceProperties | nntools/tensorflow/losses.py:55-73 | The distance matrix of a batch against its own transpose has these properties: squared distances, non-negative, symmetric, zero on the diagonal. |
| Distance.MahalanobisIsWeightedDistance | nntools/tensorflow/losses.py:76-95 | Entry (i, j) of mahalanobis_distance is the sum over k of s_ik (x_ik - y_kj)^2, with s the inverse variances. |
| Distance.MahalanobisAgainstEuclidean | nntools/tensorflow/losses.py:76-95 | Without a clamp, the entries are non-negative whenever the inverse variances are. With unit variances the result equals euclidean_distance. |
| Selection.SelectRowImage | nntools/tensorflow/losses.py:991-992 | Every entry a row mask keeps appears in boolean_mask's output. |
| Selection.SelectRowOrigin | nntools/tensorflow/losses.py:991-992 | Every output entry of boolean_mask on a row comes from a kept position. |
| Selection.FlatSelectImage | nntools/tensorflow/losses.py:991-992 | Every entry a matrix mask keeps appears in the flattened selection. |
| Selection.FlatSelectOrigin | nntools/tensorflow/losses.py:991-992 | Every entry of the flattened selection comes from a kept position. |
| Selection.ReshapeColsEntry | nntools/tensorflow/losses.py:795 | A [-1, cols] reshape of rows x cols entries succeeds with rows rows, and its entry (r, j) is flat entry r cols + j. |
| Selection.FlatSelectEntry | nntools/tensorflow/losses.py:991-992 | When every row keeps k entries, flat entry i k + a is the a-th entry row i kept. |
| Selection.ReshapeAligned | nntools/tensorflow/losses.py:991-995 | Suppose every row keeps the same number of entries. Then the reshape to [rows, -1] succeeds, and its row i is exactly what row i kept. |
| Selection.SelectSingle | nntools/tensorflow/losses.py:386-387 | A mask that keeps only position c selects the single entry at c. |
| Selection.SelectAllBut | nntools/tensorflow/losses.py:386-387 | A mask that keeps every position but c selects the row with entry c removed, in order. |
| Masks.PositivePairs | nntools/tensorflow/losses.py:980-988 | The positive mask (same label, not the same example) is symmetric and never marks the diagonal. |
| Masks.NegativePairs | nntools/tensorflow/losses.py:980-988 | The negative mask marks (i, j) exactly when i != j and (i, j) is not positive, and it is symmetric. So positive, negative and the diagonal partition all pairs. |
| Masks.DifferentLabelsIsNegative | nntools/tensorflow/losses.py:944-946 | The avg-hard negative mask (a different label, with no diagonal term) equals the triplet negative mask. |
| Masks.OneHotRowCount | nntools/tensorflow/losses.py:602-604 | A one-hot row marks one class when the label is in range and none otherwise. Its complement marks classes - 1 or all classes. |
| Masks.PositiveCountIsClassSize | nntools/tensorflow/losses.py:980-988 | Anchor i has one fewer positive than the size of its class. |
| Reductions.ReduceMax | nntools/tensorflow/losses.py:798-799 | reduce_max has no value (-inf) exactly on an empty axis. Otherwise it bounds every entry and is attained. |
| Reductions.ReduceMinByNegation | nntools/tensorflow/losses.py:999 | -reduce_max(-x) is the minimum: it lies below every entry and is attained. It has no value on an empty axis. |
| Reductions.MaskedReduceMeanGuarded | nntools/tensorflow/losses.py:925-928 | An empty mask gives 0, not NaN. For selected values in [0, b], the result lies in [0, b]. For non-negative selected values, it is zero exactly when every selected value is zero. |
| Reductions.ReduceMeanNonzeroIsMaskedMean | nntools/tensorflow/losses.py:1006-1007 | On non-negative input, reduce_mean_nonzero is masked_reduce_mean over the positive entries. |
| Reductions.ReduceMeanNonzeroGuarded | nntools/tensorflow/losses.py:1119-1120 | On non-negative input bounded by b, the result lies in [0, b]. It is zero exactly when every entry is zero. |
| Reductions.MeanNonnegative | nntools/tensorflow/losses.py:1002 | reduce_mean over a vector is NaN exactly when the vector is empty. On non-negative input it is non-negative, and zero exactly when every entry is. |
| Reductions.MeanAllNonnegative | nntools/tensorflow/losses.py:1002 | The same as MeanNonnegative, for reduce_mean over every entry of a matrix. |
| Triplet.HingeZeroIff | nntools/tensorflow/losses.py:999-1001 | The hinge of a positive distance against the closest negative is non-negative. It is zero exactly when the positive plus the margin is at most every negative. |
| Triplet.TripletLossNonnegative | nntools/tensorflow/losses.py:969-1004 | Whenever triplet_loss has a value, that value is non-negative. |
| Triplet.TripletLossSingleLabel | nntools/tensorflow/losses.py:980-1004 | A single label is broadcast over the batch: every pair is positive, no anchor has a negative, and the loss of a batch of two or more is 0. |
| Triplet.TripletLossAligned | nntools/tensorflow/losses.py:991-1002 | When every anchor has p positives and q negatives, the two reshapes group the distances by anchor. The loss is then the mean hinge over those groups. |
| Triplet.TripletLossBalancedByAnchor | nntools/tensorflow/losses.py:991-1002 | The mean hinge over anchor rows has a value exactly when the rows are non-empty. It is zero exactly when every row's positives sit a margin below all its negatives. |
| Triplet.TripletLossBalanced | nntools/tensorflow/losses.py:969-1004 | For a batch with uniform per-anchor counts, triplet_loss is defined exactly when anchors have positives. It is zero exactly when every triple meets the margin. |
| Triplet.AvgHardTermZeroIff | nntools/tensorflow/losses.py:957-961 | The mean over negatives of relu(d_pos + margin - d_neg) is non-negative. It is zero exactly when d_pos + margin is at most every negative distance. |
| Triplet.AvgHardEntryZeroIff | nntools/tensorflow/losses.py:944-961 | The avg-hard term of a pair (i, j) is zero exactly when j lies a margin closer to i than every example with another label. |
| Triplet.AvgHardPairsMeetMargin | nntools/tensorflow/losses.py:957-965 | Every positive pair's avg-hard term is zero exactly when every (anchor, positive, different-label) triple meets the margin. |
| Triplet.TripletAvgHardLossProperties | nntools/tensorflow/losses.py:930-967 | triplet_avghard_loss is defined exactly when labels match the batch and some positive pair exists. It is then non-negative, and zero exactly when every triple meets the margin. |
| Triplet.SelectedMeanZeroIff | nntools/tensorflow/losses.py:1181-1190 | The mean of the selected non-negative entries exists exactly when something is selected. It is zero exactly when every selected entry is zero. |
| Triplet.SelectedMarginMeanZeroIff | nntools/tensorflow/losses.py:1189-1190 | The mean of relu(margin - x) over the selected entries exists exactly when something is selected. It is zero exactly when every selected entry is at least the margin. |
| Triplet.ContrastiveLossBySelection | nntools/tensorflow/losses.py:1176-1192 | contrastive_loss is defined exactly when both masks select something. It is zero exactly when every positive distance is 0 and every negative distance reaches the margin. |
| Triplet.SelectedDistancesZero | nntools/tensorflow/losses.py:1181 | The selected self-distances are all zero exactly when the selected pairs of embeddings coincide. |
| Triplet.SelectedDistancesAtLeast | nntools/tensorflow/losses.py:1182 | The selected self-distances all reach the margin exactly when each selected pair is at least the margin apart. |
| Triplet.ContrastiveLossSingleLabel | nntools/tensorflow/losses.py:1159-1194 | A single label is broadcast over the batch: no pair is negative, so the negative mean, and the loss, is NaN. |
| Triplet.ContrastiveLossProperties | nntools/tensorflow/losses.py:1159-1194 | contrastive_loss is defined exactly when the batch has a positive pair and a negative pair. It is then non-negative, and zero exactly when positives coincide and negatives are at least the margin apart. |
| Centers.Unique | nntools/tensorflow/losses.py:207 | unique_with_counts' first output has no repeats, holds exactly the labels that occur, and lists them in order of first appearance. |
| Centers.UniqueWithCountsSpec | nntools/tensorflow/losses.py:207-208 | The unique index maps each example to its own label. The count of each unique label is how often it occurs, which is at least once. |
| Centers.AppearTimesCount | nntools/tensorflow/losses.py:207-209 | The appear-time of example k is the number of examples that share its label. |
| Centers.ScatterSubClosedForm | nntools/tensorflow/losses.py:212 | scatter_sub succeeds exactly when every index is in range. Row c then loses the sum of all updates addressed to c, so repeated indices accumulate. |
| Centers.CentersByLabelMeans | nntools/tensorflow/losses.py:707-715 | centers_by_label is defined exactly when features and labels agree in number or a single feature row is broadcast over the labels. Its unique labels are unique_with_counts' output, and centre u is the mean of the (broadcast) features labelled u. |
| Centers.CentersOfSingleRow | nntools/tensorflow/losses.py:707-715 | With a single feature row broadcast over any labels, every centre is that row. |
| Centers.CenterEntry | nntools/tensorflow/losses.py:707-715 | Each single entry of centers_by_label's centres is its class mean. |
| CenterUpdates.DiffIsRateTimesGap | nntools/tensorflow/losses.py:207-212 | Each variant's diff_centers row is a per-example rate times (centre - target). |
| CenterUpdates.UpdateClosedForm | nntools/tensorflow/losses.py:201-212 | The gather, divide and scatter_sub update succeeds exactly when the labels index the table and either match the targets in number or face a single target row, which is broadcast. The new entry of row c is then the old one minus the rate times the sum of (centre - target) over the examples of class c. |
| CenterUpdates.PullTowardsSingleRow | nntools/tensorflow/losses.py:201-212 | With a single target row broadcast over the labels, the pull moves every present class a fraction alpha of the way to that row and leaves absent classes unchanged. |
| CenterUpdates.PullUpdate | nntools/tensorflow/losses.py:207-212 | The center_loss update moves each present class a fraction alpha of the way to its batch mean, and leaves absent classes unchanged. The guarded branches of euc_loss (552-562) and class_divergence (1422-1443) would compute the same update; as written they do not run. |
| CenterUpdates.DecayUpdate | nntools/tensorflow/losses.py:171-181 | The softmax_loss decay branch, if it ran, would scale each present class's weights by 0.99 exactly once, however often the class occurs, and leave absent classes unchanged. As written the branch does not run: the weights are trainable (line 158). |
| CenterUpdates.SplitStep | nntools/tensorflow/losses.py:684-691 | The step fraction of the guarded split_softmax update, for a class present n times, lies strictly between 0 and 1/2. |
| CenterUpdates.SplitUpdate | nntools/tensorflow/losses.py:684-691 | The guarded split_softmax update, if it ran, would move a present class 0.5 n / (1 + n) of the way to its batch mean and leave absent classes unchanged. As written it does not run: the weights are trainable (line 578). |
| CenterUpdates.ImprintUpdate | nntools/tensorflow/losses.py:474-484 | For a numeric alpha, am_softmax_imprint puts each present class exactly on its batch mean, and leaves absent classes unchanged. |
| CenterUpdates.CenterLossProperties | nntools/tensorflow/losses.py:201-204 | center_loss is defined exactly when the labels index the table and labels and features agree in number or one of them has length 1 (it is broadcast), with a non-empty broadcast batch. For coef >= 0 it is non-negative. For coef > 0 it is zero exactly when every (broadcast) feature sits on the centre of its (broadcast) label. |
| LiveCenter.KeptRows | nntools/tensorflow/losses.py:1235-1237 | Masking by labels == 0 keeps one row per 0 label, and the kept rows' coordinate sums are the class-0 sums. |
| LiveCenter.LiveUpdateIsBatchMean | nntools/tensorflow/losses.py:1248-1254 | The update places the centre exactly on the batch mean, whatever the old centre was. It fails only on an empty batch. |
| LiveCenter.LiveCenterOfClassZero | nntools/tensorflow/losses.py:1234-1254 | With labels, the centre becomes the class-0 mean. The update fails when labels do not match the rows or no row is labelled 0. |
| LiveCenter.LiveLossProperties | nntools/tensorflow/losses.py:1248-1250 | The live centre loss is defined for a non-empty batch and is non-negative for coef >= 0. For coef > 0 it is zero exactly when every row is the centre. |
| Angular.ClampRange | nntools/tensorflow/losses.py:325 | The clamp of cos(theta) lands in [-1, 1] and fixes exactly the values already there. |
| Angular.LambdaScheduleBounds | nntools/tensorflow/losses.py:334 | lambda never drops below lambda_min and starts at max(lambda_min, lambda_max). For lambda_max >= 0 it never exceeds that start. |
| Angular.LambdaNonincreasing | nntools/tensorflow/losses.py:334 | For lambda_max >= 0, lambda never increases with the global step. |
| Angular.LambdaReachesFloor | nntools/tensorflow/losses.py:334 | With lambda_min > 0, lambda equals lambda_min from step 10 (lambda_max / lambda_min - 1) on. |
| Angular.BlendTargetOnly | nntools/tensorflow/losses.py:339-343 | The blend is defined exactly when labels and logit rows agree in number or one of them has length 1, and lambda != -1. With matching counts it leaves every non-target logit at clamp(cos) * norm, and turns the target into (lambda cos + phi) norm / (1 + lambda). |
| Angular.BlendBroadcast | nntools/tensorflow/losses.py:339-343 | A length-1 label list or logit batch is broadcast: the blend equals the blend of the broadcast operands, whose counts match. |
| Angular.BlendBetween | nntools/tensorflow/losses.py:339-343 | For lambda >= 0 the blended target lies between cos and phi. It equals phi exactly when lambda = 0 or the two agree. |
| SplitSoftmax.ClassLogitsAreDots | nntools/tensorflow/losses.py:612 | Logit (i, c) is feature i dotted with class weight c. |
| SplitSoftmax.OneHotSplit | nntools/tensorflow/losses.py:617-618 | When every label names a class, the one-hot masks and reshapes split the logits into each row's target logit and its other logits. |
| SplitSoftmax.TargetSplit | nntools/tensorflow/losses.py:617-660 | When every label names a class, row i of the positive reshape is the target logit of row i. |
| SplitSoftmax.OtherSplit | nntools/tensorflow/losses.py:618-661 | When every label names a class, row i of the negative reshape is row i without its target, in order. |
| SplitSoftmax.MixedLabelsFail | nntools/tensorflow/losses.py:660 | When some labels name a class and some do not, the reshape of the positive logits to [batch, -1] fails. |
| SplitSoftmax.RowLossIsMeanViolation | nntools/tensorflow/losses.py:673-674 | A row's loss is reduce_mean_nonzero of its relus. It is non-negative, bounded by the largest margin, and zero exactly when no margin is positive. |
| SplitSoftmax.MarginsOfSingleTargets | nntools/tensorflow/losses.py:673 | With one target logit per row, m + neg - pos broadcasts that target against every other logit of the row. |
| SplitSoftmax.MarginsAreTargetMargins | nntools/tensorflow/losses.py:660-674 | When every label names a class, the margins are m + other - target, row by row. |
| SplitSoftmax.RowSeparated | nntools/tensorflow/losses.py:673-674 | A row's margins are all non-positive exactly when its target logit beats every other logit by m. |
| SplitSoftmax.SplitSoftmaxProperties | nntools/tensorflow/losses.py:600-679 | When every label names a class, the loss is defined and non-negative. It is zero exactly when every target beats every other class by m. |
| SplitSoftmax.SplitSoftmaxFails | nntools/tensorflow/losses.py:600-679 | The loss fails on a label/feature count mismatch, on an empty batch, and on a mix of in-range and out-of-range labels. |
| PairLoss.PairReshapeDefined | nntools/tensorflow/losses.py:747 | The `[-1, 2, d]` reshape of the flattened batch succeeds exactly when d > 0 and the batch has an even number of rows, and then has one block per pair. |
| PairLoss.PairReshapeRows | nntools/tensorflow/losses.py:747 | Block p of the reshape holds batch rows 2p and 2p + 1, in that order. |
| PairLoss.Templates | nntools/tensorflow/losses.py:747-748 | The `[:, 0, :]` slice of the reshape puts batch row 2p in template row p. |
| PairLoss.Probes | nntools/tensorflow/losses.py:747-749 | The `[:, 1, :]` slice of the reshape puts batch row 2p + 1 in probe row p. |
| PairLoss.PairLogitsAreDistances | nntools/tensorflow/losses.py:751 | Logit (i, j) is minus the squared distance from template i to probe j. |
| PairLoss.MaskCounts | nntools/tensorflow/losses.py:757-763 | The diagonal mask keeps one entry per row. The off-diagonal mask keeps P - 1. |
| PairLoss.DiagonalSelection | nntools/tensorflow/losses.py:762-793 | The genuine logits reshaped to [P, -1] are the diagonal. |
| PairLoss.OffDiagonalSelection | nntools/tensorflow/losses.py:763-794 | The impostor logits reshaped to [P, -1] give row i of the logits without its diagonal entry. |
| PairLoss.TransposedSelection | nntools/tensorflow/losses.py:795-799 | In the corrected mining, row i of the transposed reshape is column i without its diagonal entry. |
| PairLoss.HalfViolation | nntools/tensorflow/losses.py:804-805 | Half a hinge is non-negative, and zero exactly when the axis is empty or m plus the hardest impostor is at most the genuine logit. |
| PairLoss.HalfViolationZeroIff | nntools/tensorflow/losses.py:804-805 | Half a hinge against the hardest impostor is non-negative. It is zero exactly when m plus every impostor is at most the genuine logit. |
| PairLoss.PairHingeZeroIff | nntools/tensorflow/losses.py:797-805 | Pair i's hinge is non-negative. It is zero exactly when its row and its column are a margin below the gamma-scaled genuine logit. |
| PairLoss.PairLossFromLogitsZeroIff | nntools/tensorflow/losses.py:793-806 | The corrected loss from logits is defined exactly for P > 0. It is non-negative, and zero exactly when every pair is separated along its row and column. |
| PairLoss.SeparatedByDistances | nntools/tensorflow/losses.py:751 | Logit separation is the same as this: each genuine distance, scaled by gamma and widened by m, is at most the distance to every other probe and from every other template. |
| PairLoss.PairLossProperties | nntools/tensorflow/losses.py:718-820 | The corrected pair_loss is defined exactly for a non-empty, even batch with d > 0. It is non-negative, and zero exactly when every pair is separated by distances. |
| PairLoss.OffDiagonalFlatEntry | nntools/tensorflow/losses.py:763-794 | Entry i (P - 1) + a of the flattened impostor logits is the a-th off-diagonal logit of row i. |
| PairLoss.AsWrittenShape | nntools/tensorflow/losses.py:795 | For every P > 0 the [-1, P] reshape of the impostor logits succeeds with P - 1 rows of P entries. |
| PairLoss.AsWrittenColumnsByPosition | nntools/tensorflow/losses.py:795-799 | For every P, entry (r, j) of the [-1, P] reshape is flat entry r P + j of the row-major impostor list, whatever column that entry came from. |
| PairLoss.AsWrittenFirstRowEntry | nntools/tensorflow/losses.py:795-799 | For every P, column j of the [-1, P] reshape starts with L[0][j + 1], a logit of column j + 1, not of column j. |
| PairLoss.PairLossFromLogitsAsWrittenProperties | nntools/tensorflow/losses.py:793-806 | The loss as written, from logits, is defined exactly for P > 0. It is then non-negative, and zero only when every row is separated. |
| PairLoss.PairLossAsWrittenProperties | nntools/tensorflow/losses.py:718-806 | pair_loss as written is defined exactly for a non-empty, even batch with d > 0. It is non-negative, and zero only when every template is a margin closer to its own probe than to any other. |
| PairLoss.AsWrittenColumnsMixRows | nntools/tensorflow/losses.py:795 | For P = 3, the [-1, P] reshape of the impostor logits groups entries from different rows. Its axis-0 maxima are not column maxima. |
| PairLoss.PairLossMissesColumnViolation | nntools/tensorflow/losses.py:795-806 | There is a batch on which the as-written loss is 0 although one pair violates the margin along its column. The corrected loss is 38/3 there. |
| PairLoss.GammaSchedule | nntools/tensorflow/losses.py:775-779 | A non-zero gamma is the reciprocal of a temperature that is at least t_min. |
| PairLoss.GammaScheduleBounds | nntools/tensorflow/losses.py:775-779 | For t_min > 0 and decay >= 0, gamma is defined and lies in (0, 1 / t_min]. It never decreases with the global step. |

## Left out

- The `sqrt=True` branches of the distances are left out. Square roots are not modelled over the reals.
- l2 normalisation is not modelled. This covers the inputs of every loss, the `normalize=True` option of the triplet and contrastive losses, and the renormalisation of the centres at lines 489 and 693. Inputs are taken as already normalised, and the update closed forms are the pre-normalised rows.
- In `angular_softmax`, the cos(m theta) polynomials, acos, floor and the feature norm are left out. cos(theta), phi(theta) and the norm are taken as given.
- Softmax cross-entropy, logsumexp and softplus are left out. They are transcendental, so the parts of `softmax_loss`, `am_softmax` and `euc_loss` that feed them are not modelled.
- The gamma = 'auto' branches (softplus or log-exp) are left out for the same reason.
- `split_softmax` computes gamma at lines 643-653 but never applies it (lines 663-664), so gamma does not appear in the model of that loss.
- The `scale` factor of `am_softmax` is left out. Its value is a learned variable.
- The update branches of `softmax_loss` (lines 171-181), `euc_loss` (552-562), `split_softmax` (684-691) and `class_divergence` (1422-1443) never run as written: each tests that its variable is not trainable, and each variable is created with `trainable=True` (lines 158, 507, 578, 1381). They are modelled as what the branch would compute. Of the centre updates, only those of `center_loss`, `am_softmax_imprint` (`trainable=False`, line 424) and `live_center_loss` (`trainable=False`, line 1244; unguarded `assign_sub` at lines 1252-1254) run, the second only with a numeric alpha. The update ops are modelled without the control dependencies that order them.
- Float rounding, overflow and NaN propagation are left out. An op that would produce NaN, or an inf that a later op consumes, returns an `Err`. The gamma schedule of `pair_loss` is the exception: when 1 + decay * step is 0 it returns gamma = 0, as 1 / inf.
- `Centers.Gather` and `Centers.ScatterSub` follow the CPU kernels, which reject an index outside the table. On a GPU, `tf.gather` returns zero rows for such an index, and that behaviour is not modelled.
- Later ops are not modelled as consuming a NaN.
- `uncertain_distance`, `uncertain_triplet_loss`, `cosine_softmax`, `norm_loss`, `ring_loss`, `decov_loss` and the other losses are outside the modelled core.
- The same holds for `fixed_anchor`, `deb_loss`, `pair_loss_twin`, `scaled_npair` and the duplicated definitions at lines 1122 and 1136. The one exception: `pair_loss_twin`'s column mining is the reference for the corrected `pair_loss`.
- Variable creation, summaries, `tfwatcher` and `tf.add_to_collection` are graph bookkeeping with no arithmetic.
- `nets/chimney_cnn.py` is not part of this model.
- The loss values of `am_softmax` and `scaled_npair` are softmax cross-entropy, so they are left out. Their masks are modelled. `am_softmax`'s one-hot split (lines 381-387, 399-400) is the split of `SplitSoftmax.OneHotSplit`. `scaled_npair`'s masks (lines 1275-1279) are `Masks.PositivePairs` and `Masks.DifferentLabels`.
- The version-fallback `try/except` wrappers (lines 128-149) carry no arithmetic.
- Code that cannot run as written is left out:
  - the `grpl2` branch uses names it never defines (lines 50-51);
  - `tf.redcue_mean` at line 109 is a typo;
  - `mean_dev` uses an undefined `z_inv_sigma_sq` (line 1468);
  - `decov_loss` masks a d x d matrix with a batch x batch identity (lines 235-236);
  - `dim_pool` has code after its `return` (lines 1572-1602);
  - `am_softmax_imprint` with its default `alpha='auto'` (line 415) multiplies that string by a tensor at line 483, and with `multi_lr=True` by the learning rate at line 472, so with that default it cannot be built and its update never runs.
- `batch_norm` and the batch branches of `normalize_embeddings` are library layers with no arithmetic of their own here.
- SplitSoftmax.SplitSoftmaxProperties: the value is characterised only when every label names a class. A batch with all labels out of range has an empty target reshape, and that case is not characterised.
- Angular.LambdaScheduleBounds: the upper bound is stated only for lambda_max >= 0. For a negative lambda_max the schedule rises towards 0, so the bound does not hold.
- Angular.LambdaNonincreasing: only for lambda_max >= 0, for the same reason.
- CenterUpdates.ImprintUpdate: modelled for a numeric alpha only. The default `alpha='auto'` raises at line 483 (at line 472 first with `multi_lr=True`), so with that default there is no update to model.
- Angular.BlendTargetOnly: the entries are stated only when labels and logit rows agree in number. A length-1 operand is reduced to that case by Angular.BlendBroadcast, which states the blend of the broadcast operands.
- Triplet.TripletLossBalanced: the zero-iff is stated only for batches where every anchor has the same number of positives and of negatives. Otherwise the reshapes to [batch, -1] either fail or mix anchors, and `Selection.Reshape` models that literally.

## Findings

| source | as written | input that shows it | evidently intended | confidence | as-written member | corrected member |
|---|---|---|---|---|---|---|
| nntools/tensorflow/losses.py:795-799 | `tf.reshape(logits_neg, [-1, num_pairs])` followed by `reduce_max(axis=0)` regroups the row-major impostor list by flat position. The result is not the maximum over each column of the logit matrix. | Batch X = [[0],[10],[15],[15],[100],[100]] (3 template/probe pairs, d = 1), gamma = 1, m = 1. Pair 0's probe is at squared distance 100 from its template but only 25 from template 1 (logit L10 = -25 against the genuine L00 = -100). | The hardest impostor of column i should be the maximum of column i without its diagonal entry, as `pair_loss_twin` computes it from the transposed matrix (lines 860, 882-886). The loss on this batch is then 38/3 instead of 0. | not executed | PairLoss.PairLossAsWritten (with PairLoss.PairLossMissesColumnViolation, PairLoss.AsWrittenColumnsMixRows, PairLoss.AsWrittenColumnsByPosition and PairLoss.AsWrittenFirstRowEntry) | PairLoss.PairLoss (with PairLoss.PairLossProperties) |

=== FILE: angular.dfy ===
/** The arithmetic of angular_softmax that does not need acos or floor:
    the annealing of lambda and the blend of the target logit.

    cos(theta) and phi(theta) = (-1)^k cos(m theta) - 2k are taken as
    given matrices; only the clamp of cos(theta) to [-1, 1], the scaling by
    the feature norm and the blend are modelled.
 */
module Angular {
  import opened Linalg
  import opened Outcome
  import opened Reductions

  /** lambda at a global step: max(lambda_min, lambda_max / (1 + 0.1 * step)). */
  function LambdaSchedule(lmin: real, lmax: real, step: nat): (lam: real)
    ensures lam >= lmin && lam >= lmax / (1.0 + 0.1 * step as real)
    ensures lam == lmin || lam == lmax / (1.0 + 0.1 * step as real)
  {
    Max(lmin, lmax / (1.0 + 0.1 * step as real))
  }

  /** minimum(1, maximum(-1, x)). */
  function Clamp(x: real): real {
    Min(1.0, Max(-1.0, x))
  }

  /** The logits after the blend: every entry is clamp(cos) * norm, except
      that the target entry loses cos * norm / (1 + lambda) and gains
      phi * norm / (1 + lambda). With lambda = -1 every entry divides by
      zero, and a non-target entry 0 / 0 is NaN. A label outside
      [0, classes) has no target entry. The one-hot product broadcasts a
      single label against every row, or a single row against every
      label. */
  function BlendLogits(cos: Matrix, phi: Matrix, norm: Vector, labels: seq<int>, classes: nat, lam: real): Result<Matrix>
    requires IsMatrix(cos, |cos|, classes) && IsMatrix(phi, |cos|, classes) && |norm| == |cos|
  {
    if !Broadcastable(|labels|, |cos|) then Err(ShapeMismatch)
    else if 1.0 + lam == 0.0 then Err(NotANumber)
    else
      var n := BroadcastSize(|labels|, |cos|);
      var lab, C, P, N := Broadcast(labels, n), Broadcast(cos, n), Broadcast(phi, n), Broadcast(norm, n);
      BroadcastMatrix(cos, n, classes);
      BroadcastMatrix(phi, n, classes);
      Ok(BlendRows(C, P, N, lab, classes, lam))
  }

  /** The blend on rows already lined up with their labels. */
  function BlendRows(C: Matrix, P: Matrix, N: Vector, lab: seq<int>, classes: nat, lam: real): (r: Matrix)
    requires IsMatrix(C, |C|, classes) && IsMatrix(P, |C|, classes) && |N| == |C| == |lab|
    requires lam != -1.0
    ensures IsMatrix(r, |C|, classes)
  {
    seq(|C|, i requires 0 <= i < |C| => seq(classes, c requires 0 <= c < classes =>
      var hot := if lab[i] == c then 1.0 else 0.0;
      var cn := Clamp(C[i][c]) * N[i];
      var pn := P[i][c] * N[i];
      cn - hot * cn * 1.0 / (1.0 + lam) + hot * pn * 1.0 / (1.0 + lam)))
  }

  // ----- lemmas -----

  /** The clamp lands in [-1, 1] and leaves values already there alone. */
  lemma ClampRange(x: real)
    ensures -1.0 <= Clamp(x) <= 1.0
    ensures -1.0 <= x <= 1.0 <==> Clamp(x) == x
  {
  }

  /** lambda never drops below lambda_min and, for a non-negative
      lambda_max, never exceeds max(lambda_min, lambda_max); it starts at
      max(lambda_min, lambda_max). */
  lemma LambdaScheduleBounds(lmin: real, lmax: real, step: nat)
    ensures LambdaSchedule(lmin, lmax, step) >= lmin
    ensures lmax >= 0.0 ==> LambdaSchedule(lmin, lmax, step) <= Max(lmin, lmax)
    ensures LambdaSchedule(lmin, lmax, 0) == Max(lmin, lmax)
  {
    var den := 1.0 + 0.1 * step as real;
    if lmax >= 0.0 {
      DivideByAtLeastOne(lmax, den);
    }
  }

  lemma DivideByAtLeastOne(a: real, den: real)
    requires a >= 0.0 && den >= 1.0
    ensures 0.0 <= a / den <= a
  {
    var q := a / den;
    assert q * den == a;
    assert a - q == q * (den - 1.0);
  }

  /** For a non-negative lambda_max the schedule never increases. */
  lemma LambdaNonincreasing(lmin: real, lmax: real, s: nat, t: nat)
    requires lmax >= 0.0 && s <= t
    ensures LambdaSchedule(lmin, lmax, t) <= LambdaSchedule(lmin, lmax, s)
  {
    var ds := 1.0 + 0.1 * s as real;
    var dt := 1.0 + 0.1 * t as real;
    DivisionAntitone(lmax, ds, dt);
  }

  lemma DivisionAntitone(a: real, x: real, y: real)
    requires a >= 0.0 && 0.0 < x <= y
    ensures a / y <= a / x
  {
    var p := a / x;
    var q := a / y;
    assert p * x == a && q * y == a;
    assert q * x <= q * y;
  }

  /** With a positive floor the schedule reaches lambda_min once
      step >= 10 * (lambda_max / lambda_min - 1), and stays there. */
  lemma LambdaReachesFloor(lmin: real, lmax: real, step: nat)
    requires 0.0 < lmin && step as real >= 10.0 * (lmax / lmin - 1.0)
    ensures LambdaSchedule(lmin, lmax, step) == lmin
  {
    var den := 1.0 + 0.1 * step as real;
    var r := lmax / lmin;
    assert r * lmin == lmax;
    assert den >= r;
    assert den * lmin >= lmax;
    var q := lmax / den;
    assert q * den == lmax;
    assert (lmin - q) * den == lmin * den - lmax;
    ProductSign(lmin - q, den);
  }

  /** The blend succeeds exactly when the labels and rows broadcast
      against each other and lambda is not -1. With one label per row,
      every non-target entry is clamp(cos) * norm and the target entry is
      (lambda * cos * norm + phi * norm) / (1 + lambda), which for
      lambda >= 0 lies between cos * norm and phi * norm. */
  lemma BlendTargetOnly(cos: Matrix, phi: Matrix, norm: Vector, labels: seq<int>, classes: nat, lam: real)
    requires IsMatrix(cos, |cos|, classes) && IsMatrix(phi, |cos|, classes) && |norm| == |cos|
    ensures BlendLogits(cos, phi, norm, labels, classes, lam).Ok? <==> Broadcastable(|labels|, |cos|) && lam != -1.0
    ensures |labels| == |cos| && lam != -1.0 ==>
      var r := BlendLogits(cos, phi, norm, labels, classes, lam).value;
      && IsMatrix(r, |cos|, classes)
      && (forall i, c :: 0 <= i < |cos| && 0 <= c < classes && c != labels[i] ==>
            r[i][c] == Clamp(cos[i][c]) * norm[i])
      && (forall i :: 0 <= i < |cos| && 0 <= labels[i] < classes ==>
            r[i][labels[i]] == Blend(Clamp(cos[i][labels[i]]) * norm[i], phi[i][labels[i]] * norm[i], lam))
  {
    if |labels| == |cos| && lam != -1.0 {
      assert BlendLogits(cos, phi, norm, labels, classes, lam) == Ok(BlendRows(cos, phi, norm, labels, classes, lam));
      BlendRowsEntries(cos, phi, norm, labels, classes, lam);
    }
  }

  /** A single label stands for one label per row, and a single row for
      one row per label: the blend is that of the broadcast operands. */
  lemma BlendBroadcast(cos: Matrix, phi: Matrix, norm: Vector, labels: seq<int>, classes: nat, lam: real)
    requires IsMatrix(cos, |cos|, classes) && IsMatrix(phi, |cos|, classes) && |norm| == |cos|
    requires Broadcastable(|labels|, |cos|)
    ensures var n := BroadcastSize(|labels|, |cos|);
      IsMatrix(Broadcast(cos, n), n, classes) && IsMatrix(Broadcast(phi, n), n, classes) &&
      BlendLogits(cos, phi, norm, labels, classes, lam) ==
        BlendLogits(Broadcast(cos, n), Broadcast(phi, n), Broadcast(norm, n), Broadcast(labels, n), classes, lam)
  {
    var n := BroadcastSize(|labels|, |cos|);
    BroadcastMatrix(cos, n, classes);
    BroadcastMatrix(phi, n, classes);
  }

  lemma BlendRowsEntries(C: Matrix, P: Matrix, N: Vector, lab: seq<int>, classes: nat, lam: real)
    requires IsMatrix(C, |C|, classes) && IsMatrix(P, |C|, classes) && |N| == |C| == |lab|
    requires lam != -1.0
    ensures var r := BlendRows(C, P, N, lab, classes, lam);
      && (forall i, c :: 0 <= i < |C| && 0 <= c < classes && c != lab[i] ==>
            r[i][c] == Clamp(C[i][c]) * N[i])
      && (forall i :: 0 <= i < |C| && 0 <= lab[i] < classes ==>
            r[i][lab[i]] == Blend(Clamp(C[i][lab[i]]) * N[i], P[i][lab[i]] * N[i], lam))
  {
    var r := BlendRows(C, P, N, lab, classes, lam);
    forall i | 0 <= i < |C| && 0 <= lab[i] < classes
      ensures r[i][lab[i]] == Blend(Clamp(C[i][lab[i]]) * N[i], P[i][lab[i]] * N[i], lam)
    {
      TargetAlgebra(Clamp(C[i][lab[i]]) * N[i], P[i][lab[i]] * N[i], lam);
    }
  }

  /** (lambda * a + b) / (1 + lambda), the blended target. */
  function Blend(a: real, b: real, lam: real): (r: real)
    requires lam != -1.0
    ensures r * (1.0 + lam) == lam * a + b
  {
    (lam * a + b) / (1.0 + lam)
  }

  lemma TargetAlgebra(a: real, b: real, lam: real)
    requires lam != -1.0
    ensures a - 1.0 * a * 1.0 / (1.0 + lam) + 1.0 * b * 1.0 / (1.0 + lam) == Blend(a, b, lam)
  {
    var den := 1.0 + lam;
    assert a == a * den / den;
    assert a * den / den - a / den + b / den == (a * den - a + b) / den;
  }

  /** For lambda >= 0 the blended target lies between its two ends, and
      it is phi exactly when lambda = 0 or the ends agree. */
  lemma BlendBetween(a: real, b: real, lam: real)
    requires lam >= 0.0
    ensures Min(a, b) <= Blend(a, b, lam) <= Max(a, b)
    ensures Blend(a, b, lam) == b <==> lam == 0.0 || a == b
  {
    var den := 1.0 + lam;
    var t := Blend(a, b, lam);
    assert t * den == lam * a + b;
    assert (t - b) * den == lam * (a - b);
    assert (t - a) * den == b - a;
    if a <= b {
      ProductSign(t - a, den);
      ProductNonnegative(lam, b - a);
      assert (b - t) * den == lam * (b - a);
      ProductSign(b - t, den);
    } else {
      assert (a - t) * den == a - b;
      ProductSign(a - t, den);
      ProductNonnegative(lam, a - b);
      assert (t - b) * den == lam * (a - b);
      ProductSign(t - b, den);
    }
    if t == b {
      assert lam * (a - b) == 0.0;
    }
  }
}

=== FILE: centers.dfy ===
/** Per-class bookkeeping over a batch of labels: unique_with_counts, the
    appear-times every example is divided by, per-class sums and means,
    unsorted_segment_sum (centers_by_label), and tf.gather / tf.scatter_sub
    on a table of class centres.

    scatter_sub with repeated indices is modelled as a fold that applies
    one update row at a time, so updates aimed at the same row accumulate.
 */
module Centers {
  import opened Linalg
  import opened Outcome

  /** Number of examples labelled c. */
  function Count(labels: seq<int>, c: int): nat {
    if |labels| == 0 then 0 else (if labels[0] == c then 1 else 0) + Count(labels[1..], c)
  }

  /** Sum of the entries v[k] whose key is c. */
  function Picked(keys: seq<int>, v: Vector, c: int): real
    requires |keys| == |v|
  {
    if |keys| == 0 then 0.0 else (if keys[0] == c then v[0] else 0.0) + Picked(keys[1..], v[1..], c)
  }

  /** Coordinate j of the batch mean of the features labelled c. */
  function ClassMean(labels: seq<int>, X: Matrix, d: nat, c: int, j: nat): real
    requires IsMatrix(X, |labels|, d) && j < d && Count(labels, c) > 0
  {
    Picked(labels, Col(X, j), c) / Count(labels, c) as real
  }

  /** Every label lies in [0, n): a valid index into a table of n rows. */
  predicate InRange(labels: seq<int>, n: nat) {
    forall k :: 0 <= k < |labels| ==> 0 <= labels[k] < n
  }

  // ----- unique_with_counts -----

  /** unique_with_counts' first output: the distinct labels, in order of
      first appearance. */
  function Unique(labels: seq<int>): (u: seq<int>)
    ensures forall a, b :: 0 <= a < b < |u| ==> u[a] != u[b]
    ensures forall x :: x in u <==> x in labels
    ensures forall a, b :: 0 <= a < b < |u| ==> IndexOf(labels, u[a]) < IndexOf(labels, u[b])
  {
    if |labels| == 0 then []
    else
      var p := labels[..|labels| - 1];
      var u := Unique(p);
      var x := labels[|labels| - 1];
      assert labels == p + [x];
      assert forall y :: y in labels <==> y in p || y == x;
      assert forall a :: 0 <= a < |u| ==> IndexOf(labels, u[a]) == IndexOf(p, u[a]) < |p| by {
        forall a | 0 <= a < |u| ensures IndexOf(labels, u[a]) == IndexOf(p, u[a]) < |p| {
          IndexOfExtended(p, x, u[a]);
        }
      }
      if x in u then u
      else
        assert IndexOf(labels, x) == |p|;
        u + [x]
  }

  /** Position of the first occurrence of x in a sequence that holds it. */
  function IndexOf(u: seq<int>, x: int): (i: nat)
    requires x in u
    ensures i < |u| && u[i] == x
    ensures forall j :: 0 <= j < i ==> u[j] != x
  {
    if u[0] == x then 0 else 1 + IndexOf(u[1..], x)
  }

  /** Appending an element leaves the first occurrences before it. */
  lemma IndexOfExtended(p: seq<int>, x: int, y: int)
    requires y in p
    ensures y in p + [x] && IndexOf(p + [x], y) == IndexOf(p, y)
  {
    var i := IndexOf(p, y);
    assert (p + [x])[i] == y;
  }

  /** unique_with_counts' second output: where each label sits in Unique. */
  function UniqueIdx(labels: seq<int>): (idx: seq<nat>)
    ensures |idx| == |labels|
    ensures forall k :: 0 <= k < |labels| ==> idx[k] < |Unique(labels)|
  {
    var u := Unique(labels);
    seq(|labels|, k requires 0 <= k < |labels| => IndexOf(u, labels[k]))
  }

  /** unique_with_counts' third output: how often each distinct label
      occurs. */
  function UniqueCounts(labels: seq<int>): (n: seq<nat>)
    ensures |n| == |Unique(labels)|
  {
    var u := Unique(labels);
    seq(|u|, i requires 0 <= i < |u| => Count(labels, u[i]))
  }

  /** tf.gather(unique_count, unique_idx): the size of each example's
      class within the batch. */
  function AppearTimes(labels: seq<int>): (n: seq<nat>)
    ensures |n| == |labels|
  {
    var idx := UniqueIdx(labels);
    var counts := UniqueCounts(labels);
    seq(|labels|, k requires 0 <= k < |labels| => counts[idx[k]])
  }

  // ----- gather and scatter_sub -----

  /** tf.gather(table, labels): an index outside the table fails. */
  function Gather(table: Matrix, labels: seq<int>): (r: Result<Matrix>)
    ensures r.Ok? <==> InRange(labels, |table|)
    ensures r.Ok? ==> |r.value| == |labels| && forall k :: 0 <= k < |labels| ==> r.value[k] == table[labels[k]]
  {
    if InRange(labels, |table|) then Ok(seq(|labels|, k requires 0 <= k < |labels| => table[labels[k]]))
    else Err(IndexOutOfRange)
  }

  /** u - v, entrywise. */
  function RowSub(u: Vector, v: Vector): (r: Vector)
    requires |u| == |v|
    ensures |r| == |u|
  {
    seq(|u|, j requires 0 <= j < |u| => u[j] - v[j])
  }

  /** tf.scatter_sub(table, indices, updates), one update row at a time:
      row indices[k] loses updates[k]; an index outside the table fails. */
  function ScatterSub(table: Matrix, d: nat, indices: seq<int>, updates: Matrix): Result<Matrix>
    requires IsMatrix(table, |table|, d) && IsMatrix(updates, |indices|, d)
    decreases |indices|
  {
    if |indices| == 0 then Ok(table)
    else if !(0 <= indices[0] < |table|) then Err(IndexOutOfRange)
    else ScatterSub(table[indices[0] := RowSub(table[indices[0]], updates[0])], d, indices[1..], updates[1..])
  }

  /** tf.unsorted_segment_sum(rows, idx, num): row u of the result adds up
      the rows whose segment is u. */
  function SegmentSum(rows: Matrix, d: nat, idx: seq<int>, num: nat): (s: Matrix)
    requires IsMatrix(rows, |idx|, d)
    ensures IsMatrix(s, num, d)
  {
    seq(num, u requires 0 <= u < num => seq(d, j requires 0 <= j < d => Picked(idx, Col(rows, j), u)))
  }

  /** What centers_by_label returns. */
  datatype BatchCenters = BatchCenters(centers: Matrix, uniqueLabels: seq<int>, uniqueIdx: seq<nat>, uniqueCounts: seq<nat>)

  /** centers_by_label (lines 707-715): every feature divided by its
      class's appear-time, then summed per distinct label. The division
      broadcasts a single feature row against the [labels, 1] appear-times;
      any other count mismatch fails. */
  function CentersByLabel(X: Matrix, d: nat, labels: seq<int>): Result<BatchCenters>
    requires IsMatrix(X, |X|, d)
  {
    if |X| != |labels| && |X| != 1 then Err(ShapeMismatch)
    else
      var Y := Broadcast(X, |labels|);
      BroadcastMatrix(X, |labels|, d);
      var idx := UniqueIdx(labels);
      Ok(BatchCenters(SegmentSum(Weighted(Y, d, labels), d, idx, |Unique(labels)|), Unique(labels), idx, UniqueCounts(labels)))
  }

  /** features / appear_times: each row divided by how often its label
      occurs in the batch. */
  function Weighted(X: Matrix, d: nat, labels: seq<int>): (w: Matrix)
    requires IsMatrix(X, |X|, d) && |labels| == |X|
    ensures IsMatrix(w, |X|, d)
  {
    var appear := AppearTimes(labels);
    seq(|X|, k requires 0 <= k < |X| =>
      seq(d, j requires 0 <= j < d => if appear[k] == 0 then 0.0 else X[k][j] / appear[k] as real))
  }

  // ----- lemmas -----

  lemma {:induction false} CountPositive(labels: seq<int>, c: int)
    requires c in labels
    ensures Count(labels, c) >= 1
  {
    if labels[0] != c {
      assert c in labels[1..];
      CountPositive(labels[1..], c);
    }
  }

  lemma {:induction false} CountAbsent(labels: seq<int>, c: int)
    requires c !in labels
    ensures Count(labels, c) == 0
  {
    if |labels| > 0 {
      assert c !in labels[1..];
      CountAbsent(labels[1..], c);
    }
  }

  /** Each example's appear-time is the number of examples sharing its
      label, hence at least 1. */
  lemma AppearTimesCount(labels: seq<int>, k: nat)
    requires k < |labels|
    ensures AppearTimes(labels)[k] == Count(labels, labels[k]) >= 1
  {
    var u := Unique(labels);
    assert labels[k] in labels;
    var i := UniqueIdx(labels)[k];
    assert u[i] == labels[k];
    CountPositive(labels, labels[k]);
  }

  /** Unique, UniqueIdx and UniqueCounts reconstruct the batch: every label
      is the distinct label its index points at, and the counts are the
      class sizes, all positive. */
  lemma UniqueWithCountsSpec(labels: seq<int>)
    ensures forall k :: 0 <= k < |labels| ==> Unique(labels)[UniqueIdx(labels)[k]] == labels[k]
    ensures forall i :: 0 <= i < |Unique(labels)| ==>
      UniqueCounts(labels)[i] == Count(labels, Unique(labels)[i]) >= 1
  {
    var u := Unique(labels);
    forall i | 0 <= i < |u| ensures Count(labels, u[i]) >= 1 {
      assert u[i] in u;
      CountPositive(labels, u[i]);
    }
  }

  /** Sums picked under two key sequences agree when the same positions are
      picked. */
  lemma {:induction false} PickedSamePositions(keys1: seq<int>, c1: int, keys2: seq<int>, c2: int, v: Vector)
    requires |keys1| == |v| && |keys2| == |v|
    requires forall k :: 0 <= k < |v| ==> (keys1[k] == c1 <==> keys2[k] == c2)
    ensures Picked(keys1, v, c1) == Picked(keys2, v, c2)
  {
    if |v| > 0 {
      PickedSamePositions(keys1[1..], c1, keys2[1..], c2, v[1..]);
    }
  }

  /** Dividing every picked entry by n divides their sum by n. */
  lemma {:induction false} PickedDivided(keys: seq<int>, u: Vector, v: Vector, c: int, n: real)
    requires |keys| == |u| == |v| && n > 0.0
    requires forall k :: 0 <= k < |keys| && keys[k] == c ==> u[k] == v[k] / n
    ensures Picked(keys, u, c) == Picked(keys, v, c) / n
  {
    if |keys| > 0 {
      PickedDivided(keys[1..], u[1..], v[1..], c, n);
      var head := if keys[0] == c then v[0] else 0.0;
      assert (head + Picked(keys[1..], v[1..], c)) / n == head / n + Picked(keys[1..], v[1..], c) / n;
    }
  }

  /** t is w times the gap a - y. Kept as a predicate so that the product
      stays folded under quantifiers. */
  predicate ScaledGap(t: real, w: real, a: real, y: real) {
    t == w * (a - y)
  }

  /** When every picked entry is w * (a - y_k), the picked sum is
      w * (count * a - sum of the picked y_k). */
  lemma {:induction false} PickedAffine(keys: seq<int>, u: Vector, y: Vector, c: int, w: real, a: real)
    requires |keys| == |u| == |y|
    requires forall k :: 0 <= k < |keys| && keys[k] == c ==> ScaledGap(u[k], w, a, y[k])
    ensures ScaledGap(Picked(keys, u, c), w, Count(keys, c) as real * a, Picked(keys, y, c))
  {
    if |keys| > 0 {
      PickedAffine(keys[1..], u[1..], y[1..], c, w, a);
      var n' := Count(keys[1..], c) as real;
      var s' := Picked(keys[1..], y[1..], c);
      if keys[0] == c {
        calc {
          Picked(keys, u, c);
          w * (a - y[0]) + w * (n' * a - s');
          w * ((n' + 1.0) * a - (y[0] + s'));
        }
      }
    }
  }

  /** Picking from zeros gives zero. */
  lemma {:induction false} PickedZeros(keys: seq<int>, v: Vector, c: int)
    requires |keys| == |v| && forall k :: 0 <= k < |v| ==> v[k] == 0.0
    ensures Picked(keys, v, c) == 0.0
  {
    if |keys| > 0 {
      PickedZeros(keys[1..], v[1..], c);
    }
  }

  /** A key that never occurs picks nothing. */
  lemma {:induction false} PickedAbsent(keys: seq<int>, v: Vector, c: int)
    requires |keys| == |v| && Count(keys, c) == 0
    ensures Picked(keys, v, c) == 0.0
  {
    if |keys| > 0 {
      PickedAbsent(keys[1..], v[1..], c);
    }
  }

  /** The fold agrees with the closed form of scatter_sub: it succeeds
      exactly when every index lies in the table, and then entry (c, j)
      has lost the sum of the updates aimed at row c, in coordinate j. */
  lemma {:induction false} ScatterSubClosedForm(table: Matrix, d: nat, indices: seq<int>, updates: Matrix)
    requires IsMatrix(table, |table|, d) && IsMatrix(updates, |indices|, d)
    ensures ScatterSub(table, d, indices, updates).Ok? <==> InRange(indices, |table|)
    ensures ScatterSub(table, d, indices, updates).Ok? ==>
      var r := ScatterSub(table, d, indices, updates).value;
      && IsMatrix(r, |table|, d)
      && forall c, j :: 0 <= c < |table| && 0 <= j < d ==>
           r[c][j] == table[c][j] - Picked(indices, Col(updates, j), c)
    decreases |indices|
  {
    if |indices| > 0 {
      if !(0 <= indices[0] < |table|) {
        assert !InRange(indices, |table|);
      } else {
        var t1 := table[indices[0] := RowSub(table[indices[0]], updates[0])];
        ScatterSubClosedForm(t1, d, indices[1..], updates[1..]);
        assert InRange(indices, |table|) <==> InRange(indices[1..], |table|) by {
          if InRange(indices[1..], |table|) {
            forall k | 0 <= k < |indices| ensures 0 <= indices[k] < |table| {
              if k > 0 {
                assert indices[k] == indices[1..][k - 1];
              }
            }
          }
        }
        if InRange(indices, |table|) {
          var r := ScatterSub(table, d, indices, updates).value;
          forall c, j | 0 <= c < |table| && 0 <= j < d
            ensures r[c][j] == table[c][j] - Picked(indices, Col(updates, j), c)
          {
            assert Col(updates, j)[1..] == Col(updates[1..], j);
          }
        }
      }
    }
  }

  /** Row u of centers_by_label is the batch mean of the (broadcast)
      features whose label is the u-th distinct label; the other outputs
      are those of unique_with_counts. The call fails exactly when the
      features neither match the labels in number nor are a single row. */
  lemma CentersByLabelMeans(X: Matrix, d: nat, labels: seq<int>)
    requires IsMatrix(X, |X|, d)
    ensures CentersByLabel(X, d, labels).Ok? <==> |X| == |labels| || |X| == 1
    ensures |X| == |labels| || |X| == 1 ==>
      var Y := Broadcast(X, |labels|);
      var b := CentersByLabel(X, d, labels).value;
      && IsMatrix(Y, |labels|, d)
      && b.uniqueLabels == Unique(labels)
      && IsMatrix(b.centers, |b.uniqueLabels|, d)
      && (forall u :: 0 <= u < |b.uniqueLabels| ==> Count(labels, b.uniqueLabels[u]) > 0)
      && (forall u, j :: 0 <= u < |b.uniqueLabels| && 0 <= j < d ==>
            b.centers[u][j] == ClassMean(labels, Y, d, b.uniqueLabels[u], j))
  {
    if |X| == |labels| || |X| == 1 {
      var Y := Broadcast(X, |labels|);
      BroadcastMatrix(X, |labels|, d);
      assert CentersByLabel(X, d, labels) == CentersByLabel(Y, d, labels);
      UniqueWithCountsSpec(labels);
      forall u, j | 0 <= u < |Unique(labels)| && 0 <= j < d
        ensures CentersByLabel(Y, d, labels).value.centers[u][j] == ClassMean(labels, Y, d, Unique(labels)[u], j)
      {
        CenterEntry(Y, d, labels, u, j);
      }
    }
  }

  /** A single feature row is broadcast to every label, so every batch
      centre is that row. */
  lemma CentersOfSingleRow(x: Vector, labels: seq<int>)
    ensures CentersByLabel([x], |x|, labels).Ok?
    ensures var b := CentersByLabel([x], |x|, labels).value;
      |b.centers| == |Unique(labels)| && forall u :: 0 <= u < |b.centers| ==> b.centers[u] == x
  {
    var d := |x|;
    var Y := Broadcast([x], |labels|);
    CentersByLabelMeans([x], d, labels);
    var b := CentersByLabel([x], d, labels).value;
    forall u | 0 <= u < |b.centers| ensures b.centers[u] == x {
      forall j | 0 <= j < d ensures b.centers[u][j] == x[j] {
        ClassMeanOfCopies(labels, Y, d, b.uniqueLabels[u], j, x[j]);
      }
    }
  }

  /** Copies of one row average to that row, in every class present. */
  lemma ClassMeanOfCopies(labels: seq<int>, Y: Matrix, d: nat, c: int, j: nat, x: real)
    requires IsMatrix(Y, |labels|, d) && j < d && Count(labels, c) > 0
    requires forall k :: 0 <= k < |Y| ==> Y[k][j] == x
    ensures ClassMean(labels, Y, d, c, j) == x
  {
    PickedConstant(labels, Col(Y, j), c, x);
  }

  /** Picking from a constant vector gives the count times the constant. */
  lemma {:induction false} PickedConstant(keys: seq<int>, v: Vector, c: int, x: real)
    requires |keys| == |v| && forall k :: 0 <= k < |v| ==> v[k] == x
    ensures Picked(keys, v, c) == Count(keys, c) as real * x
  {
    if |keys| > 0 {
      PickedConstant(keys[1..], v[1..], c, x);
    }
  }

  /** Centre u, coordinate j: the class mean of the u-th distinct label. */
  lemma CenterEntry(X: Matrix, d: nat, labels: seq<int>, u: nat, j: nat)
    requires IsMatrix(X, |X|, d) && |X| == |labels| && u < |Unique(labels)| && j < d
    ensures CentersByLabel(X, d, labels).Ok?
    ensures |CentersByLabel(X, d, labels).value.centers| == |Unique(labels)|
    ensures |CentersByLabel(X, d, labels).value.centers[u]| == d
    ensures Count(labels, Unique(labels)[u]) > 0
    ensures CentersByLabel(X, d, labels).value.centers[u][j] == ClassMean(labels, X, d, Unique(labels)[u], j)
  {
    var uq := Unique(labels);
    var idx := UniqueIdx(labels);
    var w := Weighted(X, d, labels);
    var c := uq[u];
    var n := Count(labels, c);
    IdxMatchesLabel(labels, u);
    PickedSamePositions(idx, u, labels, c, Col(w, j));
    WeightedByCount(X, d, labels, j, c);
    PickedDivided(labels, Col(w, j), Col(X, j), c, n as real);
  }

  /** Example k sits at unique position u exactly when it carries the u-th
      distinct label, which occurs at least once. */
  lemma IdxMatchesLabel(labels: seq<int>, u: nat)
    requires u < |Unique(labels)|
    ensures Count(labels, Unique(labels)[u]) >= 1
    ensures forall k :: 0 <= k < |labels| ==> (UniqueIdx(labels)[k] == u <==> labels[k] == Unique(labels)[u])
  {
    var uq := Unique(labels);
    var idx := UniqueIdx(labels);
    UniqueWithCountsSpec(labels);
    forall k | 0 <= k < |labels| ensures idx[k] == u <==> labels[k] == uq[u] {
      assert uq[idx[k]] == labels[k];
    }
  }

  /** The examples of class c are divided by the class size. */
  lemma WeightedByCount(X: Matrix, d: nat, labels: seq<int>, j: nat, c: int)
    requires IsMatrix(X, |X|, d) && |X| == |labels| && j < d && Count(labels, c) > 0
    ensures forall k :: 0 <= k < |labels| && labels[k] == c ==>
      Col(Weighted(X, d, labels), j)[k] == Col(X, j)[k] / Count(labels, c) as real
  {
    forall k | 0 <= k < |labels| && labels[k] == c
      ensures Col(Weighted(X, d, labels), j)[k] == Col(X, j)[k] / Count(labels, c) as real
    {
      var w := Weighted(X, d, labels);
      var a := AppearTimes(labels);
      AppearTimesCount(labels, k);
      assert a[k] != 0 && w[k][j] == X[k][j] / a[k] as real;
      assert Col(w, j)[k] == w[k][j] && Col(X, j)[k] == X[k][j];
    }
  }
}

=== FILE: distance.dfy ===
/** Pairwise distance matrices: euclidean_distance and mahalanobis_distance
    with sqrt=False (the square-root branch is not modelled).

    Both take X as [m, d] and Y already transposed as [d, n], as every
    caller in the loss file passes tf.transpose(...) for Y.
 */
module Distance {
  import opened Linalg

  /** euclidean_distance(X, Y, sqrt=False):
      XX + YY - 2 XY from row norms, column norms and a matmul, clamped at 0. */
  function EuclideanDistance(X: Matrix, Y: Matrix, d: nat, n: nat): (D: Matrix)
    requires IsMatrix(X, |X|, d) && IsMatrix(Y, d, n)
    ensures IsMatrix(D, |X|, n)
  {
    var XX := seq(|X|, i requires 0 <= i < |X| => SqNorm(X[i]));
    var YY := seq(n, j requires 0 <= j < n => SqNorm(Col(Y, j)));
    var XY := MatMul(X, Y, d, n);
    seq(|X|, i requires 0 <= i < |X| =>
      seq(n, j requires 0 <= j < n => Max(0.0, XX[i] + YY[j] - 2.0 * XY[i][j])))
  }

  /** mahalanobis_distance(X, Y, sigma_sq_inv, sqrt=False) with S = sigma_sq_inv
      of shape [m, d]: XX = sum(square(X) * S), YY = S . square(Y),
      XY = (X * S) . Y; no clamp on this branch. */
  function MahalanobisDistance(X: Matrix, Y: Matrix, S: Matrix, d: nat, n: nat): (D: Matrix)
    requires IsMatrix(X, |X|, d) && IsMatrix(Y, d, n) && IsMatrix(S, |X|, d)
    ensures IsMatrix(D, |X|, n)
  {
    var XX := seq(|X|, i requires 0 <= i < |X| => Sum(ElemMul(ElemMul(X[i], X[i]), S[i])));
    var Y2 := seq(d, k requires 0 <= k < d => ElemMul(Y[k], Y[k]));
    var YY := MatMul(S, Y2, d, n);
    var XS := seq(|X|, i requires 0 <= i < |X| => ElemMul(X[i], S[i]));
    var XY := MatMul(XS, Y, d, n);
    seq(|X|, i requires 0 <= i < |X| =>
      seq(n, j requires 0 <= j < n => XX[i] + YY[i][j] - 2.0 * XY[i][j]))
  }

  /** Every entry of euclidean_distance is the squared distance between
      row i of X and column j of Y, and the unclamped expansion is already
      non-negative, so over exact reals the clamp never fires. */
  lemma EuclideanIsSquaredDistance(X: Matrix, Y: Matrix, d: nat, n: nat)
    requires IsMatrix(X, |X|, d) && IsMatrix(Y, d, n)
    ensures forall i, j :: 0 <= i < |X| && 0 <= j < n ==>
      EuclideanDistance(X, Y, d, n)[i][j] == SqDist(X[i], Col(Y, j))
    ensures forall i, j :: 0 <= i < |X| && 0 <= j < n ==>
      SqNorm(X[i]) + SqNorm(Col(Y, j)) - 2.0 * Dot(X[i], Col(Y, j)) >= 0.0
  {
    forall i, j | 0 <= i < |X| && 0 <= j < n
      ensures EuclideanDistance(X, Y, d, n)[i][j] == SqDist(X[i], Col(Y, j))
      ensures SqNorm(X[i]) + SqNorm(Col(Y, j)) - 2.0 * Dot(X[i], Col(Y, j)) >= 0.0
    {
      SqDistExpansion(X[i], Col(Y, j));
      SqDistNonnegative(X[i], Col(Y, j));
    }
  }

  /** The self-distance matrix euclidean_distance(X, transpose(X)) used by
      the triplet, contrastive and n-pair losses: entry (i, j) is
      sum_k (x_ik - x_jk)^2, so it is non-negative, symmetric and zero on
      the diagonal. */
  lemma SelfDistanceProperties(X: Matrix, d: nat)
    requires IsMatrix(X, |X|, d)
    ensures var D := EuclideanDistance(X, Transpose(X, d), d, |X|);
      && IsMatrix(D, |X|, |X|)
      && (forall i, j :: 0 <= i < |X| && 0 <= j < |X| ==> D[i][j] == SqDist(X[i], X[j]))
      && (forall i, j :: 0 <= i < |X| && 0 <= j < |X| ==> D[i][j] >= 0.0)
      && (forall i, j :: 0 <= i < |X| && 0 <= j < |X| ==> D[i][j] == D[j][i])
      && (forall i :: 0 <= i < |X| ==> D[i][i] == 0.0)
  {
    var D := EuclideanDistance(X, Transpose(X, d), d, |X|);
    EuclideanIsSquaredDistance(X, Transpose(X, d), d, |X|);
    forall i, j | 0 <= i < |X| && 0 <= j < |X|
      ensures D[i][j] == SqDist(X[i], X[j]) && D[i][j] >= 0.0 && D[i][j] == D[j][i]
    {
      ColOfTranspose(X, d, j);
      ColOfTranspose(X, d, i);
      SqDistNonnegative(X[i], X[j]);
      SqDistSymmetric(X[i], X[j]);
    }
    forall i | 0 <= i < |X| ensures D[i][i] == 0.0 {
      SqDistSelf(X[i]);
    }
  }

  /** Entry (i, j) of mahalanobis_distance is the weighted squared distance
      sum_k S_ik (x_ik - y_kj)^2. */
  lemma MahalanobisIsWeightedDistance(X: Matrix, Y: Matrix, S: Matrix, d: nat, n: nat)
    requires IsMatrix(X, |X|, d) && IsMatrix(Y, d, n) && IsMatrix(S, |X|, d)
    ensures forall i, j :: 0 <= i < |X| && 0 <= j < n ==>
      MahalanobisDistance(X, Y, S, d, n)[i][j] == WeightedSqDist(S[i], X[i], Col(Y, j))
  {
    var Y2 := seq(d, k requires 0 <= k < d => ElemMul(Y[k], Y[k]));
    forall i, j | 0 <= i < |X| && 0 <= j < n
      ensures MahalanobisDistance(X, Y, S, d, n)[i][j] == WeightedSqDist(S[i], X[i], Col(Y, j))
    {
      var y := Col(Y, j);
      assert Col(Y2, j) == ElemMul(y, y) by {
        forall k | 0 <= k < d ensures Col(Y2, j)[k] == ElemMul(y, y)[k] {
          assert Y2[k] == ElemMul(Y[k], Y[k]);
        }
      }
      NormTermIsWeightedDot(S[i], X[i]);
      ColTermIsWeightedDot(S[i], y);
      CrossTermIsWeightedDot(S[i], X[i], y);
      WeightedSqDistExpansion(S[i], X[i], y);
    }
  }

  lemma {:induction false} NormTermIsWeightedDot(w: Vector, u: Vector)
    requires |w| == |u|
    ensures Sum(ElemMul(ElemMul(u, u), w)) == WeightedDot(w, u, u)
  {
    if |u| > 0 {
      ElemMulTail(u, u);
      ElemMulTail(ElemMul(u, u), w);
      NormTermIsWeightedDot(w[1..], u[1..]);
    }
  }

  lemma {:induction false} ColTermIsWeightedDot(w: Vector, v: Vector)
    requires |w| == |v|
    ensures Dot(w, ElemMul(v, v)) == WeightedDot(w, v, v)
  {
    if |v| > 0 {
      ElemMulTail(v, v);
      ColTermIsWeightedDot(w[1..], v[1..]);
    }
  }

  lemma {:induction false} CrossTermIsWeightedDot(w: Vector, u: Vector, v: Vector)
    requires |w| == |u| == |v|
    ensures Dot(ElemMul(u, w), v) == WeightedDot(w, u, v)
  {
    if |u| > 0 {
      ElemMulTail(u, w);
      CrossTermIsWeightedDot(w[1..], u[1..], v[1..]);
    }
  }

  /** With non-negative inverse variances every Mahalanobis entry is
      non-negative; with unit inverse variances it coincides with the
      Euclidean entry. */
  lemma MahalanobisAgainstEuclidean(X: Matrix, Y: Matrix, S: Matrix, d: nat, n: nat)
    requires IsMatrix(X, |X|, d) && IsMatrix(Y, d, n) && IsMatrix(S, |X|, d)
    ensures (forall i, k :: 0 <= i < |X| && 0 <= k < d ==> S[i][k] >= 0.0) ==>
      forall i, j :: 0 <= i < |X| && 0 <= j < n ==> MahalanobisDistance(X, Y, S, d, n)[i][j] >= 0.0
    ensures (forall i, k :: 0 <= i < |X| && 0 <= k < d ==> S[i][k] == 1.0) ==>
      MahalanobisDistance(X, Y, S, d, n) == EuclideanDistance(X, Y, d, n)
  {
    MahalanobisIsWeightedDistance(X, Y, S, d, n);
    EuclideanIsSquaredDistance(X, Y, d, n);
    var M := MahalanobisDistance(X, Y, S, d, n);
    if forall i, k :: 0 <= i < |X| && 0 <= k < d ==> S[i][k] >= 0.0 {
      forall i, j | 0 <= i < |X| && 0 <= j < n ensures M[i][j] >= 0.0 {
        WeightedSqDistNonnegative(S[i], X[i], Col(Y, j));
      }
    }
    if forall i, k :: 0 <= i < |X| && 0 <= k < d ==> S[i][k] == 1.0 {
      var E := EuclideanDistance(X, Y, d, n);
      forall i, j | 0 <= i < |X| && 0 <= j < n ensures M[i][j] == E[i][j] {
        WeightedSqDistUnit(S[i], X[i], Col(Y, j));
      }
      assert forall i :: 0 <= i < |X| ==> M[i] == E[i];
    }
  }
}

=== FILE: linalg.dfy ===
/** Vectors and matrices over exact reals, and the elementary sums the
    tensor ops reduce to: sums, dot products, squared distances and their
    per-dimension weighted variants.
 */
module Linalg {

  type Vector = seq<real>
  type Matrix = seq<seq<real>>

  /** A dense tensor of shape [rows, cols]. */
  predicate IsMatrix(m: Matrix, rows: nat, cols: nat) {
    |m| == rows && forall i :: 0 <= i < |m| ==> |m[i]| == cols
  }

  function Max(a: real, b: real): real {
    if a >= b then a else b
  }

  function Min(a: real, b: real): real {
    if a <= b then a else b
  }

  /** tf.nn.relu */
  function Relu(x: real): real {
    Max(x, 0.0)
  }

  /** tf.square on one entry */
  function Square(x: real): real {
    x * x
  }

  /** reduce_sum over a vector */
  function Sum(v: Vector): real {
    if |v| == 0 then 0.0 else v[0] + Sum(v[1..])
  }

  function Dot(u: Vector, v: Vector): real
    requires |u| == |v|
  {
    if |u| == 0 then 0.0 else u[0] * v[0] + Dot(u[1..], v[1..])
  }

  /** reduce_sum(square(v)) */
  function SqNorm(v: Vector): real {
    Dot(v, v)
  }

  /** Reference definition of the squared Euclidean distance: the sum over
      dimensions of the squared coordinate difference. */
  function SqDist(u: Vector, v: Vector): real
    requires |u| == |v|
  {
    if |u| == 0 then 0.0 else Square(u[0] - v[0]) + SqDist(u[1..], v[1..])
  }

  /** Sum over dimensions of w_k * u_k * v_k. */
  function WeightedDot(w: Vector, u: Vector, v: Vector): real
    requires |w| == |u| == |v|
  {
    if |u| == 0 then 0.0 else w[0] * u[0] * v[0] + WeightedDot(w[1..], u[1..], v[1..])
  }

  /** Reference definition of the weighted squared distance
      sum_k w_k * (u_k - v_k)^2. */
  function WeightedSqDist(w: Vector, u: Vector, v: Vector): real
    requires |w| == |u| == |v|
  {
    if |u| == 0 then 0.0
    else w[0] * (Square(u[0] - v[0])) + WeightedSqDist(w[1..], u[1..], v[1..])
  }

  /** Elementwise product (tf's `*` on equal shapes). */
  function ElemMul(u: Vector, v: Vector): (r: Vector)
    requires |u| == |v|
    ensures |r| == |u|
  {
    seq(|u|, k requires 0 <= k < |u| => u[k] * v[k])
  }

  lemma ElemMulTail(u: Vector, v: Vector)
    requires |u| == |v| && |u| > 0
    ensures ElemMul(u, v)[1..] == ElemMul(u[1..], v[1..])
  {
    var a, b := ElemMul(u, v)[1..], ElemMul(u[1..], v[1..]);
    assert |a| == |b|;
    forall k | 0 <= k < |a| ensures a[k] == b[k] {
      assert a[k] == u[k + 1] * v[k + 1];
    }
  }

  /** Column j of a matrix. */
  function Col(m: Matrix, j: nat): (c: Vector)
    requires forall i :: 0 <= i < |m| ==> j < |m[i]|
    ensures |c| == |m|
  {
    seq(|m|, i requires 0 <= i < |m| => m[i][j])
  }

  /** tf.transpose of an [rows, cols] matrix. */
  function Transpose(m: Matrix, cols: nat): (t: Matrix)
    requires IsMatrix(m, |m|, cols)
    ensures IsMatrix(t, cols, |m|)
  {
    seq(cols, j requires 0 <= j < cols => Col(m, j))
  }

  /** tf.matmul of [rows, d] by [d, n]. */
  function MatMul(a: Matrix, b: Matrix, d: nat, n: nat): (p: Matrix)
    requires IsMatrix(a, |a|, d) && IsMatrix(b, d, n)
    ensures IsMatrix(p, |a|, n)
  {
    seq(|a|, i requires 0 <= i < |a| => seq(n, j requires 0 <= j < n => Dot(a[i], Col(b, j))))
  }

  /** Broadcasting along the batch axis: a batch of n rows is kept, and a
      single row stands for n copies of itself. */
  function Broadcast<T>(s: seq<T>, n: nat): (b: seq<T>)
    requires |s| == n || |s| == 1
    ensures |b| == n
    ensures forall k :: 0 <= k < n ==> b[k] == s[if |s| == n then k else 0]
  {
    if |s| == n then s else seq(n, _ => s[0])
  }

  /** Two batch sizes that broadcast against each other. */
  predicate Broadcastable(a: nat, b: nat) {
    a == b || a == 1 || b == 1
  }

  /** The size of the broadcast batch. */
  function BroadcastSize(a: nat, b: nat): (n: nat)
    requires Broadcastable(a, b)
    ensures (a == n || a == 1) && (b == n || b == 1)
  {
    if a == 1 then b else a
  }

  /** A broadcast matrix keeps its row width. */
  lemma BroadcastMatrix(m: Matrix, n: nat, d: nat)
    requires IsMatrix(m, |m|, d) && (|m| == n || |m| == 1)
    ensures IsMatrix(Broadcast(m, n), n, d)
  {
  }

  /** Column j of a transposed matrix is row j of the original. */
  lemma ColOfTranspose(m: Matrix, cols: nat, j: nat)
    requires IsMatrix(m, |m|, cols) && j < |m|
    ensures Col(Transpose(m, cols), j) == m[j]
  {
  }

  lemma {:induction false} DotSymmetric(u: Vector, v: Vector)
    requires |u| == |v|
    ensures Dot(u, v) == Dot(v, u)
  {
    if |u| > 0 {
      DotSymmetric(u[1..], v[1..]);
    }
  }

  /** The expansion euclidean_distance relies on:
      ||u - v||^2 == ||u||^2 + ||v||^2 - 2 u.v */
  lemma {:induction false} SqDistExpansion(u: Vector, v: Vector)
    requires |u| == |v|
    ensures SqDist(u, v) == Dot(u, u) + Dot(v, v) - 2.0 * Dot(u, v)
  {
    if |u| > 0 {
      SqDistExpansion(u[1..], v[1..]);
    }
  }

  lemma {:induction false} SqDistNonnegative(u: Vector, v: Vector)
    requires |u| == |v|
    ensures SqDist(u, v) >= 0.0
  {
    if |u| > 0 {
      SqDistNonnegative(u[1..], v[1..]);
    }
  }

  lemma {:induction false} SqDistSymmetric(u: Vector, v: Vector)
    requires |u| == |v|
    ensures SqDist(u, v) == SqDist(v, u)
  {
    if |u| > 0 {
      SqDistSymmetric(u[1..], v[1..]);
    }
  }

  lemma {:induction false} SqDistSelf(u: Vector)
    ensures SqDist(u, u) == 0.0
  {
    if |u| > 0 {
      SqDistSelf(u[1..]);
    }
  }

  /** The squared distance vanishes exactly when the vectors coincide. */
  lemma {:induction false} SqDistZeroIff(u: Vector, v: Vector)
    requires |u| == |v|
    ensures SqDist(u, v) == 0.0 <==> u == v
  {
    if |u| == 0 {
      assert u == v;
    } else if u == v {
      SqDistSelf(u);
    } else {
      SqDistZeroIff(u[1..], v[1..]);
      SqDistNonnegative(u[1..], v[1..]);
      SquareNonnegative(u[0] - v[0]);
      if u[0] == v[0] {
        assert u == [u[0]] + u[1..] && v == [v[0]] + v[1..];
      } else {
        SquarePositive(u[0] - v[0]);
      }
    }
  }

  lemma SquareNonnegative(x: real)
    ensures Square(x) >= 0.0
  {
  }

  lemma SquarePositive(x: real)
    requires x != 0.0
    ensures Square(x) > 0.0
  {
    if x > 0.0 {
      calc { Square(x); == x * x; > 0.0; }
    } else {
      calc { Square(x); == (-x) * (-x); > 0.0; }
    }
  }

  /** One dimension of the weighted expansion. */
  lemma WeightedTermExpansion(w: real, a: real, b: real)
    ensures w * Square(a - b) == w * a * a + w * b * b - 2.0 * (w * a * b)
  {
  }

  lemma ProductNonnegative(a: real, b: real)
    requires a >= 0.0 && b >= 0.0
    ensures a * b >= 0.0
  {
  }

  /** The weighted expansion mahalanobis_distance relies on. */
  lemma {:induction false} WeightedSqDistExpansion(w: Vector, u: Vector, v: Vector)
    requires |w| == |u| == |v|
    ensures WeightedSqDist(w, u, v)
         == WeightedDot(w, u, u) + WeightedDot(w, v, v) - 2.0 * WeightedDot(w, u, v)
  {
    if |u| > 0 {
      var (a, b, c) := (w[1..], u[1..], v[1..]);
      WeightedSqDistExpansion(a, b, c);
      var (uu, vv, uv) := (w[0] * u[0] * u[0], w[0] * v[0] * v[0], w[0] * u[0] * v[0]);
      var (bb, cc, bc) := (WeightedDot(a, b, b), WeightedDot(a, c, c), WeightedDot(a, b, c));
      calc {
        WeightedSqDist(w, u, v);
        w[0] * Square(u[0] - v[0]) + WeightedSqDist(a, b, c);
        { WeightedTermExpansion(w[0], u[0], v[0]); }
        (uu + vv - 2.0 * uv) + (bb + cc - 2.0 * bc);
        { Regroup(uu, vv, uv, bb, cc, bc); }
        (uu + bb) + (vv + cc) - 2.0 * (uv + bc);
        WeightedDot(w, u, u) + WeightedDot(w, v, v) - 2.0 * WeightedDot(w, u, v);
      }
    }
  }

  lemma Regroup(p: real, q: real, r: real, x: real, y: real, z: real)
    ensures (p + q - 2.0 * r) + (x + y - 2.0 * z) == (p + x) + (q + y) - 2.0 * (r + z)
  {
  }

  lemma {:induction false} WeightedSqDistNonnegative(w: Vector, u: Vector, v: Vector)
    requires |w| == |u| == |v|
    requires forall k :: 0 <= k < |w| ==> w[k] >= 0.0
    ensures WeightedSqDist(w, u, v) >= 0.0
  {
    if |u| > 0 {
      SquareNonnegative(u[0] - v[0]);
      ProductNonnegative(w[0], Square(u[0] - v[0]));
      WeightedSqDistNonnegative(w[1..], u[1..], v[1..]);
    }
  }

  /** With unit weights the weighted distance is the plain one. */
  lemma {:induction false} WeightedSqDistUnit(w: Vector, u: Vector, v: Vector)
    requires |w| == |u| == |v|
    requires forall k :: 0 <= k < |w| ==> w[k] == 1.0
    ensures WeightedSqDist(w, u, v) == SqDist(u, v)
  {
    if |u| > 0 {
      WeightedSqDistUnit(w[1..], u[1..], v[1..]);
    }
  }

  // ----- sums -----

  lemma {:induction false} SumConcat(a: Vector, b: Vector)
    ensures Sum(a + b) == Sum(a) + Sum(b)
  {
    if |a| == 0 {
      assert a + b == b;
    } else {
      assert (a + b)[0] == a[0];
      assert (a + b)[1..] == a[1..] + b;
      SumConcat(a[1..], b);
    }
  }

  lemma {:induction false} SumNonnegative(v: Vector)
    requires forall k :: 0 <= k < |v| ==> v[k] >= 0.0
    ensures Sum(v) >= 0.0
  {
    if |v| > 0 {
      SumNonnegative(v[1..]);
    }
  }

  /** A sum of non-negative terms is zero exactly when every term is. */
  lemma {:induction false} SumZeroIff(v: Vector)
    requires forall k :: 0 <= k < |v| ==> v[k] >= 0.0
    ensures Sum(v) == 0.0 <==> forall k :: 0 <= k < |v| ==> v[k] == 0.0
  {
    if |v| > 0 {
      var rest := v[1..];
      assert forall k :: 0 <= k < |rest| ==> rest[k] == v[k + 1];
      SumZeroIff(rest);
      SumNonnegative(rest);
      if Sum(v) == 0.0 {
        forall k | 0 <= k < |v| ensures v[k] == 0.0 {
          if k > 0 {
            assert v[k] == rest[k - 1];
          }
        }
      }
    }
  }

  /** Every term at most `b` bounds the sum by |v| * b. */
  lemma {:induction false} SumUpperBound(v: Vector, b: real)
    requires forall k :: 0 <= k < |v| ==> v[k] <= b
    ensures Sum(v) <= |v| as real * b
  {
    if |v| > 0 {
      SumUpperBound(v[1..], b);
    }
  }

  /** Every term equal to `x` gives the sum |v| * x. */
  lemma {:induction false} SumConstant(v: Vector, x: real)
    requires forall k :: 0 <= k < |v| ==> v[k] == x
    ensures Sum(v) == |v| as real * x
  {
    if |v| > 0 {
      SumConstant(v[1..], x);
    }
  }

  /** Sum of a termwise difference. */
  lemma {:induction false} SumDifference(a: Vector, b: Vector, c: Vector)
    requires |a| == |b| == |c|
    requires forall k :: 0 <= k < |c| ==> c[k] == a[k] - b[k]
    ensures Sum(c) == Sum(a) - Sum(b)
  {
    if |a| > 0 {
      SumDifference(a[1..], b[1..], c[1..]);
    }
  }
}

=== FILE: livecenter.dfy ===
/** live_center_loss: a single centre for the examples labelled 0.

    When labels are given only the rows labelled 0 take part. The loss is
    coef * 0.5 * the mean squared distance from those rows to the centre;
    the update subtracts the mean of (centre - row), which moves the centre
    onto the batch mean outright. The alpha parameter is accepted and never
    used.
 */
module LiveCenter {
  import opened Linalg
  import opened Outcome
  import opened Centers
  import opened Reductions

  /** The rows labelled 0, in order. */
  function KeepClassZero(F: Matrix, labels: seq<int>): (r: Matrix)
    requires |labels| == |F|
  {
    if |F| == 0 then []
    else (if labels[0] == 0 then [F[0]] else []) + KeepClassZero(F[1..], labels[1..])
  }

  /** boolean_mask(features, labels == 0) when labels are given, the
      features unchanged otherwise; the mask must have one entry per row. */
  function LiveRows(F: Matrix, labels: Option<seq<int>>): Result<Matrix> {
    if labels.None? then Ok(F)
    else if |labels.value| != |F| then Err(ShapeMismatch)
    else Ok(KeepClassZero(F, labels.value))
  }

  /** center - features, broadcast over the rows. */
  function Gaps(center: Vector, F: Matrix, d: nat): (g: Matrix)
    requires |center| == d && IsMatrix(F, |F|, d)
    ensures IsMatrix(g, |F|, d)
  {
    seq(|F|, k requires 0 <= k < |F| => seq(d, j requires 0 <= j < d => center[j] - F[k][j]))
  }

  /** assign_sub(center, reduce_mean(center - features, axis=0)); the mean
      over no rows is 0/0. */
  function LiveUpdate(center: Vector, F: Matrix, d: nat): Result<Vector>
    requires |center| == d && IsMatrix(F, |F|, d)
  {
    if |F| == 0 then Err(NotANumber)
    else
      var g := Gaps(center, F, d);
      Ok(seq(d, j requires 0 <= j < d => center[j] - Sum(Col(g, j)) / |F| as real))
  }

  /** coef * 0.5 * reduce_mean(reduce_sum(square(center - features), 1)). */
  function LiveLoss(center: Vector, F: Matrix, d: nat, coef: real): Result<real>
    requires |center| == d && IsMatrix(F, |F|, d)
  {
    var m :- Mean(seq(|F|, k requires 0 <= k < |F| => SqDist(center, F[k])));
    Ok(coef * 0.5 * m)
  }

  // ----- lemmas -----

  /** The kept rows are the class-0 rows: as many as label 0 occurs, and
      their coordinate j sums to the class-0 sum of that coordinate. */
  lemma {:induction false} KeptRows(F: Matrix, d: nat, labels: seq<int>, j: nat)
    requires |labels| == |F| && IsMatrix(F, |F|, d) && j < d
    ensures IsMatrix(KeepClassZero(F, labels), Count(labels, 0), d)
      && Sum(Col(KeepClassZero(F, labels), j)) == Picked(labels, Col(F, j), 0)
  {
    if |F| > 0 {
      KeptRows(F[1..], d, labels[1..], j);
      var head := if labels[0] == 0 then [F[0]] else [];
      var rest := KeepClassZero(F[1..], labels[1..]);
      assert KeepClassZero(F, labels) == head + rest;
      assert Col(head + rest, j) == Col(head, j) + Col(rest, j);
      SumConcat(Col(head, j), Col(rest, j));
      assert Col(F, j)[1..] == Col(F[1..], j);
    }
  }

  /** The update lands the centre exactly on the batch mean of the rows,
      whatever the old centre was; it fails only on an empty batch. */
  lemma LiveUpdateIsBatchMean(center: Vector, F: Matrix, d: nat)
    requires |center| == d && IsMatrix(F, |F|, d)
    ensures LiveUpdate(center, F, d).Ok? <==> |F| > 0
    ensures LiveUpdate(center, F, d).Ok? ==>
      var r := LiveUpdate(center, F, d).value;
      |r| == d && forall j :: 0 <= j < d ==> r[j] == Sum(Col(F, j)) / |F| as real
  {
    if |F| > 0 {
      var r := LiveUpdate(center, F, d).value;
      var g := Gaps(center, F, d);
      forall j | 0 <= j < d ensures r[j] == Sum(Col(F, j)) / |F| as real {
        var gs := Sum(Col(g, j));
        assert r[j] == center[j] - gs / |F| as real;
        GapColumnSum(center, F, d, j);
        MeanShift(center[j], Sum(Col(F, j)), gs, |F|);
      }
    }
  }

  /** Column j of the gaps sums to |F| * center[j] - the column sum of F. */
  lemma GapColumnSum(center: Vector, F: Matrix, d: nat, j: nat)
    requires |center| == d && IsMatrix(F, |F|, d) && j < d
    ensures Sum(Col(Gaps(center, F, d), j)) == |F| as real * center[j] - Sum(Col(F, j))
  {
    var cs := seq(|F|, k requires 0 <= k < |F| => center[j]);
    SumDifference(cs, Col(F, j), Col(Gaps(center, F, d), j));
    SumConstant(cs, center[j]);
  }

  lemma MeanShift(a: real, s: real, g: real, n: nat)
    requires n > 0 && g == n as real * a - s
    ensures a - g / n as real == s / n as real
  {
    var m := n as real;
    assert (m * a - s) / m == a - s / m;
  }

  /** With labels, the live centre becomes the class-0 batch mean; it fails
      when the labels do not match the rows or no row is labelled 0. */
  lemma LiveCenterOfClassZero(center: Vector, F: Matrix, d: nat, labels: seq<int>)
    requires |center| == d && IsMatrix(F, |F|, d)
    ensures LiveRows(F, Some(labels)).Ok? <==> |labels| == |F|
    ensures |labels| == |F| ==>
      var rows := LiveRows(F, Some(labels)).value;
      && IsMatrix(rows, Count(labels, 0), d)
      && (LiveUpdate(center, rows, d).Ok? <==> Count(labels, 0) > 0)
      && (LiveUpdate(center, rows, d).Ok? ==>
            forall j :: 0 <= j < d ==> LiveUpdate(center, rows, d).value[j] == ClassMean(labels, F, d, 0, j))
  {
    if |labels| == |F| {
      var rows := KeepClassZero(F, labels);
      KeptShape(F, d, labels);
      LiveUpdateIsBatchMean(center, rows, d);
      forall j | 0 <= j < d
        ensures Sum(Col(rows, j)) == Picked(labels, Col(F, j), 0)
      {
        KeptRows(F, d, labels, j);
      }
    }
  }

  /** As many rows are kept as label 0 occurs, each of width d. */
  lemma {:induction false} KeptShape(F: Matrix, d: nat, labels: seq<int>)
    requires |labels| == |F| && IsMatrix(F, |F|, d)
    ensures IsMatrix(KeepClassZero(F, labels), Count(labels, 0), d)
  {
    if |F| > 0 {
      KeptShape(F[1..], d, labels[1..]);
    }
  }

  /** The loss is defined for a non-empty batch, is non-negative for
      coef >= 0, and for coef > 0 is zero exactly when every row sits on
      the centre. */
  lemma LiveLossProperties(center: Vector, F: Matrix, d: nat, coef: real)
    requires |center| == d && IsMatrix(F, |F|, d)
    ensures LiveLoss(center, F, d, coef).Ok? <==> |F| > 0
    ensures LiveLoss(center, F, d, coef).Ok? && coef >= 0.0 ==> LiveLoss(center, F, d, coef).value >= 0.0
    ensures LiveLoss(center, F, d, coef).Ok? && coef > 0.0 ==>
      (LiveLoss(center, F, d, coef).value == 0.0 <==> forall k :: 0 <= k < |F| ==> F[k] == center)
  {
    var v := seq(|F|, k requires 0 <= k < |F| => SqDist(center, F[k]));
    forall k | 0 <= k < |F| ensures v[k] >= 0.0 && (v[k] == 0.0 <==> F[k] == center) {
      SqDistNonnegative(center, F[k]);
      SqDistZeroIff(center, F[k]);
    }
    MeanNonnegative(v);
    if |F| > 0 && coef >= 0.0 {
      ProductNonnegative(coef * 0.5, Mean(v).value);
    }
  }
}

=== FILE: masks.dfy ===
/** Boolean masks built from batch labels.

    Pair masks compare every label with every other (tf.equal of a column
    and a row of labels) and drop the diagonal with the complement of
    tf.eye; one-hot masks mark the target class of every example.
 */
module Masks {
  import opened Selection

  /** A square boolean matrix of side n. */
  predicate IsSquareMask(mask: seq<seq<bool>>, n: nat) {
    |mask| == n && forall i :: 0 <= i < n ==> |mask[i]| == n
  }

  /** logical_not(eye(n)) */
  function OffDiagonal(n: nat): (mask: seq<seq<bool>>)
    ensures IsSquareMask(mask, n)
  {
    seq(n, i requires 0 <= i < n => seq(n, j requires 0 <= j < n => i != j))
  }

  /** eye(n) cast to bool */
  function Diagonal(n: nat): (mask: seq<seq<bool>>)
    ensures IsSquareMask(mask, n)
  {
    seq(n, i requires 0 <= i < n => seq(n, j requires 0 <= j < n => i == j))
  }

  /** label_mask_pos: same label, off the diagonal. The mask is symmetric
      and never marks an example as its own positive. */
  function PositivePairs(labels: seq<int>): (mask: seq<seq<bool>>)
    ensures IsSquareMask(mask, |labels|)
    ensures forall i, j :: 0 <= i < |labels| && 0 <= j < |labels| ==> mask[i][j] == mask[j][i]
    ensures forall i :: 0 <= i < |labels| ==> !mask[i][i]
  {
    var n := |labels|;
    seq(n, i requires 0 <= i < n => seq(n, j requires 0 <= j < n => i != j && labels[i] == labels[j]))
  }

  /** label_mask_neg of the triplet and contrastive losses: different label,
      off the diagonal. Together with the positive mask and the diagonal it
      partitions the pairs: every off-diagonal pair is in exactly one of
      the two masks. */
  function NegativePairs(labels: seq<int>): (mask: seq<seq<bool>>)
    ensures IsSquareMask(mask, |labels|)
    ensures forall i, j :: 0 <= i < |labels| && 0 <= j < |labels| ==>
      (mask[i][j] <==> i != j && !PositivePairs(labels)[i][j])
    ensures forall i, j :: 0 <= i < |labels| && 0 <= j < |labels| ==> mask[i][j] == mask[j][i]
  {
    var n := |labels|;
    seq(n, i requires 0 <= i < n => seq(n, j requires 0 <= j < n => i != j && labels[i] != labels[j]))
  }

  /** label_mask_neg of the average-hard triplet loss and the n-pair loss:
      logical_not(label_mat), with no diagonal term. */
  function DifferentLabels(labels: seq<int>): (mask: seq<seq<bool>>)
    ensures IsSquareMask(mask, |labels|)
  {
    var n := |labels|;
    seq(n, i requires 0 <= i < n => seq(n, j requires 0 <= j < n => labels[i] != labels[j]))
  }

  /** tf.one_hot(labels, classes) cast to bool: a label outside
      [0, classes) gives an all-false row. */
  function OneHot(labels: seq<int>, classes: nat): (mask: seq<seq<bool>>)
    ensures |mask| == |labels| && forall i :: 0 <= i < |labels| ==> |mask[i]| == classes
  {
    seq(|labels|, i requires 0 <= i < |labels| =>
      seq(classes, c requires 0 <= c < classes => labels[i] == c))
  }

  /** logical_not of a mask. */
  function Complement(mask: seq<seq<bool>>): (r: seq<seq<bool>>)
    ensures |r| == |mask| && forall i :: 0 <= i < |mask| ==> |r[i]| == |mask[i]|
  {
    seq(|mask|, i requires 0 <= i < |mask| =>
      seq(|mask[i]|, j requires 0 <= j < |mask[i]| => !mask[i][j]))
  }

  // ----- lemmas -----

  /** Without the diagonal term the negative mask is unchanged: an example
      always shares its own label. */
  lemma DifferentLabelsIsNegative(labels: seq<int>)
    ensures DifferentLabels(labels) == NegativePairs(labels)
  {
    var D := DifferentLabels(labels);
    var N := NegativePairs(labels);
    forall i | 0 <= i < |labels| ensures D[i] == N[i] {
    }
  }

  /** A one-hot row marks exactly one class when the label is in range and
      none otherwise; its complement marks the remaining classes. */
  lemma OneHotRowCount(labels: seq<int>, classes: nat, i: nat)
    requires i < |labels|
    ensures TrueCount(OneHot(labels, classes)[i]) == if 0 <= labels[i] < classes then 1 else 0
    ensures TrueCount(Complement(OneHot(labels, classes))[i])
      == if 0 <= labels[i] < classes then classes - 1 else classes
  {
    var row := OneHot(labels, classes)[i];
    var rest := Complement(OneHot(labels, classes))[i];
    if 0 <= labels[i] < classes {
      CountSingle(row, labels[i]);
      CountAllBut(rest, labels[i]);
    } else {
      CountNone(row);
      CountEvery(rest);
    }
  }

  lemma {:induction false} CountSingle(keep: seq<bool>, c: nat)
    requires c < |keep|
    requires forall j :: 0 <= j < |keep| ==> (keep[j] <==> j == c)
    ensures TrueCount(keep) == 1
  {
    if c > 0 {
      CountSingle(keep[1..], c - 1);
    } else {
      CountNone(keep[1..]);
    }
  }

  lemma {:induction false} CountAllBut(keep: seq<bool>, c: nat)
    requires c < |keep|
    requires forall j :: 0 <= j < |keep| ==> (keep[j] <==> j != c)
    ensures TrueCount(keep) == |keep| - 1
  {
    if c > 0 {
      CountAllBut(keep[1..], c - 1);
    } else {
      CountEvery(keep[1..]);
    }
  }

  lemma {:induction false} CountNone(keep: seq<bool>)
    requires forall j :: 0 <= j < |keep| ==> !keep[j]
    ensures TrueCount(keep) == 0
  {
    if |keep| > 0 {
      CountNone(keep[1..]);
    }
  }

  lemma {:induction false} CountEvery(keep: seq<bool>)
    requires forall j :: 0 <= j < |keep| ==> keep[j]
    ensures TrueCount(keep) == |keep|
  {
    if |keep| > 0 {
      CountEvery(keep[1..]);
    }
  }

  /** The positive pairs of anchor i are its classmates other than itself. */
  lemma PositiveCountIsClassSize(labels: seq<int>, i: nat)
    requires i < |labels|
    ensures TrueCount(PositivePairs(labels)[i]) + 1 == TrueCount(SameLabel(labels, labels[i]))
  {
    var row := PositivePairs(labels)[i];
    var same := SameLabel(labels, labels[i]);
    CountWithOneMore(row, same, i);
  }

  /** tf.equal(labels, c) */
  function SameLabel(labels: seq<int>, c: int): (keep: seq<bool>)
    ensures |keep| == |labels|
  {
    seq(|labels|, j requires 0 <= j < |labels| => labels[j] == c)
  }

  lemma {:induction false} CountWithOneMore(a: seq<bool>, b: seq<bool>, i: nat)
    requires |a| == |b| && i < |a|
    requires b[i] && !a[i]
    requires forall j :: 0 <= j < |a| && j != i ==> a[j] == b[j]
    ensures TrueCount(a) + 1 == TrueCount(b)
  {
    if i > 0 {
      CountWithOneMore(a[1..], b[1..], i - 1);
    } else {
      assert a[1..] == b[1..];
    }
  }
}

=== FILE: outcome.dfy ===
/** Failure-compatible result types for the loss engine.

    The graph ops either raise (a shape or index error surfaces when the
    step runs) or silently produce NaN (a mean over an empty selection).
    Both are modelled as an `Err` carrying the kind of failure.
 */
module Outcome {

  /** Why an op produced no number. */
  datatype Fault =
    | ShapeMismatch    // two tensors that must agree on the batch size do not
    | IndexOutOfRange  // a gather or scatter index lies outside the table
    | ReshapeMismatch  // a reshape to [rows, -1] cannot be carried out
    | NotANumber       // the op evaluates 0/0 (a mean over no entries)
    | Infinite         // the op divides a non-zero value by zero

  datatype Result<+T> = Ok(value: T) | Err(fault: Fault) {

    predicate IsFailure() {
      Err?
    }

    function PropagateFailure<U>(): Result<U>
      requires Err?
    {
      Err(fault)
    }

    function Extract(): T
      requires Ok?
    {
      value
    }
  }

  /** An optional argument (a Python keyword that defaults to None). */
  datatype Option<+T> = None | Some(value: T)
}

=== FILE: pairloss.dfy ===
/** pair_loss: a batch of (template, probe) pairs scored by negative squared
    distance, with the hardest negative mined along each row and each
    column of the pair matrix.

    The batch interleaves the pairs: rows 2p and 2p+1 are the template and
    the probe of pair p. Logit (i, j) is -||t_i - r_j||^2; the diagonal
    holds the genuine pairs. The l2_normalize of the inputs is not
    modelled: X is taken as already normalized.
 */
module PairLoss {
  import opened Linalg
  import opened Outcome
  import opened Selection
  import opened Masks
  import opened Reductions
  import opened Distance

  /** tf.reshape(X, [-1, 2, d]): the flattened batch cut into blocks of
      2 x d. With d = 0 the missing size cannot be inferred, and an odd
      batch does not fill its last block. */
  function PairReshape(X: Matrix, d: nat): (r: Result<seq<Matrix>>)
    requires IsMatrix(X, |X|, d)
    ensures r.Ok? ==> forall p :: 0 <= p < |r.value| ==> IsMatrix(r.value[p], 2, d)
  {
    var rows :- ReshapeCols(Flatten(X), 2 * d);
    Ok(seq(|rows|, p requires 0 <= p < |rows| => Chunks(rows[p], d, 2)))
  }

  /** x[:, s, :] of a tensor of 2 x d blocks. */
  function Slice(Y: seq<Matrix>, s: nat): (S: Matrix)
    requires forall p :: 0 <= p < |Y| ==> s < |Y[p]|
    ensures |S| == |Y|
  {
    seq(|Y|, p requires 0 <= p < |Y| => Y[p][s])
  }

  /** prelogits_reshape[:, 0, :]: template p is row 2p of the batch. */
  function Templates(X: Matrix, d: nat): (T: Matrix)
    requires IsMatrix(X, |X|, d) && d > 0 && |X| % 2 == 0
    ensures |T| == |X| / 2 && forall p :: 0 <= p < |T| ==> T[p] == X[2 * p]
  {
    PairReshapeRows(X, d);
    Slice(PairReshape(X, d).value, 0)
  }

  /** prelogits_reshape[:, 1, :]: probe p is row 2p + 1 of the batch. */
  function Probes(X: Matrix, d: nat): (R: Matrix)
    requires IsMatrix(X, |X|, d) && d > 0 && |X| % 2 == 0
    ensures |R| == |X| / 2 && forall p :: 0 <= p < |R| ==> R[p] == X[2 * p + 1]
  {
    PairReshapeRows(X, d);
    Slice(PairReshape(X, d).value, 1)
  }

  /** The [-1, 2, d] reshape succeeds exactly for d > 0 and an even batch. */
  lemma PairReshapeDefined(X: Matrix, d: nat)
    requires IsMatrix(X, |X|, d)
    ensures PairReshape(X, d).Ok? <==> d > 0 && |X| % 2 == 0
    ensures PairReshape(X, d).Ok? ==> |PairReshape(X, d).value| == |X| / 2
  {
    FlattenLength(X, d);
    if d > 0 {
      var n, q := |X|, |X| / 2;
      BlockArithmetic(q, d);
      if n % 2 == 0 {
        assert n == 2 * q;
        DivModUnique(n * d, 2 * d, q, 0);
      } else {
        assert n == 2 * q + 1;
        DivModUnique(n * d, 2 * d, q, d);
      }
    }
  }

  /** Row 2q (or 2q + 1) of width d ends where q blocks of 2d end. */
  lemma BlockArithmetic(q: nat, d: nat)
    ensures (2 * q) * d == q * (2 * d) + 0
    ensures (2 * q + 1) * d == q * (2 * d) + d
  {
  }

  /** Entry s * d + j of block p sits at flat position (2p + s) * d + j. */
  lemma BlockOffset(p: nat, s: nat, d: nat, j: nat)
    requires s < 2 && j < d
    ensures s * d + j < 2 * d
    ensures p * (2 * d) + (s * d + j) == (2 * p + s) * d + j
  {
  }

  /** Entry (p, s, j) of the reshape is entry j of batch row 2p + s. */
  lemma PairReshapeEntry(X: Matrix, d: nat, p: nat, s: nat, j: nat)
    requires IsMatrix(X, |X|, d) && d > 0 && |X| % 2 == 0
    requires p < |X| / 2 && s < 2 && j < d
    ensures PairReshape(X, d).Ok? && |PairReshape(X, d).value| == |X| / 2
    ensures 2 * p + s < |X| && PairReshape(X, d).value[p][s][j] == X[2 * p + s][j]
  {
    PairReshapeDefined(X, d);
    var flat := Flatten(X);
    var q := |X| / 2;
    FlattenLength(X, d);
    BlockArithmetic(q, d);
    assert |flat| == q * (2 * d);
    BlockOffset(p, s, d, j);
    var rows := ReshapeCols(flat, 2 * d).value;
    assert |flat| / (2 * d) == q;
    ChunksEntry(flat, 2 * d, q, p, s * d + j);
    ChunksEntry(rows[p], d, 2, s, j);
    FlattenEntry(X, d, 2 * p + s, j);
  }

  /** Block p of the reshape holds rows 2p and 2p + 1 of the batch. */
  lemma PairReshapeRows(X: Matrix, d: nat)
    requires IsMatrix(X, |X|, d) && d > 0 && |X| % 2 == 0
    ensures PairReshape(X, d).Ok? && |PairReshape(X, d).value| == |X| / 2
    ensures forall p, s :: 0 <= p < |X| / 2 && 0 <= s < 2 ==> PairReshape(X, d).value[p][s] == X[2 * p + s]
  {
    PairReshapeDefined(X, d);
    var Y := PairReshape(X, d).value;
    forall p, s | 0 <= p < |X| / 2 && 0 <= s < 2 ensures Y[p][s] == X[2 * p + s] {
      forall j | 0 <= j < d ensures Y[p][s][j] == X[2 * p + s][j] {
        PairReshapeEntry(X, d, p, s, j);
      }
    }
  }

  /** -euclidean_distance(templates, transpose(probes)) */
  function PairLogits(X: Matrix, d: nat): (L: Matrix)
    requires IsMatrix(X, |X|, d) && d > 0 && |X| % 2 == 0
    ensures IsMatrix(L, |X| / 2, |X| / 2)
  {
    var P := |X| / 2;
    var D := EuclideanDistance(Templates(X, d), Transpose(Probes(X, d), d), d, P);
    seq(P, i requires 0 <= i < P => seq(P, j requires 0 <= j < P => -D[i][j]))
  }

  /** relu(m + hardest - pos) * 0.5; an empty axis has hardest = -inf and
      contributes 0. */
  function HalfViolation(m: real, hardest: Option<real>, pos: real): (h: real)
    ensures h >= 0.0
    ensures h == 0.0 <==> hardest.None? || m + hardest.value <= pos
  {
    if hardest.None? then 0.0 else Relu(m + hardest.value - pos) * 0.5
  }

  /** _logits_pos * gamma */
  function Scaled(v: Vector, gamma: real): (r: Vector)
    ensures |r| == |v|
  {
    seq(|v|, i requires 0 <= i < |v| => gamma * v[i])
  }

  /** loss_pos + loss_neg per pair, against the scaled genuine logits. */
  function Hinges(target: Vector, rowMax: seq<Option<real>>, colMax: seq<Option<real>>, m: real): (h: Vector)
    requires |rowMax| == |target| && |colMax| == |target|
    ensures |h| == |target|
  {
    seq(|target|, i requires 0 <= i < |target| =>
      HalfViolation(m, rowMax[i], target[i]) + HalfViolation(m, colMax[i], target[i]))
  }

  /** reduce_max(x, axis=1) */
  function MaxPerRow(x: Matrix): (r: seq<Option<real>>)
    ensures |r| == |x|
  {
    seq(|x|, i requires 0 <= i < |x| => ReduceMax(x[i]))
  }

  /** reduce_max(x, axis=0) of a matrix with `cols` columns */
  function MaxPerColumn(x: Matrix, cols: nat): (r: seq<Option<real>>)
    requires IsMatrix(x, |x|, cols)
    ensures |r| == cols
  {
    seq(cols, j requires 0 <= j < cols => ReduceMax(Col(x, j)))
  }

  /** The genuine logits: the diagonal selection reshaped to [P, -1],
      which is [P, 1], read as a vector. Fails for P = 0. */
  function GenuineLogits(L: Matrix): (r: Result<Vector>)
    requires IsMatrix(L, |L|, |L|)
    ensures r.Ok? ==> |r.value| == |L|
  {
    var P := |L|;
    MaskCounts(P);
    FlatSelectLength(L, Diagonal(P), 1);
    var pos :- Reshape(FlatSelect(L, Diagonal(P)), P);
    DivisionOfMultiple(P, 1);
    Ok(Col(pos, 0))
  }

  /** pair_loss from the logits, exactly as written (lines 793-806): the
      off-diagonal logits are flattened row-major and reshaped once to
      [P, -1] (row maxima) and once to [-1, P] with the maximum taken over
      axis 0 -- which groups entries by their position in the flat list,
      not by the column they came from. */
  function PairLossFromLogitsAsWritten(L: Matrix, gamma: real, m: real): (r: Result<real>)
    requires IsMatrix(L, |L|, |L|)
    ensures r.Ok? ==> |L| > 0
  {
    var P := |L|;
    var negFlat := FlatSelect(L, OffDiagonal(P));
    var pos :- GenuineLogits(L);
    var neg1 :- Reshape(negFlat, P);
    var neg2 :- ReshapeCols(negFlat, P);
    Mean(Hinges(Scaled(pos, gamma), MaxPerRow(neg1), MaxPerColumn(neg2, P), m))
  }

  /** pair_loss from the logits with the column negatives taken from the
      transposed logits, as pair_loss_twin does (lines 860 and 882-886):
      row i of the second reshape is column i of the logits without its
      diagonal entry. */
  function PairLossFromLogits(L: Matrix, gamma: real, m: real): Result<real>
    requires IsMatrix(L, |L|, |L|)
  {
    var P := |L|;
    var pos :- GenuineLogits(L);
    var neg1 :- Reshape(FlatSelect(L, OffDiagonal(P)), P);
    var neg2 :- Reshape(FlatSelect(Transpose(L, P), OffDiagonal(P)), P);
    Mean(Hinges(Scaled(pos, gamma), MaxPerRow(neg1), MaxPerRow(neg2), m))
  }

  /** The reshape to [-1, 2, d] fails for an odd batch, and cannot infer
      its size when d is 0. */
  function PairLossAsWritten(X: Matrix, d: nat, gamma: real, m: real): Result<real>
    requires IsMatrix(X, |X|, d)
  {
    if d == 0 || |X| % 2 != 0 then Err(ReshapeMismatch)
    else PairLossFromLogitsAsWritten(PairLogits(X, d), gamma, m)
  }

  /** pair_loss with the column mining corrected. */
  function PairLoss(X: Matrix, d: nat, gamma: real, m: real): Result<real>
    requires IsMatrix(X, |X|, d)
  {
    if d == 0 || |X| % 2 != 0 then Err(ReshapeMismatch)
    else PairLossFromLogits(PairLogits(X, d), gamma, m)
  }

  /** The gamma = (t_min, decay) schedule (lines 775-779):
      t = max(t_min, 1 / (1 + decay * step)) and gamma = 1 / t. A zero
      denominator makes t = +inf and gamma = 0; t = 0 makes gamma infinite. */
  function GammaSchedule(tmin: real, decay: real, step: nat): (g: Result<real>)
    ensures g.Ok? && g.value != 0.0 ==> 1.0 / g.value >= tmin
  {
    var den := 1.0 + decay * step as real;
    if den == 0.0 then Ok(0.0)
    else
      var t := Max(tmin, 1.0 / den);
      if t == 0.0 then Err(Infinite) else Ok(1.0 / t)
  }

  // ----- the genuine and negative logits -----

  /** The diagonal keeps one entry per row, the off-diagonal P - 1. */
  lemma MaskCounts(P: nat)
    ensures UniformCount(Diagonal(P), 1)
    ensures P > 0 ==> UniformCount(OffDiagonal(P), P - 1)
  {
    forall i | 0 <= i < P ensures TrueCount(Diagonal(P)[i]) == 1 {
      CountSingle(Diagonal(P)[i], i);
    }
    forall i | 0 <= i < P ensures TrueCount(OffDiagonal(P)[i]) == P - 1 {
      CountAllBut(OffDiagonal(P)[i], i);
    }
  }

  /** The genuine logits are the diagonal; they exist for every P > 0. */
  lemma DiagonalSelection(L: Matrix)
    requires IsMatrix(L, |L|, |L|) && |L| > 0
    ensures GenuineLogits(L) == Ok(seq(|L|, i requires 0 <= i < |L| => L[i][i]))
  {
    var P := |L|;
    var mask := Diagonal(P);
    MaskCounts(P);
    ReshapeAligned(L, mask, 1);
    var sel := RowSelections(L, mask);
    forall i | 0 <= i < P ensures sel[i] == [L[i][i]] {
      SelectSingle(L[i], mask[i], i);
    }
    assert Col(sel, 0) == seq(P, i requires 0 <= i < P => L[i][i]);
  }

  /** The off-diagonal selection reshaped to [P, -1]: row i of the matrix
      without its diagonal entry. */
  lemma OffDiagonalSelection(L: Matrix)
    requires IsMatrix(L, |L|, |L|) && |L| > 0
    ensures Reshape(FlatSelect(L, OffDiagonal(|L|)), |L|)
      == Ok(seq(|L|, i requires 0 <= i < |L| => Without(L[i], i)))
  {
    var P := |L|;
    var mask := OffDiagonal(P);
    MaskCounts(P);
    ReshapeAligned(L, mask, P - 1);
    RowsWithout(L);
  }

  lemma RowsWithout(L: Matrix)
    requires IsMatrix(L, |L|, |L|)
    ensures RowSelections(L, OffDiagonal(|L|)) == seq(|L|, i requires 0 <= i < |L| => Without(L[i], i))
  {
    var mask := OffDiagonal(|L|);
    var sel := RowSelections(L, mask);
    forall i | 0 <= i < |L| ensures sel[i] == Without(L[i], i) {
      SelectAllBut(L[i], mask[i], i);
    }
  }

  /** On the transposed logits the same selection yields each column
      without its diagonal entry. */
  lemma TransposedSelection(L: Matrix)
    requires IsMatrix(L, |L|, |L|) && |L| > 0
    ensures Reshape(FlatSelect(Transpose(L, |L|), OffDiagonal(|L|)), |L|)
      == Ok(seq(|L|, i requires 0 <= i < |L| => Without(Col(L, i), i)))
  {
    var Lt := Transpose(L, |L|);
    OffDiagonalSelection(Lt);
    assert forall i :: 0 <= i < |L| ==> Lt[i] == Col(L, i);
    assert seq(|L|, i requires 0 <= i < |L| => Without(Lt[i], i))
      == seq(|L|, i requires 0 <= i < |L| => Without(Col(L, i), i));
  }

  /** A mined half-hinge is non-negative and vanishes exactly when every
      candidate stays a margin below the genuine logit. */
  lemma HalfViolationZeroIff(m: real, v: Vector, pos: real)
    ensures HalfViolation(m, ReduceMax(v), pos) >= 0.0
    ensures HalfViolation(m, ReduceMax(v), pos) == 0.0 <==> forall k :: 0 <= k < |v| ==> m + v[k] <= pos
  {
    match ReduceMax(v)
    case None =>
    case Some(x) =>
      if HalfViolation(m, ReduceMax(v), pos) == 0.0 {
        forall k | 0 <= k < |v| ensures m + v[k] <= pos {
          assert v[k] <= x;
        }
      } else {
        var k :| 0 <= k < |v| && v[k] == x;
        assert m + v[k] > pos;
      }
  }

  // ----- the corrected loss -----

  /** Every genuine pair beats every other template in its column and
      every other probe in its row by the margin m, with the genuine logit
      scaled by gamma. */
  predicate LogitsSeparated(L: Matrix, gamma: real, m: real)
    requires IsMatrix(L, |L|, |L|)
  {
    forall i :: 0 <= i < |L| ==> PairSeparatedAt(L, gamma, m, i)
  }

  /** Pair i against every other row and column. */
  predicate PairSeparatedAt(L: Matrix, gamma: real, m: real, i: nat)
    requires IsMatrix(L, |L|, |L|) && i < |L|
  {
    forall r :: 0 <= r < |L| && r != i ==> RowColumnBelow(L, gamma, m, i, r)
  }

  predicate RowColumnBelow(L: Matrix, gamma: real, m: real, i: nat, r: nat)
    requires IsMatrix(L, |L|, |L|) && i < |L| && r < |L|
  {
    m + L[i][r] <= gamma * L[i][i] && m + L[r][i] <= gamma * L[i][i]
  }

  /** The per-pair hinge of the corrected loss, by logits. */
  function PairHinge(L: Matrix, gamma: real, m: real, i: nat): real
    requires IsMatrix(L, |L|, |L|) && i < |L|
  {
    HalfViolation(m, ReduceMax(Without(L[i], i)), gamma * L[i][i])
      + HalfViolation(m, ReduceMax(Without(Col(L, i), i)), gamma * L[i][i])
  }

  /** Pair i's hinge is non-negative and zero exactly when its row and its
      column stay a margin below the scaled genuine logit. */
  lemma PairHingeZeroIff(L: Matrix, gamma: real, m: real, i: nat)
    requires IsMatrix(L, |L|, |L|) && i < |L|
    ensures PairHinge(L, gamma, m, i) >= 0.0
    ensures PairHinge(L, gamma, m, i) == 0.0 <==> PairSeparatedAt(L, gamma, m, i)
  {
    var t := gamma * L[i][i];
    var c := Col(L, i);
    HalfViolationZeroIff(m, Without(L[i], i), t);
    HalfViolationZeroIff(m, Without(c, i), t);
    WithoutBounded(L[i], i, m, t);
    WithoutBounded(c, i, m, t);
    var rowOk := forall r :: 0 <= r < |L| && r != i ==> m + L[i][r] <= t;
    var colOk := forall r :: 0 <= r < |L| && r != i ==> m + c[r] <= t;
    assert PairHinge(L, gamma, m, i) == 0.0 <==> rowOk && colOk;
    assert forall r :: 0 <= r < |L| ==> c[r] == L[r][i];
    if PairHinge(L, gamma, m, i) == 0.0 {
      forall r | 0 <= r < |L| && r != i ensures RowColumnBelow(L, gamma, m, i, r) {
        assert m + c[r] <= t;
      }
    }
    if forall r :: 0 <= r < |L| && r != i ==> RowColumnBelow(L, gamma, m, i, r) {
      assert rowOk by {
        forall r | 0 <= r < |L| && r != i ensures m + L[i][r] <= t {
          assert RowColumnBelow(L, gamma, m, i, r);
          assert m + L[i][r] <= gamma * L[i][i];
        }
      }
      assert colOk by {
        forall r | 0 <= r < |L| && r != i ensures m + c[r] <= t {
          assert RowColumnBelow(L, gamma, m, i, r);
        }
      }
    }
  }

  /** The corrected loss computed from the logits is the mean of the pair
      hinges. */
  lemma PairLossFromLogitsIsHingeMean(L: Matrix, gamma: real, m: real)
    requires IsMatrix(L, |L|, |L|) && |L| > 0
    ensures PairLossFromLogits(L, gamma, m) == Mean(seq(|L|, i requires 0 <= i < |L| => PairHinge(L, gamma, m, i)))
  {
    var P := |L|;
    DiagonalSelection(L);
    OffDiagonalSelection(L);
    TransposedSelection(L);
    HingesOfPairs(L, gamma, m);
  }

  lemma HingesOfPairs(L: Matrix, gamma: real, m: real)
    requires IsMatrix(L, |L|, |L|)
    ensures Hinges(Scaled(seq(|L|, i requires 0 <= i < |L| => L[i][i]), gamma),
                   MaxPerRow(seq(|L|, i requires 0 <= i < |L| => Without(L[i], i))),
                   MaxPerRow(seq(|L|, i requires 0 <= i < |L| => Without(Col(L, i), i))), m)
      == seq(|L|, i requires 0 <= i < |L| => PairHinge(L, gamma, m, i))
  {
    var t := Scaled(seq(|L|, i requires 0 <= i < |L| => L[i][i]), gamma);
    var rows := MaxPerRow(seq(|L|, i requires 0 <= i < |L| => Without(L[i], i)));
    var cols := MaxPerRow(seq(|L|, i requires 0 <= i < |L| => Without(Col(L, i), i)));
    var h := Hinges(t, rows, cols, m);
    assert |h| == |L|;
    forall i | 0 <= i < |L| ensures h[i] == PairHinge(L, gamma, m, i) {
      HingeFromParts(m, t[i], rows[i], cols[i], L, gamma, i);
    }
  }

  /** Pair i's hinge, from its scaled genuine logit and its two maxima. */
  lemma HingeFromParts(m: real, t: real, rowMax: Option<real>, colMax: Option<real>, L: Matrix, gamma: real, i: nat)
    requires IsMatrix(L, |L|, |L|) && i < |L|
    requires t == gamma * L[i][i]
    requires rowMax == ReduceMax(Without(L[i], i)) && colMax == ReduceMax(Without(Col(L, i), i))
    ensures HalfViolation(m, rowMax, t) + HalfViolation(m, colMax, t) == PairHinge(L, gamma, m, i)
  {
  }

  /** The mean of the pair hinges is non-negative and zero exactly when
      every pair is separated. */
  lemma HingeMeanZeroIff(L: Matrix, gamma: real, m: real)
    requires IsMatrix(L, |L|, |L|) && |L| > 0
    ensures var h := seq(|L|, i requires 0 <= i < |L| => PairHinge(L, gamma, m, i));
      && Mean(h).Ok?
      && Mean(h).value >= 0.0
      && (Mean(h).value == 0.0 <==> LogitsSeparated(L, gamma, m))
  {
    var h := seq(|L|, i requires 0 <= i < |L| => PairHinge(L, gamma, m, i));
    forall i | 0 <= i < |L|
      ensures h[i] >= 0.0
      ensures h[i] == 0.0 <==> PairSeparatedAt(L, gamma, m, i)
    {
      PairHingeZeroIff(L, gamma, m, i);
    }
    MeanNonnegative(h);
  }

  /** For a non-empty logits matrix the corrected loss is defined,
      non-negative, and zero exactly when every genuine pair is separated
      from its row and column negatives by the margin. */
  lemma PairLossFromLogitsZeroIff(L: Matrix, gamma: real, m: real)
    requires IsMatrix(L, |L|, |L|)
    ensures PairLossFromLogits(L, gamma, m).Ok? <==> |L| > 0
    ensures PairLossFromLogits(L, gamma, m).Ok? ==> PairLossFromLogits(L, gamma, m).value >= 0.0
    ensures PairLossFromLogits(L, gamma, m).Ok? ==>
      (PairLossFromLogits(L, gamma, m).value == 0.0 <==> LogitsSeparated(L, gamma, m))
  {
    if |L| > 0 {
      PairLossFromLogitsIsHingeMean(L, gamma, m);
      HingeMeanZeroIff(L, gamma, m);
    }
  }

  /** Logit (i, j) is minus the squared distance from template i to probe j. */
  predicate LogitsOfPairs(X: Matrix, d: nat, L: Matrix)
    requires IsMatrix(X, |X|, d)
  {
    && IsMatrix(L, |X| / 2, |X| / 2)
    && forall i, j :: 0 <= i < |X| / 2 && 0 <= j < |X| / 2 ==> L[i][j] == -SqDist(X[2 * i], X[2 * j + 1])
  }

  lemma PairLogitsAreDistances(X: Matrix, d: nat)
    requires IsMatrix(X, |X|, d) && d > 0 && |X| % 2 == 0
    ensures LogitsOfPairs(X, d, PairLogits(X, d))
  {
    var T, R := Templates(X, d), Probes(X, d);
    var P := |X| / 2;
    EuclideanIsSquaredDistance(T, Transpose(R, d), d, P);
    forall j | 0 <= j < P ensures Col(Transpose(R, d), j) == X[2 * j + 1] {
      ColOfTranspose(R, d, j);
    }
  }

  /** Every genuine pair is closer, scaled by gamma and widened by the
      margin m, than its template is to any other probe and than its probe
      is to any other template. */
  predicate PairsSeparated(X: Matrix, d: nat, gamma: real, m: real)
    requires IsMatrix(X, |X|, d) && |X| % 2 == 0
  {
    forall i, r :: 0 <= i < |X| / 2 && 0 <= r < |X| / 2 && r != i ==> PairSeparatedFrom(X, d, gamma, m, i, r)
  }

  /** Pair i against template r and probe r. */
  predicate PairSeparatedFrom(X: Matrix, d: nat, gamma: real, m: real, i: nat, r: nat)
    requires IsMatrix(X, |X|, d) && i < |X| / 2 && r < |X| / 2
  {
    && m + gamma * SqDist(X[2 * i], X[2 * i + 1]) <= SqDist(X[2 * i], X[2 * r + 1])
    && m + gamma * SqDist(X[2 * i], X[2 * i + 1]) <= SqDist(X[2 * r], X[2 * i + 1])
  }

  lemma SeparatedByDistances(X: Matrix, d: nat, L: Matrix, gamma: real, m: real)
    requires IsMatrix(X, |X|, d) && |X| % 2 == 0 && LogitsOfPairs(X, d, L)
    ensures LogitsSeparated(L, gamma, m) <==> PairsSeparated(X, d, gamma, m)
  {
    var P := |X| / 2;
    assert |L| == P;
    forall i, r | 0 <= i < P && 0 <= r < P
      ensures RowColumnBelow(L, gamma, m, i, r) <==> PairSeparatedFrom(X, d, gamma, m, i, r)
    {
      MarginByDistances(m, gamma, L[i][i], L[i][r], L[r][i],
        SqDist(X[2 * i], X[2 * i + 1]), SqDist(X[2 * i], X[2 * r + 1]), SqDist(X[2 * r], X[2 * i + 1]));
    }
    if LogitsSeparated(L, gamma, m) {
      forall i, r | 0 <= i < P && 0 <= r < P && r != i ensures PairSeparatedFrom(X, d, gamma, m, i, r) {
        assert PairSeparatedAt(L, gamma, m, i);
        assert RowColumnBelow(L, gamma, m, i, r);
      }
    }
    if PairsSeparated(X, d, gamma, m) {
      forall i | 0 <= i < P ensures PairSeparatedAt(L, gamma, m, i) {
        forall r | 0 <= r < P && r != i ensures RowColumnBelow(L, gamma, m, i, r) {
          assert PairSeparatedFrom(X, d, gamma, m, i, r);
        }
      }
    }
  }

  lemma MarginByDistances(m: real, gamma: real, lii: real, lir: real, lri: real, sii: real, sir: real, sri: real)
    requires lii == -sii && lir == -sir && lri == -sri
    ensures (m + lir <= gamma * lii && m + lri <= gamma * lii)
      <==> (m + gamma * sii <= sir && m + gamma * sii <= sri)
  {
    assert gamma * lii == -(gamma * sii);
  }

  /** The corrected pair_loss fails only on the shapes the reshape rejects;
      otherwise it is non-negative and zero exactly when every genuine pair
      is separated from all row and column negatives by the margin. */
  lemma PairLossProperties(X: Matrix, d: nat, gamma: real, m: real)
    requires IsMatrix(X, |X|, d)
    ensures PairLoss(X, d, gamma, m).Ok? <==> d > 0 && |X| % 2 == 0 && |X| > 0
    ensures PairLoss(X, d, gamma, m).Ok? ==> PairLoss(X, d, gamma, m).value >= 0.0
    ensures PairLoss(X, d, gamma, m).Ok? ==>
      (PairLoss(X, d, gamma, m).value == 0.0 <==> PairsSeparated(X, d, gamma, m))
  {
    if d > 0 && |X| % 2 == 0 {
      PairLogitsAreDistances(X, d);
      PairLossFromLogitsZeroIff(PairLogits(X, d), gamma, m);
      SeparatedByDistances(X, d, PairLogits(X, d), gamma, m);
    }
  }

  // ----- the column mining as written -----

  /** Column j of the [-1, P] reshape holds the flat off-diagonal entries
      at positions j, j + P, j + 2P, ... -- for P = 3 the flat order is
      L01 L02 L10 L12 L20 L21, so column 0 holds L01 and L12 rather than
      L10 and L20. */
  lemma AsWrittenColumnsMixRows(L: Matrix)
    requires IsMatrix(L, 3, 3)
    ensures ReshapeCols(FlatSelect(L, OffDiagonal(3)), 3)
      == Ok([[L[0][1], L[0][2], L[1][0]], [L[1][2], L[2][0], L[2][1]]])
  {
    var M := OffDiagonal(3);
    RowsWithout(L);
    assert SelectRow(L[0], M[0]) == [L[0][1], L[0][2]] by {
      assert RowSelections(L, M)[0] == Without(L[0], 0);
    }
    assert SelectRow(L[1], M[1]) == [L[1][0], L[1][2]] by {
      assert RowSelections(L, M)[1] == Without(L[1], 1);
    }
    assert SelectRow(L[2], M[2]) == [L[2][0], L[2][1]] by {
      assert RowSelections(L, M)[2] == Without(L[2], 2);
    }
    var L1, M1 := L[1..], M[1..];
    var L2, M2 := L1[1..], M1[1..];
    assert FlatSelect(L2[1..], M2[1..]) == [];
    assert FlatSelect(L2, M2) == SelectRow(L[2], M[2]);
    assert FlatSelect(L1, M1) == SelectRow(L[1], M[1]) + SelectRow(L[2], M[2]);
    var flat := FlatSelect(L, M);
    assert flat == [L[0][1], L[0][2], L[1][0], L[1][2], L[2][0], L[2][1]];
    assert Chunks(flat, 3, 2) == [flat[..3]] + Chunks(flat[3..], 3, 1);
    assert Chunks(flat[3..], 3, 1) == [flat[3..][..3]] + Chunks(flat[3..][3..], 3, 0);
    assert flat[..3] == [L[0][1], L[0][2], L[1][0]];
    assert flat[3..][..3] == [L[1][2], L[2][0], L[2][1]];
    assert Chunks(flat, 3, 2) == [[L[0][1], L[0][2], L[1][0]], [L[1][2], L[2][0], L[2][1]]];
    assert |flat| / 3 == 2;
  }

  /** Entry i * (P - 1) + a of the row-major off-diagonal list of a
      P x P logit matrix is the a-th off-diagonal logit of row i. */
  lemma OffDiagonalFlatEntry(L: Matrix, i: nat, a: nat)
    requires IsMatrix(L, |L|, |L|) && i < |L| && a < |L| - 1
    ensures i * (|L| - 1) + a < |FlatSelect(L, OffDiagonal(|L|))|
    ensures FlatSelect(L, OffDiagonal(|L|))[i * (|L| - 1) + a] == Without(L[i], i)[a]
  {
    var P := |L|;
    MaskCounts(P);
    FlatSelectEntry(L, OffDiagonal(P), P - 1, i, a);
    RowsWithout(L);
    assert RowSelections(L, OffDiagonal(P))[i] == Without(L[i], i);
  }

  /** Entry (0, j) of the [-1, P] reshape as written is L[0][j + 1]. */
  lemma AsWrittenFirstRowEntry(L: Matrix, j: nat)
    requires IsMatrix(L, |L|, |L|) && j + 1 < |L|
    ensures var N := ReshapeCols(FlatSelect(L, OffDiagonal(|L|)), |L|);
      N.Ok? && IsMatrix(N.value, |L| - 1, |L|) && N.value[0][j] == L[0][j + 1]
  {
    var flat := FlatSelect(L, OffDiagonal(|L|));
    AsWrittenShape(L);
    assert j < |flat| && ReshapeCols(flat, |L|).value[0][j] == flat[j] by {
      AsWrittenColumnsByPosition(L, 0, j);
      assert 0 * |L| + j == j;
    }
    assert flat[j] == Without(L[0], 0)[j] by {
      OffDiagonalFlatEntry(L, 0, j);
      assert 0 * (|L| - 1) + j == j;
    }
    WithoutFirst(L[0], j);
  }

  lemma WithoutFirst(row: Vector, j: nat)
    requires j + 1 < |row|
    ensures Without(row, 0)[j] == row[j + 1]
  {
    assert Without(row, 0) == row[1..];
  }

  /** The [-1, P] reshape as written succeeds for every P > 0, with
      P - 1 rows of P entries. */
  lemma AsWrittenShape(L: Matrix)
    requires IsMatrix(L, |L|, |L|) && |L| > 0
    ensures var N := ReshapeCols(FlatSelect(L, OffDiagonal(|L|)), |L|);
      N.Ok? && IsMatrix(N.value, |L| - 1, |L|)
  {
    MaskCounts(|L|);
    UniformReshape(L, OffDiagonal(|L|), |L| - 1);
  }

  /** Entry (r, j) of the [-1, P] reshape as written is entry r * P + j of
      the row-major off-diagonal list: it groups by flat position, not by
      column. */
  lemma AsWrittenColumnsByPosition(L: Matrix, r: nat, j: nat)
    requires IsMatrix(L, |L|, |L|) && r + 1 < |L| && j < |L|
    ensures var flat := FlatSelect(L, OffDiagonal(|L|));
      var N := ReshapeCols(flat, |L|);
      && N.Ok? && IsMatrix(N.value, |L| - 1, |L|)
      && r * |L| + j < |flat| && N.value[r][j] == flat[r * |L| + j]
  {
    MaskCounts(|L|);
    UniformReshapeEntry(L, OffDiagonal(|L|), |L| - 1, r, j);
  }

  /** Every genuine logit, scaled by gamma, beats the other logits of its
      row -- its template against every other probe -- by the margin m. */
  predicate RowsSeparated(L: Matrix, gamma: real, m: real)
    requires IsMatrix(L, |L|, |L|)
  {
    forall i :: 0 <= i < |L| ==> RowSeparatedAt(L, gamma, m, i)
  }

  predicate RowSeparatedAt(L: Matrix, gamma: real, m: real, i: nat)
    requires IsMatrix(L, |L|, |L|) && i < |L|
  {
    forall r :: 0 <= r < |L| && r != i ==> m + L[i][r] <= gamma * L[i][i]
  }

  /** Hinges built from half-violations are non-negative; their mean is
      defined for a non-empty batch, and is zero only when every row half
      vanishes. */
  lemma HingeMeanRowHalves(t: Vector, rowMax: seq<Option<real>>, colMax: seq<Option<real>>, m: real)
    requires |rowMax| == |t| && |colMax| == |t|
    ensures var h := Hinges(t, rowMax, colMax, m);
      && (Mean(h).Ok? <==> |t| > 0)
      && (Mean(h).Ok? ==> Mean(h).value >= 0.0)
      && (Mean(h).Ok? && Mean(h).value == 0.0 ==>
            forall k :: 0 <= k < |t| ==> HalfViolation(m, rowMax[k], t[k]) == 0.0)
  {
    var h := Hinges(t, rowMax, colMax, m);
    forall k | 0 <= k < |t| ensures h[k] >= 0.0 && HalfViolation(m, rowMax[k], t[k]) <= h[k] {
    }
    MeanNonnegative(h);
    if Mean(h).Ok? && Mean(h).value == 0.0 {
      forall k | 0 <= k < |t| ensures HalfViolation(m, rowMax[k], t[k]) == 0.0 {
        assert h[k] == 0.0;
      }
    }
  }

  /** A vanishing row half means row i is separated. */
  lemma RowHalfZero(L: Matrix, gamma: real, m: real, i: nat)
    requires IsMatrix(L, |L|, |L|) && i < |L|
    requires HalfViolation(m, ReduceMax(Without(L[i], i)), gamma * L[i][i]) == 0.0
    ensures RowSeparatedAt(L, gamma, m, i)
  {
    HalfViolationZeroIff(m, Without(L[i], i), gamma * L[i][i]);
    WithoutBounded(L[i], i, m, gamma * L[i][i]);
  }

  /** The loss as written is defined exactly for a non-empty logits
      matrix; it is then non-negative, and zero only when every row is
      separated: the row half of the hinge is mined correctly, whatever
      the mixed-up column half holds. */
  lemma PairLossFromLogitsAsWrittenProperties(L: Matrix, gamma: real, m: real)
    requires IsMatrix(L, |L|, |L|)
    ensures PairLossFromLogitsAsWritten(L, gamma, m).Ok? <==> |L| > 0
    ensures PairLossFromLogitsAsWritten(L, gamma, m).Ok? ==> PairLossFromLogitsAsWritten(L, gamma, m).value >= 0.0
    ensures PairLossFromLogitsAsWritten(L, gamma, m).Ok? && PairLossFromLogitsAsWritten(L, gamma, m).value == 0.0
      ==> RowsSeparated(L, gamma, m)
  {
    var P := |L|;
    if P > 0 {
      DiagonalSelection(L);
      OffDiagonalSelection(L);
      AsWrittenShape(L);
      var diag := seq(P, i requires 0 <= i < P => L[i][i]);
      var pos := Scaled(diag, gamma);
      var rows := MaxPerRow(seq(P, i requires 0 <= i < P => Without(L[i], i)));
      var cols := MaxPerColumn(ReshapeCols(FlatSelect(L, OffDiagonal(P)), P).value, P);
      assert PairLossFromLogitsAsWritten(L, gamma, m) == Mean(Hinges(pos, rows, cols, m));
      HingeMeanRowHalves(pos, rows, cols, m);
      if Mean(Hinges(pos, rows, cols, m)).value == 0.0 {
        RowsFromHalves(L, gamma, m);
      }
    }
  }

  /** Rows whose half-violations all vanish are separated. */
  lemma RowsFromHalves(L: Matrix, gamma: real, m: real)
    requires IsMatrix(L, |L|, |L|)
    requires var P := |L|;
      var pos := Scaled(seq(P, i requires 0 <= i < P => L[i][i]), gamma);
      var rows := MaxPerRow(seq(P, i requires 0 <= i < P => Without(L[i], i)));
      forall k :: 0 <= k < P ==> HalfViolation(m, rows[k], pos[k]) == 0.0
    ensures RowsSeparated(L, gamma, m)
  {
    var P := |L|;
    var diag := seq(P, i requires 0 <= i < P => L[i][i]);
    var pos := Scaled(diag, gamma);
    var rows := MaxPerRow(seq(P, i requires 0 <= i < P => Without(L[i], i)));
    forall i | 0 <= i < P ensures RowSeparatedAt(L, gamma, m, i) {
      assert HalfViolation(m, rows[i], pos[i]) == 0.0;
      assert rows[i] == ReduceMax(Without(L[i], i));
      assert pos[i] == gamma * L[i][i];
      assert HalfViolation(m, ReduceMax(Without(L[i], i)), gamma * L[i][i]) == 0.0;
      RowHalfZero(L, gamma, m, i);
    }
  }

  /** Every template is closer, scaled by gamma and widened by the margin
      m, to its own probe than to any other probe. */
  predicate TemplatesSeparated(X: Matrix, d: nat, gamma: real, m: real)
    requires IsMatrix(X, |X|, d)
  {
    forall i, r :: 0 <= i < |X| / 2 && 0 <= r < |X| / 2 && r != i ==> TemplateSeparatedFrom(X, d, gamma, m, i, r)
  }

  /** Template i against probe r. */
  predicate TemplateSeparatedFrom(X: Matrix, d: nat, gamma: real, m: real, i: nat, r: nat)
    requires IsMatrix(X, |X|, d) && i < |X| / 2 && r < |X| / 2
  {
    m + gamma * SqDist(X[2 * i], X[2 * i + 1]) <= SqDist(X[2 * i], X[2 * r + 1])
  }

  /** pair_loss as written fails only on the shapes the reshape rejects;
      otherwise it is non-negative, and zero only when every template is
      separated from the other probes. The converse fails: see
      PairLossMissesColumnViolation. */
  lemma PairLossAsWrittenProperties(X: Matrix, d: nat, gamma: real, m: real)
    requires IsMatrix(X, |X|, d)
    ensures PairLossAsWritten(X, d, gamma, m).Ok? <==> d > 0 && |X| % 2 == 0 && |X| > 0
    ensures PairLossAsWritten(X, d, gamma, m).Ok? ==> PairLossAsWritten(X, d, gamma, m).value >= 0.0
    ensures PairLossAsWritten(X, d, gamma, m).Ok? && PairLossAsWritten(X, d, gamma, m).value == 0.0
      ==> TemplatesSeparated(X, d, gamma, m)
  {
    if d > 0 && |X| % 2 == 0 {
      var L := PairLogits(X, d);
      PairLossFromLogitsAsWrittenProperties(L, gamma, m);
      if PairLossAsWritten(X, d, gamma, m).Ok? && PairLossAsWritten(X, d, gamma, m).value == 0.0 {
        TemplatesFromRows(X, d, gamma, m);
      }
    }
  }

  /** Separated logit rows are separated templates. */
  lemma TemplatesFromRows(X: Matrix, d: nat, gamma: real, m: real)
    requires IsMatrix(X, |X|, d) && d > 0 && |X| % 2 == 0 && RowsSeparated(PairLogits(X, d), gamma, m)
    ensures TemplatesSeparated(X, d, gamma, m)
  {
    var L := PairLogits(X, d);
    PairLogitsAreDistances(X, d);
    forall i, r | 0 <= i < |X| / 2 && 0 <= r < |X| / 2 && r != i
      ensures TemplateSeparatedFrom(X, d, gamma, m, i, r)
    {
      assert RowSeparatedAt(L, gamma, m, i);
      assert m + L[i][r] <= gamma * L[i][i];
      RowMarginByDistances(m, gamma, L[i][i], L[i][r],
        SqDist(X[2 * i], X[2 * i + 1]), SqDist(X[2 * i], X[2 * r + 1]));
    }
  }

  lemma RowMarginByDistances(m: real, gamma: real, lii: real, lir: real, sii: real, sir: real)
    requires lii == -sii && lir == -sir
    ensures m + lir <= gamma * lii <==> m + gamma * sii <= sir
  {
    assert gamma * lii == -(gamma * sii);
  }

  /** The logits of the three-pair example below. */
  const ExampleLogits: Matrix :=
    [[-100.0, -225.0, -10000.0], [-25.0, 0.0, -7225.0], [-8100.0, -7225.0, 0.0]]

  lemma SqDistOnLine(a: real, b: real)
    ensures SqDist([a], [b]) == (a - b) * (a - b)
  {
    assert [a][1..] == [];
  }

  lemma ExampleLogitsFromPairs()
    ensures PairLogits([[0.0], [10.0], [15.0], [15.0], [100.0], [100.0]], 1) == ExampleLogits
  {
    var X := [[0.0], [10.0], [15.0], [15.0], [100.0], [100.0]];
    PairLogitsAreDistances(X, 1);
    ExampleLogitsOfDistances(X, PairLogits(X, 1));
  }

  lemma ExampleLogitsOfDistances(X: Matrix, L: Matrix)
    requires X == [[0.0], [10.0], [15.0], [15.0], [100.0], [100.0]]
    requires IsMatrix(X, |X|, 1) && LogitsOfPairs(X, 1, L)
    ensures L == ExampleLogits
  {
    SqDistOnLine(0.0, 10.0);
    SqDistOnLine(0.0, 15.0);
    SqDistOnLine(0.0, 100.0);
    SqDistOnLine(15.0, 10.0);
    SqDistOnLine(15.0, 15.0);
    SqDistOnLine(15.0, 100.0);
    SqDistOnLine(100.0, 10.0);
    SqDistOnLine(100.0, 15.0);
    SqDistOnLine(100.0, 100.0);
    assert L[0] == ExampleLogits[0];
    assert L[1] == ExampleLogits[1];
    assert L[2] == ExampleLogits[2];
  }

  lemma ReduceMaxOfTwo(a: real, b: real)
    ensures ReduceMax([a, b]) == Some(Max(a, b))
  {
    assert [a, b][1..] == [b];
    assert [b][1..] == [];
  }

  /** The mined negatives of the example: row maxima, the as-written
      axis-0 reshape, and the columns without their diagonal entry. */
  lemma ExampleNegatives()
    ensures Reshape(FlatSelect(ExampleLogits, OffDiagonal(3)), 3)
      == Ok([[-225.0, -10000.0], [-25.0, -7225.0], [-8100.0, -7225.0]])
    ensures ReshapeCols(FlatSelect(ExampleLogits, OffDiagonal(3)), 3)
      == Ok([[-225.0, -10000.0, -25.0], [-7225.0, -8100.0, -7225.0]])
    ensures Reshape(FlatSelect(Transpose(ExampleLogits, 3), OffDiagonal(3)), 3)
      == Ok([[-25.0, -8100.0], [-225.0, -7225.0], [-10000.0, -7225.0]])
  {
    var L := ExampleLogits;
    OffDiagonalSelection(L);
    TransposedSelection(L);
    AsWrittenColumnsMixRows(L);
    assert Without(L[0], 0) == [-225.0, -10000.0];
    assert Without(L[1], 1) == [-25.0, -7225.0];
    assert Without(L[2], 2) == [-8100.0, -7225.0];
    assert Col(L, 0) == [-100.0, -25.0, -8100.0];
    assert Col(L, 1) == [-225.0, 0.0, -7225.0];
    assert Col(L, 2) == [-10000.0, -7225.0, 0.0];
    assert Without(Col(L, 0), 0) == [-25.0, -8100.0];
    assert Without(Col(L, 1), 1) == [-225.0, -7225.0];
    assert Without(Col(L, 2), 2) == [-10000.0, -7225.0];
    assert seq(3, i requires 0 <= i < 3 => Without(L[i], i))
      == [[-225.0, -10000.0], [-25.0, -7225.0], [-8100.0, -7225.0]];
    assert seq(3, i requires 0 <= i < 3 => Without(Col(L, i), i))
      == [[-25.0, -8100.0], [-225.0, -7225.0], [-10000.0, -7225.0]];
  }

  lemma ExampleGenuine()
    ensures GenuineLogits(ExampleLogits) == Ok([-100.0, 0.0, 0.0])
  {
    var L := ExampleLogits;
    DiagonalSelection(L);
    assert seq(3, i requires 0 <= i < 3 => L[i][i]) == [-100.0, 0.0, 0.0];
  }

  /** Written as the source does, the example's loss is 0: the only
      violating logit, L10 = -25, is checked against L11 (row) and against
      L22 (through the mixed-up column 2), never against L00. */
  lemma ExampleAsWritten()
    ensures PairLossFromLogitsAsWritten(ExampleLogits, 1.0, 1.0) == Ok(0.0)
  {
    ExampleGenuine();
    ExampleNegatives();
    ScaledByOne([-100.0, 0.0, 0.0]);
    ExampleAsWrittenHinges();
    MeanOfThree(0.0, 0.0, 0.0);
  }

  lemma ExampleAsWrittenHinges()
    ensures Hinges([-100.0, 0.0, 0.0],
      MaxPerRow([[-225.0, -10000.0], [-25.0, -7225.0], [-8100.0, -7225.0]]),
      MaxPerColumn([[-225.0, -10000.0, -25.0], [-7225.0, -8100.0, -7225.0]], 3), 1.0)
      == [0.0, 0.0, 0.0]
  {
    ExampleRowMaxima();
    ExampleColumnMaximaAsWritten();
    var rowMax := [Some(-225.0), Some(-25.0), Some(-7225.0)];
    var colMax := [Some(-225.0), Some(-8100.0), Some(-25.0)];
    HingesOfThree([-100.0, 0.0, 0.0], rowMax, colMax, 1.0);
    assert HalfViolation(1.0, Some(-225.0), -100.0) + HalfViolation(1.0, Some(-225.0), -100.0) == 0.0;
    assert HalfViolation(1.0, Some(-25.0), 0.0) + HalfViolation(1.0, Some(-8100.0), 0.0) == 0.0;
    assert HalfViolation(1.0, Some(-7225.0), 0.0) + HalfViolation(1.0, Some(-25.0), 0.0) == 0.0;
  }

  lemma ExampleRowMaxima()
    ensures MaxPerRow([[-225.0, -10000.0], [-25.0, -7225.0], [-8100.0, -7225.0]])
      == [Some(-225.0), Some(-25.0), Some(-7225.0)]
  {
    ReduceMaxOfTwo(-225.0, -10000.0);
    ReduceMaxOfTwo(-25.0, -7225.0);
    ReduceMaxOfTwo(-8100.0, -7225.0);
  }

  lemma ExampleColumnMaximaAsWritten()
    ensures MaxPerColumn([[-225.0, -10000.0, -25.0], [-7225.0, -8100.0, -7225.0]], 3)
      == [Some(-225.0), Some(-8100.0), Some(-25.0)]
  {
    var neg2 := [[-225.0, -10000.0, -25.0], [-7225.0, -8100.0, -7225.0]];
    ReduceMaxOfTwo(-225.0, -7225.0);
    ReduceMaxOfTwo(-10000.0, -8100.0);
    ReduceMaxOfTwo(-25.0, -7225.0);
    assert Col(neg2, 0) == [-225.0, -7225.0];
    assert Col(neg2, 1) == [-10000.0, -8100.0];
    assert Col(neg2, 2) == [-25.0, -7225.0];
  }

  /** Corrected, the example's loss is 38 / 3: pair 0's column hinge is
      0.5 * (1 - 25 + 100). */
  lemma ExampleCorrected()
    ensures PairLossFromLogits(ExampleLogits, 1.0, 1.0) == Ok(38.0 / 3.0)
  {
    ExampleGenuine();
    ExampleNegatives();
    ScaledByOne([-100.0, 0.0, 0.0]);
    ExampleCorrectedHinges();
    MeanOfThree(38.0, 0.0, 0.0);
  }

  lemma ExampleCorrectedHinges()
    ensures Hinges([-100.0, 0.0, 0.0],
      MaxPerRow([[-225.0, -10000.0], [-25.0, -7225.0], [-8100.0, -7225.0]]),
      MaxPerRow([[-25.0, -8100.0], [-225.0, -7225.0], [-10000.0, -7225.0]]), 1.0)
      == [38.0, 0.0, 0.0]
  {
    ExampleRowMaxima();
    ReduceMaxOfTwo(-25.0, -8100.0);
    ReduceMaxOfTwo(-225.0, -7225.0);
    ReduceMaxOfTwo(-10000.0, -7225.0);
    var rowMax := [Some(-225.0), Some(-25.0), Some(-7225.0)];
    var colMax := [Some(-25.0), Some(-225.0), Some(-7225.0)];
    assert MaxPerRow([[-25.0, -8100.0], [-225.0, -7225.0], [-10000.0, -7225.0]]) == colMax;
    HingesOfThree([-100.0, 0.0, 0.0], rowMax, colMax, 1.0);
    assert HalfViolation(1.0, Some(-225.0), -100.0) + HalfViolation(1.0, Some(-25.0), -100.0) == 38.0;
    assert HalfViolation(1.0, Some(-25.0), 0.0) + HalfViolation(1.0, Some(-225.0), 0.0) == 0.0;
    assert HalfViolation(1.0, Some(-7225.0), 0.0) + HalfViolation(1.0, Some(-7225.0), 0.0) == 0.0;
  }

  lemma HingesOfThree(target: Vector, rowMax: seq<Option<real>>, colMax: seq<Option<real>>, m: real)
    requires |target| == 3 && |rowMax| == 3 && |colMax| == 3
    ensures Hinges(target, rowMax, colMax, m) == [
      HalfViolation(m, rowMax[0], target[0]) + HalfViolation(m, colMax[0], target[0]),
      HalfViolation(m, rowMax[1], target[1]) + HalfViolation(m, colMax[1], target[1]),
      HalfViolation(m, rowMax[2], target[2]) + HalfViolation(m, colMax[2], target[2])]
  {
  }

  /** Scaling by 1 changes nothing. */
  lemma ScaledByOne(v: Vector)
    ensures Scaled(v, 1.0) == v
  {
  }

  lemma MeanOfThree(a: real, b: real, c: real)
    ensures Mean([a, b, c]) == Ok((a + b + c) / 3.0)
  {
    assert [a, b, c][1..] == [b, c];
    assert [b, c][1..] == [c];
    assert [c][1..] == [];
    assert Sum([c]) == c;
    assert Sum([b, c]) == b + c;
    assert Sum([a, b, c]) == a + b + c;
  }

  /** Three pairs on a line (d = 1, gamma = 1, m = 1): template 0 sits at
      0 with its probe at 10, pair 1 at 15, pair 2 at 100. Template 1 is
      closer to probe 0 than the margin allows, so the corrected loss is
      positive; the loss as written reports 0. */
  lemma PairLossMissesColumnViolation()
    ensures PairLossAsWritten([[0.0], [10.0], [15.0], [15.0], [100.0], [100.0]], 1, 1.0, 1.0) == Ok(0.0)
    ensures PairLoss([[0.0], [10.0], [15.0], [15.0], [100.0], [100.0]], 1, 1.0, 1.0) == Ok(38.0 / 3.0)
  {
    ExampleLogitsFromPairs();
    ExampleAsWritten();
    ExampleCorrected();
  }

  // ----- gamma schedule -----

  /** 0 < a <= b implies 1 / b <= 1 / a. */
  lemma ReciprocalAntitone(a: real, b: real)
    requires 0.0 < a <= b
    ensures 0.0 < 1.0 / b <= 1.0 / a
  {
    var ra, rb := 1.0 / a, 1.0 / b;
    assert ra * a == 1.0 && rb * b == 1.0;
    ProductNonnegative(rb, b - a);
    assert rb * a <= 1.0;
    ProductNonnegative(1.0 - rb * a, ra);
    calc {
      rb;
      rb * (a * ra);
      (rb * a) * ra;
    <= ra;
    }
  }

  /** With a positive floor and a non-negative decay the scheduled gamma
      is defined, lies in (0, 1 / t_min], and never decreases as training
      proceeds. */
  lemma GammaScheduleBounds(tmin: real, decay: real, step: nat, later: nat)
    requires tmin > 0.0 && decay >= 0.0 && step <= later
    ensures GammaSchedule(tmin, decay, step).Ok?
    ensures 0.0 < GammaSchedule(tmin, decay, step).value <= 1.0 / tmin
    ensures GammaSchedule(tmin, decay, step).value <= GammaSchedule(tmin, decay, later).value
  {
    var d1 := 1.0 + decay * step as real;
    var d2 := 1.0 + decay * later as real;
    assert 1.0 <= d1 <= d2 by {
      ProductNonnegative(decay, step as real);
      ProductNonnegative(decay, (later - step) as real);
    }
    var t1, t2 := Max(tmin, 1.0 / d1), Max(tmin, 1.0 / d2);
    assert GammaSchedule(tmin, decay, step) == Ok(1.0 / t1);
    assert GammaSchedule(tmin, decay, later) == Ok(1.0 / t2);
    assert tmin <= t2 <= t1 by {
      ReciprocalAntitone(d1, d2);
    }
    ReciprocalAntitone(t2, t1);
    ReciprocalAntitone(tmin, t1);
  }
}

=== FILE: reductions.dfy ===
/** Reductions that turn a vector or matrix of hinge values into one number:
    reduce_mean (NaN on an empty selection), masked_reduce_mean and
    reduce_mean_nonzero (both guarded by an epsilon in the denominator).
 */
module Reductions {
  import opened Linalg
  import opened Outcome
  import opened Selection

  /** The 1e-8 added to every guarded denominator, as an exact real. */
  const Epsilon: real := 0.00000001

  /** tf.reduce_mean over a vector; 0/0 on an empty one. */
  function Mean(v: Vector): Result<real> {
    if |v| == 0 then Err(NotANumber) else Ok(Sum(v) / |v| as real)
  }

  /** Sum over every entry of a matrix. */
  function SumAll(m: Matrix): real {
    if |m| == 0 then 0.0 else Sum(m[0]) + SumAll(m[1..])
  }

  /** Number of entries of a matrix. */
  function CountAll(m: Matrix): nat {
    if |m| == 0 then 0 else |m[0]| + CountAll(m[1..])
  }

  /** tf.reduce_mean over every entry of a matrix; 0/0 when it has none. */
  function MeanAll(m: Matrix): Result<real> {
    if CountAll(m) == 0 then Err(NotANumber) else Ok(SumAll(m) / CountAll(m) as real)
  }

  /** tensor * cast(mask): unselected entries become 0. */
  function Masked(t: Vector, mask: seq<bool>): (r: Vector)
    requires |t| == |mask|
    ensures |r| == |t|
  {
    seq(|t|, k requires 0 <= k < |t| => if mask[k] then t[k] else 0.0)
  }

  /** masked_reduce_mean along one axis (lines 925-928). */
  function MaskedReduceMean(t: Vector, mask: seq<bool>): real
    requires |t| == |mask|
  {
    Sum(Masked(t, mask)) / (TrueCount(mask) as real + Epsilon)
  }

  /** cast(greater(tensor, 0)) */
  function PositiveEntries(t: Vector): (r: seq<bool>)
    ensures |r| == |t|
  {
    seq(|t|, k requires 0 <= k < |t| => t[k] > 0.0)
  }

  /** reduce_mean_nonzero along one axis (lines 1006-1007, redefined
      identically at 1119-1120): sum over the count of positive entries. */
  function ReduceMeanNonzero(t: Vector): real {
    Sum(t) / (TrueCount(PositiveEntries(t)) as real + Epsilon)
  }

  /** reduce_max along one axis. None stands for the -inf that reduce_max
      yields on an empty axis. */
  function ReduceMax(v: Vector): (r: Option<real>)
    ensures r.None? <==> |v| == 0
    ensures r.Some? ==> forall k :: 0 <= k < |v| ==> v[k] <= r.value
    ensures r.Some? ==> exists k :: 0 <= k < |v| && v[k] == r.value
  {
    if |v| == 0 then None
    else match ReduceMax(v[1..])
      case None => Some(v[0])
      case Some(x) =>
        assert exists k :: 0 <= k < |v| - 1 && v[1..][k] == x;
        Some(Max(v[0], x))
  }

  /** -v */
  function Negated(v: Vector): (r: Vector)
    ensures |r| == |v| && forall k :: 0 <= k < |v| ==> r[k] == -v[k]
  {
    seq(|v|, k requires 0 <= k < |v| => -v[k])
  }

  /** -reduce_max(-v), the hard-mining idiom for a row minimum. None stands
      for the +inf it yields on an empty axis. */
  function ReduceMinByNegation(v: Vector): (r: Option<real>)
    ensures r.None? <==> |v| == 0
    ensures r.Some? ==> forall k :: 0 <= k < |v| ==> r.value <= v[k]
    ensures r.Some? ==> exists k :: 0 <= k < |v| && v[k] == r.value
  {
    match ReduceMax(Negated(v))
    case None => None
    case Some(x) =>
      assert exists k :: 0 <= k < |v| && Negated(v)[k] == x;
      Some(-x)
  }

  // ----- guarded reductions -----

  lemma {:induction false} MaskedSumOfEmptyMask(t: Vector, mask: seq<bool>)
    requires |t| == |mask| && TrueCount(mask) == 0
    ensures Sum(Masked(t, mask)) == 0.0
  {
    if |t| > 0 {
      assert Masked(t, mask)[1..] == Masked(t[1..], mask[1..]);
      MaskedSumOfEmptyMask(t[1..], mask[1..]);
    }
  }

  /** Selected entries that lie in [0, b] give a masked sum in [0, count * b]. */
  lemma {:induction false} MaskedSumBounds(t: Vector, mask: seq<bool>, b: real)
    requires |t| == |mask|
    requires forall k :: 0 <= k < |t| && mask[k] ==> 0.0 <= t[k] <= b
    ensures 0.0 <= Sum(Masked(t, mask)) <= TrueCount(mask) as real * b
  {
    if |t| > 0 {
      assert Masked(t, mask)[1..] == Masked(t[1..], mask[1..]);
      MaskedSumBounds(t[1..], mask[1..], b);
    }
  }

  /** A masked sum of non-negative selected entries is zero exactly when
      every selected entry is zero. */
  lemma {:induction false} MaskedSumZeroIff(t: Vector, mask: seq<bool>)
    requires |t| == |mask|
    requires forall k :: 0 <= k < |t| && mask[k] ==> t[k] >= 0.0
    ensures Sum(Masked(t, mask)) == 0.0 <==> forall k :: 0 <= k < |t| && mask[k] ==> t[k] == 0.0
  {
    var m := Masked(t, mask);
    SumZeroIff(m);
    if forall k :: 0 <= k < |t| && mask[k] ==> t[k] == 0.0 {
      assert forall k :: 0 <= k < |m| ==> m[k] == 0.0;
    }
    if forall k :: 0 <= k < |m| ==> m[k] == 0.0 {
      forall k | 0 <= k < |t| && mask[k] ensures t[k] == 0.0 {
        assert m[k] == t[k];
      }
    }
  }

  /** masked_reduce_mean: an all-false mask yields 0 rather than 0/0; with
      selected entries in [0, b] the result lies in [0, b]; and with
      non-negative selected entries it is non-negative and is 0 exactly
      when every selected entry is 0. */
  lemma MaskedReduceMeanGuarded(t: Vector, mask: seq<bool>, b: real)
    requires |t| == |mask|
    ensures TrueCount(mask) == 0 ==> MaskedReduceMean(t, mask) == 0.0
    ensures b >= 0.0 && (forall k :: 0 <= k < |t| && mask[k] ==> 0.0 <= t[k] <= b) ==>
      0.0 <= MaskedReduceMean(t, mask) <= b
    ensures (forall k :: 0 <= k < |t| && mask[k] ==> t[k] >= 0.0) ==>
      && MaskedReduceMean(t, mask) >= 0.0
      && (MaskedReduceMean(t, mask) == 0.0 <==> forall k :: 0 <= k < |t| && mask[k] ==> t[k] == 0.0)
  {
    var c := TrueCount(mask) as real;
    var s := Sum(Masked(t, mask));
    var r := MaskedReduceMean(t, mask);
    assert r == s / (c + Epsilon);
    if TrueCount(mask) == 0 {
      assert r == 0.0 by {
        MaskedSumOfEmptyMask(t, mask);
      }
    }
    if b >= 0.0 && (forall k :: 0 <= k < |t| && mask[k] ==> 0.0 <= t[k] <= b) {
      assert 0.0 <= r <= b by {
        MaskedSumBounds(t, mask, b);
        GuardedRatioBounds(s, c, b);
      }
    }
    if forall k :: 0 <= k < |t| && mask[k] ==> t[k] >= 0.0 {
      assert r >= 0.0 && (r == 0.0 <==> s == 0.0) by {
        SumNonnegative(Masked(t, mask));
        GuardedRatioZero(s, c);
      }
      MaskedSumZeroIff(t, mask);
    }
  }

  /** s / (c + eps) with 0 <= s <= c * b lies in [0, b]. */
  lemma GuardedRatioBounds(s: real, c: real, b: real)
    requires c >= 0.0 && b >= 0.0 && 0.0 <= s <= c * b
    ensures 0.0 <= s / (c + Epsilon) <= b
  {
    var q := s / (c + Epsilon);
    assert q * (c + Epsilon) == s;
    assert (b - q) * (c + Epsilon) == b * c + b * Epsilon - s;
    ProductSign(b - q, c + Epsilon);
  }

  /** A product with a positive factor has the sign of the other factor. */
  lemma ProductSign(x: real, y: real)
    requires y > 0.0 && x * y >= 0.0
    ensures x >= 0.0
  {
  }

  lemma GuardedRatioZero(s: real, c: real)
    requires c >= 0.0
    ensures s / (c + Epsilon) == 0.0 <==> s == 0.0
    ensures s >= 0.0 ==> s / (c + Epsilon) >= 0.0
  {
    var q := s / (c + Epsilon);
    assert q * (c + Epsilon) == s;
  }

  /** Zero entries add nothing, so on a non-negative tensor
      reduce_mean_nonzero is masked_reduce_mean over the positive entries:
      the mean of the violating terms only. */
  lemma {:induction false} NonzeroSumIsMaskedSum(t: Vector)
    requires forall k :: 0 <= k < |t| ==> t[k] >= 0.0
    ensures Sum(t) == Sum(Masked(t, PositiveEntries(t)))
  {
    if |t| > 0 {
      assert Masked(t, PositiveEntries(t))[1..] == Masked(t[1..], PositiveEntries(t[1..]));
      NonzeroSumIsMaskedSum(t[1..]);
    }
  }

  lemma ReduceMeanNonzeroIsMaskedMean(t: Vector)
    requires forall k :: 0 <= k < |t| ==> t[k] >= 0.0
    ensures ReduceMeanNonzero(t) == MaskedReduceMean(t, PositiveEntries(t))
  {
    NonzeroSumIsMaskedSum(t);
  }

  /** reduce_mean_nonzero on a non-negative tensor: an all-zero tensor gives 0
      rather than 0/0, entries bounded by b give a result in [0, b], and the
      result is 0 exactly when every entry is 0. */
  lemma ReduceMeanNonzeroGuarded(t: Vector, b: real)
    requires forall k :: 0 <= k < |t| ==> t[k] >= 0.0
    ensures (forall k :: 0 <= k < |t| ==> t[k] <= b) && b >= 0.0 ==>
      0.0 <= ReduceMeanNonzero(t) <= b
    ensures ReduceMeanNonzero(t) == 0.0 <==> forall k :: 0 <= k < |t| ==> t[k] == 0.0
  {
    var p := PositiveEntries(t);
    ReduceMeanNonzeroIsMaskedMean(t);
    MaskedReduceMeanGuarded(t, p, b);
    if forall k :: 0 <= k < |t| && p[k] ==> t[k] == 0.0 {
      forall k | 0 <= k < |t| ensures t[k] == 0.0 {
        assert p[k] == (t[k] > 0.0);
      }
    }
  }

  // ----- plain means -----

  /** The mean of non-negative entries is non-negative and is zero exactly
      when every entry is. */
  lemma MeanNonnegative(v: Vector)
    requires forall k :: 0 <= k < |v| ==> v[k] >= 0.0
    ensures Mean(v).Ok? <==> |v| > 0
    ensures Mean(v).Ok? ==> Mean(v).value >= 0.0
    ensures Mean(v).Ok? ==> (Mean(v).value == 0.0 <==> forall k :: 0 <= k < |v| ==> v[k] == 0.0)
  {
    SumNonnegative(v);
    SumZeroIff(v);
    if |v| > 0 {
      var q := Sum(v) / |v| as real;
      assert q * |v| as real == Sum(v);
    }
  }

  lemma {:induction false} SumAllNonnegative(m: Matrix)
    requires forall i, k :: 0 <= i < |m| && 0 <= k < |m[i]| ==> m[i][k] >= 0.0
    ensures SumAll(m) >= 0.0
    ensures SumAll(m) == 0.0 <==> forall i, k :: 0 <= i < |m| && 0 <= k < |m[i]| ==> m[i][k] == 0.0
  {
    if |m| > 0 {
      var rest := m[1..];
      assert forall i :: 0 <= i < |rest| ==> rest[i] == m[i + 1];
      SumAllNonnegative(rest);
      SumNonnegative(m[0]);
      SumZeroIff(m[0]);
      if SumAll(m) == 0.0 {
        forall i, k | 0 <= i < |m| && 0 <= k < |m[i]| ensures m[i][k] == 0.0 {
          if i > 0 {
            assert m[i] == rest[i - 1];
          }
        }
      }
    }
  }

  /** reduce_mean over a matrix of non-negative entries: non-negative, and
      zero exactly when every entry is. */
  lemma MeanAllNonnegative(m: Matrix)
    requires forall i, k :: 0 <= i < |m| && 0 <= k < |m[i]| ==> m[i][k] >= 0.0
    ensures MeanAll(m).Ok? <==> CountAll(m) > 0
    ensures MeanAll(m).Ok? ==> MeanAll(m).value >= 0.0
    ensures MeanAll(m).Ok? ==>
      (MeanAll(m).value == 0.0 <==> forall i, k :: 0 <= i < |m| && 0 <= k < |m[i]| ==> m[i][k] == 0.0)
  {
    SumAllNonnegative(m);
    if CountAll(m) > 0 {
      var q := SumAll(m) / CountAll(m) as real;
      assert q * CountAll(m) as real == SumAll(m);
    }
  }

  /** A matrix of `rows` rows of `width` entries has rows * width entries. */
  lemma {:induction false} CountAllOfMatrix(m: Matrix, width: nat)
    requires IsMatrix(m, |m|, width)
    ensures CountAll(m) == |m| * width
  {
    if |m| > 0 {
      CountAllOfMatrix(m[1..], width);
      MulDistributes(width, |m|, 1);
    }
  }
}

=== FILE: selection.dfy ===
/** tf.boolean_mask over a matrix followed by tf.reshape(..., [rows, -1]).

    boolean_mask flattens the selected entries in row-major order; the
    reshape then cuts that flat list into `rows` equal chunks. The chunks
    coincide with the per-row selections only when every row selects the
    same number of entries; otherwise the reshape either fails or silently
    mixes rows. Both steps are modelled literally.
 */
module Selection {
  import opened Linalg
  import opened Outcome

  /** Number of true entries (reduce_sum of a cast mask). */
  function TrueCount(mask: seq<bool>): nat {
    if |mask| == 0 then 0 else (if mask[0] then 1 else 0) + TrueCount(mask[1..])
  }

  /** Mask rows aligned with the rows of `m`. */
  predicate MaskFits(m: Matrix, mask: seq<seq<bool>>) {
    |m| == |mask| && forall i :: 0 <= i < |m| ==> |m[i]| == |mask[i]|
  }

  /** boolean_mask on one row: the kept entries, in order. */
  function SelectRow(row: Vector, keep: seq<bool>): (s: Vector)
    requires |row| == |keep|
    ensures |s| == TrueCount(keep)
  {
    if |row| == 0 then []
    else (if keep[0] then [row[0]] else []) + SelectRow(row[1..], keep[1..])
  }

  /** boolean_mask on a matrix: the kept entries of every row, row-major. */
  function FlatSelect(m: Matrix, mask: seq<seq<bool>>): Vector
    requires MaskFits(m, mask)
  {
    if |m| == 0 then [] else SelectRow(m[0], mask[0]) + FlatSelect(m[1..], mask[1..])
  }

  /** Cut `flat` into `rows` consecutive chunks of `width` entries. */
  function Chunks(flat: Vector, width: nat, rows: nat): (c: Matrix)
    requires |flat| == rows * width
    ensures IsMatrix(c, rows, width)
  {
    if rows == 0 then []
    else [flat[..width]] + Chunks(flat[width..], width, rows - 1)
  }

  /** tf.reshape(flat, [rows, -1]): the missing size cannot be inferred for
      zero rows, and the length must be a multiple of `rows`. */
  function Reshape(flat: Vector, rows: nat): (r: Result<Matrix>)
    ensures r.Ok? <==> rows > 0 && |flat| % rows == 0
    ensures r.Ok? ==> IsMatrix(r.value, rows, |flat| / rows)
  {
    if rows == 0 || |flat| % rows != 0 then Err(ReshapeMismatch)
    else Ok(Chunks(flat, |flat| / rows, rows))
  }

  /** tf.reshape(flat, [-1, cols]): the missing size cannot be inferred
      for zero columns, and the length must be a multiple of `cols`. */
  function ReshapeCols(flat: Vector, cols: nat): (r: Result<Matrix>)
    ensures r.Ok? <==> cols > 0 && |flat| % cols == 0
    ensures r.Ok? ==> IsMatrix(r.value, |flat| / cols, cols)
  {
    if cols == 0 || |flat| % cols != 0 then Err(ReshapeMismatch)
    else Ok(Chunks(flat, cols, |flat| / cols))
  }

  /** tf.reshape(m, [-1]): the rows of `m`, concatenated. */
  function Flatten(m: Matrix): Vector {
    if |m| == 0 then [] else m[0] + Flatten(m[1..])
  }

  /** Every row keeps exactly `k` entries. */
  predicate UniformCount(mask: seq<seq<bool>>, k: nat) {
    forall i :: 0 <= i < |mask| ==> TrueCount(mask[i]) == k
  }

  /** The row without its entry at position i. */
  function Without(row: Vector, i: nat): (w: Vector)
    requires i < |row|
    ensures |w| == |row| - 1
  {
    row[..i] + row[i + 1..]
  }

  /** The per-row selections, one row per anchor. */
  function RowSelections(m: Matrix, mask: seq<seq<bool>>): (s: Matrix)
    requires MaskFits(m, mask)
    ensures |s| == |m|
  {
    seq(|m|, i requires 0 <= i < |m| => SelectRow(m[i], mask[i]))
  }

  // ----- lemmas -----

  /** A kept entry of a row reappears in the selection, at position a. */
  lemma {:induction false} SelectRowImage(row: Vector, keep: seq<bool>, j: nat) returns (a: nat)
    requires |row| == |keep| && j < |row| && keep[j]
    ensures a < |SelectRow(row, keep)| && SelectRow(row, keep)[a] == row[j]
  {
    if j == 0 {
      a := 0;
    } else {
      var a' := SelectRowImage(row[1..], keep[1..], j - 1);
      a := if keep[0] then a' + 1 else a';
    }
  }

  /** Every entry of the selection comes from a kept position j. */
  lemma {:induction false} SelectRowOrigin(row: Vector, keep: seq<bool>, a: nat) returns (j: nat)
    requires |row| == |keep| && a < |SelectRow(row, keep)|
    ensures j < |row| && keep[j] && row[j] == SelectRow(row, keep)[a]
  {
    if keep[0] && a == 0 {
      j := 0;
    } else {
      var a' := if keep[0] then a - 1 else a;
      var j' := SelectRowOrigin(row[1..], keep[1..], a');
      j := j' + 1;
    }
  }

  /** A kept entry of the matrix reappears in the flat selection. */
  lemma {:induction false} FlatSelectImage(m: Matrix, mask: seq<seq<bool>>, i: nat, j: nat) returns (a: nat)
    requires MaskFits(m, mask) && i < |m| && j < |m[i]| && mask[i][j]
    ensures a < |FlatSelect(m, mask)| && FlatSelect(m, mask)[a] == m[i][j]
  {
    var head := SelectRow(m[0], mask[0]);
    if i == 0 {
      a := SelectRowImage(m[0], mask[0], j);
    } else {
      var a' := FlatSelectImage(m[1..], mask[1..], i - 1, j);
      a := |head| + a';
    }
  }

  /** Every entry of the flat selection comes from a kept position (i, j). */
  lemma {:induction false} FlatSelectOrigin(m: Matrix, mask: seq<seq<bool>>, a: nat) returns (i: nat, j: nat)
    requires MaskFits(m, mask) && a < |FlatSelect(m, mask)|
    ensures i < |m| && j < |m[i]| && mask[i][j] && m[i][j] == FlatSelect(m, mask)[a]
  {
    var head := SelectRow(m[0], mask[0]);
    if a < |head| {
      i := 0;
      j := SelectRowOrigin(m[0], mask[0], a);
    } else {
      var i', j' := FlatSelectOrigin(m[1..], mask[1..], a - |head|);
      i, j := i' + 1, j';
    }
  }

  /** Keeping exactly position c gives the single entry row[c]. */
  lemma {:induction false} SelectSingle(row: Vector, keep: seq<bool>, c: nat)
    requires |row| == |keep| && c < |row|
    requires forall j :: 0 <= j < |keep| ==> (keep[j] <==> j == c)
    ensures SelectRow(row, keep) == [row[c]]
  {
    if c > 0 {
      SelectSingle(row[1..], keep[1..], c - 1);
    } else {
      SelectNone(row[1..], keep[1..]);
    }
  }

  /** Keeping every position but c gives the row without entry c. */
  lemma {:induction false} SelectAllBut(row: Vector, keep: seq<bool>, c: nat)
    requires |row| == |keep| && c < |row|
    requires forall j :: 0 <= j < |keep| ==> (keep[j] <==> j != c)
    ensures SelectRow(row, keep) == row[..c] + row[c + 1..]
  {
    if c > 0 {
      SelectAllBut(row[1..], keep[1..], c - 1);
      assert row[..c] == [row[0]] + row[1..][..c - 1];
      assert row[c + 1..] == row[1..][c..];
    } else {
      SelectAll(row[1..], keep[1..]);
    }
  }

  lemma {:induction false} SelectNone(row: Vector, keep: seq<bool>)
    requires |row| == |keep|
    requires forall j :: 0 <= j < |keep| ==> !keep[j]
    ensures SelectRow(row, keep) == []
  {
    if |row| > 0 {
      SelectNone(row[1..], keep[1..]);
    }
  }

  /** A margin bound on the row without entry i is a margin bound on
      every other entry of the row. */
  lemma WithoutBounded(row: Vector, i: nat, m: real, t: real)
    requires i < |row|
    ensures (forall k :: 0 <= k < |row| - 1 ==> m + Without(row, i)[k] <= t)
      <==> (forall r :: 0 <= r < |row| && r != i ==> m + row[r] <= t)
  {
    var w := Without(row, i);
    if forall k :: 0 <= k < |row| - 1 ==> m + w[k] <= t {
      forall r | 0 <= r < |row| && r != i ensures m + row[r] <= t {
        if r < i {
          assert w[r] == row[r];
        } else {
          assert w[r - 1] == row[r];
        }
      }
    }
    if forall r :: 0 <= r < |row| && r != i ==> m + row[r] <= t {
      forall k | 0 <= k < |row| - 1 ensures m + w[k] <= t {
        if k < i {
          assert w[k] == row[k];
        } else {
          assert w[k] == row[k + 1];
        }
      }
    }
  }

  lemma {:induction false} SelectAll(row: Vector, keep: seq<bool>)
    requires |row| == |keep|
    requires forall j :: 0 <= j < |keep| ==> keep[j]
    ensures SelectRow(row, keep) == row
  {
    if |row| > 0 {
      SelectAll(row[1..], keep[1..]);
      assert row == [row[0]] + row[1..];
    }
  }

  lemma {:induction false} FlatSelectLength(m: Matrix, mask: seq<seq<bool>>, k: nat)
    requires MaskFits(m, mask) && UniformCount(mask, k)
    ensures |FlatSelect(m, mask)| == |m| * k
  {
    if |m| > 0 {
      FlatSelectLength(m[1..], mask[1..], k);
      assert |SelectRow(m[0], mask[0])| == k;
      MulPred(|m|, k);
    }
  }

  lemma MulPred(n: nat, k: nat)
    requires n > 0
    ensures n * k == (n - 1) * k + k
  {
  }

  /** Cutting the flat selection into chunks of `k` recovers the per-row
      selections when every row keeps `k` entries. */
  lemma {:induction false} ChunksOfUniform(m: Matrix, mask: seq<seq<bool>>, k: nat)
    requires MaskFits(m, mask) && UniformCount(mask, k)
    ensures |FlatSelect(m, mask)| == |m| * k
      && Chunks(FlatSelect(m, mask), k, |m|) == RowSelections(m, mask)
  {
    FlatSelectLength(m, mask, k);
    if |m| > 0 {
      var head := SelectRow(m[0], mask[0]);
      var rest := FlatSelect(m[1..], mask[1..]);
      FlatSelectLength(m[1..], mask[1..], k);
      FlatSelectLength(m, mask, k);
      ChunksOfUniform(m[1..], mask[1..], k);
      assert (head + rest)[..k] == head;
      assert (head + rest)[k..] == rest;
      assert RowSelections(m, mask) == [head] + RowSelections(m[1..], mask[1..]);
    }
  }

  /** Entry (r, j) of the chunks is entry r * width + j of the flat list. */
  lemma {:induction false} ChunksEntry(flat: Vector, width: nat, rows: nat, r: nat, j: nat)
    requires |flat| == rows * width && r < rows && j < width
    ensures r * width + j < |flat| && Chunks(flat, width, rows)[r][j] == flat[r * width + j]
  {
    MulPred(rows, width);
    var rest := flat[width..];
    assert |rest| == (rows - 1) * width;
    if r == 0 {
      assert Chunks(flat, width, rows)[0] == flat[..width];
      assert 0 * width + j == j;
    } else {
      ChunksEntry(rest, width, rows - 1, r - 1, j);
      MulPred(r, width);
      assert r * width + j == (r - 1) * width + j + width;
      assert Chunks(flat, width, rows)[r] == Chunks(rest, width, rows - 1)[r - 1];
      assert rest[(r - 1) * width + j] == flat[(r - 1) * width + j + width];
    }
  }

  /** One entry of a [-1, cols] reshape of rows * cols entries. */
  lemma ReshapeColsEntry(flat: Vector, cols: nat, rows: nat, r: nat, j: nat)
    requires cols > 0 && |flat| == rows * cols && |flat| % cols == 0 && |flat| / cols == rows
    requires r < rows && j < cols
    ensures ReshapeCols(flat, cols).Ok? && IsMatrix(ReshapeCols(flat, cols).value, rows, cols)
    ensures r * cols + j < |flat| && ReshapeCols(flat, cols).value[r][j] == flat[r * cols + j]
  {
    ChunksEntry(flat, cols, rows, r, j);
  }

  /** When every row keeps k entries, entry i * k + a of the flat
      selection is the a-th entry row i kept. */
  lemma FlatSelectEntry(m: Matrix, mask: seq<seq<bool>>, k: nat, i: nat, a: nat)
    requires MaskFits(m, mask) && UniformCount(mask, k) && i < |m| && a < k
    ensures i * k + a < |FlatSelect(m, mask)| && FlatSelect(m, mask)[i * k + a] == SelectRow(m[i], mask[i])[a]
  {
    ChunksOfUniform(m, mask, k);
    ChunksEntry(FlatSelect(m, mask), k, |m|, i, a);
  }

  /** One entry of the [-1, |m|] reshape of a flat selection of k
      entries per row. */
  lemma UniformReshapeEntry(m: Matrix, mask: seq<seq<bool>>, k: nat, r: nat, j: nat)
    requires MaskFits(m, mask) && UniformCount(mask, k) && r < k && j < |m|
    ensures var flat := FlatSelect(m, mask);
      && ReshapeCols(flat, |m|).Ok? && IsMatrix(ReshapeCols(flat, |m|).value, k, |m|)
      && r * |m| + j < |flat| && ReshapeCols(flat, |m|).value[r][j] == flat[r * |m| + j]
  {
    var flat := FlatSelect(m, mask);
    assert |flat| == k * |m| && |flat| % |m| == 0 && |flat| / |m| == k by {
      FlatSelectLength(m, mask, k);
      DivisionOfMultiple(|m|, k);
      MulCommutes(|m|, k);
    }
    ReshapeColsEntry(flat, |m|, k, r, j);
  }

  /** The [-1, |m|] reshape of a flat selection of k entries per row
      succeeds with k rows. */
  lemma UniformReshape(m: Matrix, mask: seq<seq<bool>>, k: nat)
    requires MaskFits(m, mask) && UniformCount(mask, k) && |m| > 0
    ensures var flat := FlatSelect(m, mask);
      && |flat| == k * |m|
      && ReshapeCols(flat, |m|).Ok? && IsMatrix(ReshapeCols(flat, |m|).value, k, |m|)
  {
    FlatSelectLength(m, mask, k);
    DivisionOfMultiple(|m|, k);
    MulCommutes(|m|, k);
  }

  lemma DivisionOfMultiple(b: nat, k: nat)
    requires b > 0
    ensures (b * k) % b == 0 && (b * k) / b == k
  {
    var a := b * k;
    var q, r := a / b, a % b;
    assert a == b * q + r && 0 <= r < b;
    MulDistributes(b, k, q);
    assert b * (k - q) == r;
    if k - q >= 1 {
      MulAtLeast(b, k - q);
    } else if k - q <= -1 {
      MulAtLeast(b, q - k);
      MulDistributes(b, q, k);
    }
  }

  /** Entry (i, j) of a matrix of width d is entry i * d + j of its
      flattening. */
  lemma {:induction false} FlattenEntry(m: Matrix, d: nat, i: nat, j: nat)
    requires IsMatrix(m, |m|, d) && i < |m| && j < d
    ensures |Flatten(m)| == |m| * d && i * d + j < |m| * d && Flatten(m)[i * d + j] == m[i][j]
  {
    FlattenLength(m, d);
    if i > 0 {
      FlattenEntry(m[1..], d, i - 1, j);
      MulPred(i, d);
      assert Flatten(m)[i * d + j] == Flatten(m[1..])[(i - 1) * d + j];
    }
  }

  lemma {:induction false} FlattenLength(m: Matrix, d: nat)
    requires IsMatrix(m, |m|, d)
    ensures |Flatten(m)| == |m| * d
  {
    if |m| > 0 {
      FlattenLength(m[1..], d);
      MulPred(|m|, d);
    }
  }

  /** Quotient and remainder are the only ones: x = q * k + r with
      0 <= r < k fixes x / k and x % k. */
  lemma DivModUnique(x: int, k: int, q: int, r: int)
    requires k > 0 && 0 <= r < k && x == q * k + r
    ensures x / k == q && x % k == r
  {
    var q', r' := x / k, x % k;
    assert x == q' * k + r' && 0 <= r' < k;
    MulDistributes(k, q', q);
    MulCommutes(q', k);
    MulCommutes(q, k);
    assert k * (q' - q) == r - r';
    if q' - q >= 1 {
      MulAtLeast(k, q' - q);
    } else if q' - q <= -1 {
      MulAtLeast(k, q - q');
      MulDistributes(k, q, q');
    }
  }

  lemma MulCommutes(a: int, b: int)
    ensures a * b == b * a
  {
  }

  lemma MulAtLeast(b: int, t: int)
    requires b > 0 && t >= 1
    ensures b * t >= b
  {
  }

  lemma MulDistributes(b: int, x: int, y: int)
    ensures b * (x - y) == b * x - b * y
  {
  }

  /** The alignment property the triplet, split-softmax and am-softmax
      reshapes rely on: when every row keeps the same number of entries the
      reshape succeeds and row i of the result is exactly what row i kept. */
  lemma ReshapeAligned(m: Matrix, mask: seq<seq<bool>>, k: nat)
    requires MaskFits(m, mask) && UniformCount(mask, k) && |m| > 0
    ensures Reshape(FlatSelect(m, mask), |m|) == Ok(RowSelections(m, mask))
  {
    FlatSelectLength(m, mask, k);
    DivisionOfMultiple(|m|, k);
    ChunksOfUniform(m, mask, k);
  }
}

=== FILE: splitsoftmax.dfy ===
/** split_softmax's loss, and the one-hot split of the class logits that it
    shares with am_softmax.

    The logits are the features times the transposed class weights. The
    one-hot mask of the labels picks each row's target logit; its
    complement picks the others; each selection is reshaped to
    [batch, -1]. The margin m + other - target is broadcast over a row,
    and a row's loss is its summed violation divided by the number of
    violating entries (plus 1e-8). The loss is the mean of 30 times the row
    losses. The l2 normalisation of features and weights is not modelled,
    and gamma does not enter the loss.
 */
module SplitSoftmax {
  import opened Linalg
  import opened Outcome
  import opened Selection
  import opened Masks
  import opened Reductions

  /** The factor every row loss is multiplied by. */
  const RowScale: real := 30.0

  /** matmul(features, transpose(weights)). */
  function ClassLogits(F: Matrix, W: Matrix, d: nat): (S: Matrix)
    requires IsMatrix(F, |F|, d) && IsMatrix(W, |W|, d)
    ensures IsMatrix(S, |F|, |W|)
  {
    MatMul(F, Transpose(W, d), d, |W|)
  }

  /** The target logits and the other logits, one row per example. */
  datatype LogitSplit = LogitSplit(pos: Matrix, neg: Matrix)

  /** boolean_mask with the one-hot mask and with its complement, each
      reshaped to [batch, -1]. */
  function SplitLogits(S: Matrix, labels: seq<int>, classes: nat): (r: Result<LogitSplit>)
    requires IsMatrix(S, |labels|, classes)
    ensures r.Ok? ==> |r.value.pos| == |r.value.neg| == |labels|
  {
    var hot := OneHot(labels, classes);
    var pos :- Reshape(FlatSelect(S, hot), |labels|);
    var neg :- Reshape(FlatSelect(S, Complement(hot)), |labels|);
    Ok(LogitSplit(pos, neg))
  }

  /** m + neg - pos on one row, with a width-1 side broadcast against the
      other side; other unequal widths do not broadcast. */
  function BroadcastRow(m: real, pos: Vector, neg: Vector): Result<Vector> {
    if |pos| == |neg| then Ok(seq(|neg|, j requires 0 <= j < |neg| => m + neg[j] - pos[j]))
    else if |pos| == 1 then Ok(seq(|neg|, j requires 0 <= j < |neg| => m + neg[j] - pos[0]))
    else if |neg| == 1 then Ok(seq(|pos|, j requires 0 <= j < |pos| => m + neg[0] - pos[j]))
    else Err(ShapeMismatch)
  }

  /** m + neg - pos over the batch. */
  function Margins(m: real, pos: Matrix, neg: Matrix): (r: Result<Matrix>)
    requires |pos| == |neg|
    ensures r.Ok? ==> |r.value| == |pos|
  {
    if |pos| == 0 then Ok([])
    else
      var head :- BroadcastRow(m, pos[0], neg[0]);
      var tail :- Margins(m, pos[1..], neg[1..]);
      Ok([head] + tail)
  }

  /** relu entrywise */
  function Relus(v: Vector): (r: Vector)
    ensures |r| == |v|
  {
    seq(|v|, k requires 0 <= k < |v| => Relu(v[k]))
  }

  /** reduce_sum(relu(v)) / (num_violate + 1e-8), where num_violate counts
      the entries of v above 0. */
  function RowLoss(v: Vector): real {
    Sum(Relus(v)) / (TrueCount(PositiveEntries(v)) as real + Epsilon)
  }

  /** The split_softmax loss (lines 600-679). Features and labels must
      agree in number. */
  function SplitSoftmaxLoss(F: Matrix, W: Matrix, d: nat, labels: seq<int>, m: real): Result<real>
    requires IsMatrix(F, |F|, d) && IsMatrix(W, |W|, d)
  {
    if |labels| != |F| then Err(ShapeMismatch)
    else
      var split :- SplitLogits(ClassLogits(F, W, d), labels, |W|);
      var M :- Margins(m, split.pos, split.neg);
      Mean(seq(|M|, i requires 0 <= i < |M| => RowScale * RowLoss(M[i])))
  }

  /** Every label names a class. */
  predicate InClasses(labels: seq<int>, classes: nat) {
    forall i :: 0 <= i < |labels| ==> 0 <= labels[i] < classes
  }

  /** Number of labels that name a class. */
  function InClassCount(labels: seq<int>, classes: nat): nat {
    if |labels| == 0 then 0
    else (if 0 <= labels[0] < classes then 1 else 0) + InClassCount(labels[1..], classes)
  }

  // ----- the logits -----

  /** Entry (i, c) of the logits is feature i dotted with class weight c. */
  lemma ClassLogitsAreDots(F: Matrix, W: Matrix, d: nat)
    requires IsMatrix(F, |F|, d) && IsMatrix(W, |W|, d)
    ensures forall i, c :: 0 <= i < |F| && 0 <= c < |W| ==> ClassLogits(F, W, d)[i][c] == Dot(F[i], W[c])
  {
    forall c | 0 <= c < |W| ensures Col(Transpose(W, d), c) == W[c] {
      ColOfTranspose(W, d, c);
    }
  }

  // ----- the one-hot split -----

  /** Row i: the single logit at the label of example i. */
  function TargetLogits(S: Matrix, labels: seq<int>, classes: nat): (t: Matrix)
    requires IsMatrix(S, |labels|, classes) && InClasses(labels, classes)
    ensures |t| == |labels|
  {
    seq(|labels|, i requires 0 <= i < |labels| => [S[i][labels[i]]])
  }

  /** Row i: the logits of example i without the one at its label. */
  function OtherLogits(S: Matrix, labels: seq<int>, classes: nat): (o: Matrix)
    requires IsMatrix(S, |labels|, classes) && InClasses(labels, classes)
    ensures |o| == |labels|
  {
    seq(|labels|, i requires 0 <= i < |labels| => Without(S[i], labels[i]))
  }

  /** With every label naming a class, the split succeeds: row i of the
      target logits is the single entry at its label, and row i of the
      other logits is the row without that entry. */
  lemma OneHotSplit(S: Matrix, labels: seq<int>, classes: nat)
    requires IsMatrix(S, |labels|, classes) && |labels| > 0 && InClasses(labels, classes)
    ensures SplitLogits(S, labels, classes)
      == Ok(LogitSplit(TargetLogits(S, labels, classes), OtherLogits(S, labels, classes)))
  {
    TargetSplit(S, labels, classes);
    OtherSplit(S, labels, classes);
  }

  lemma TargetSplit(S: Matrix, labels: seq<int>, classes: nat)
    requires IsMatrix(S, |labels|, classes) && |labels| > 0 && InClasses(labels, classes)
    ensures Reshape(FlatSelect(S, OneHot(labels, classes)), |labels|) == Ok(TargetLogits(S, labels, classes))
  {
    var hot := OneHot(labels, classes);
    forall i | 0 <= i < |labels| ensures TrueCount(hot[i]) == 1 {
      OneHotRowCount(labels, classes, i);
    }
    ReshapeAligned(S, hot, 1);
    var P := RowSelections(S, hot);
    forall i | 0 <= i < |labels| ensures P[i] == TargetLogits(S, labels, classes)[i] {
      SelectSingle(S[i], hot[i], labels[i]);
    }
    assert P == TargetLogits(S, labels, classes);
  }

  lemma OtherSplit(S: Matrix, labels: seq<int>, classes: nat)
    requires IsMatrix(S, |labels|, classes) && |labels| > 0 && InClasses(labels, classes)
    ensures Reshape(FlatSelect(S, Complement(OneHot(labels, classes))), |labels|) == Ok(OtherLogits(S, labels, classes))
  {
    assert 0 <= labels[0] < classes;
    var rest := Complement(OneHot(labels, classes));
    forall i | 0 <= i < |labels| ensures TrueCount(rest[i]) == classes - 1 {
      OneHotRowCount(labels, classes, i);
    }
    ReshapeAligned(S, rest, classes - 1);
    var N := RowSelections(S, rest);
    forall i | 0 <= i < |labels| ensures N[i] == OtherLogits(S, labels, classes)[i] {
      SelectAllBut(S[i], rest[i], labels[i]);
    }
    assert N == OtherLogits(S, labels, classes);
  }

  /** The target selection keeps one entry per labelled-in-range row. */
  lemma {:induction false} TargetSelectionLength(S: Matrix, labels: seq<int>, classes: nat)
    requires IsMatrix(S, |labels|, classes)
    ensures |FlatSelect(S, OneHot(labels, classes))| == InClassCount(labels, classes)
  {
    if |labels| > 0 {
      OneHotRowCount(labels, classes, 0);
      assert OneHot(labels, classes)[1..] == OneHot(labels[1..], classes);
      TargetSelectionLength(S[1..], labels[1..], classes);
    }
  }

  /** One label inside the classes and one outside give a count strictly
      between 0 and the batch size. */
  lemma {:induction false} InClassCountBounds(labels: seq<int>, classes: nat, i: nat, k: nat)
    requires i < |labels| && k < |labels|
    requires 0 <= labels[i] < classes && !(0 <= labels[k] < classes)
    ensures 0 < InClassCount(labels, classes) < |labels|
  {
    if i > 0 && k > 0 {
      InClassCountBounds(labels[1..], classes, i - 1, k - 1);
    } else if i == 0 {
      InClassCountAtMost(labels[1..], classes, k - 1);
    } else {
      InClassCountAtLeast(labels[1..], classes, i - 1);
      InClassCountBelowLength(labels[1..], classes);
    }
  }

  lemma {:induction false} InClassCountAtMost(labels: seq<int>, classes: nat, k: nat)
    requires k < |labels| && !(0 <= labels[k] < classes)
    ensures InClassCount(labels, classes) < |labels|
  {
    if k > 0 {
      InClassCountAtMost(labels[1..], classes, k - 1);
    } else {
      InClassCountBelowLength(labels[1..], classes);
    }
  }

  lemma {:induction false} InClassCountAtLeast(labels: seq<int>, classes: nat, i: nat)
    requires i < |labels| && 0 <= labels[i] < classes
    ensures InClassCount(labels, classes) > 0
  {
    if i > 0 {
      InClassCountAtLeast(labels[1..], classes, i - 1);
    }
  }

  lemma {:induction false} InClassCountBelowLength(labels: seq<int>, classes: nat)
    ensures InClassCount(labels, classes) <= |labels|
  {
    if |labels| > 0 {
      InClassCountBelowLength(labels[1..], classes);
    }
  }

  /** When some labels name a class and others do not, the target
      selection cannot be cut into one row per example and the split
      fails; an empty batch fails too. */
  lemma MixedLabelsFail(S: Matrix, labels: seq<int>, classes: nat, i: nat, k: nat)
    requires IsMatrix(S, |labels|, classes) && i < |labels| && k < |labels|
    requires 0 <= labels[i] < classes && !(0 <= labels[k] < classes)
    ensures SplitLogits(S, labels, classes) == Err(ReshapeMismatch)
  {
    var flat := FlatSelect(S, OneHot(labels, classes));
    assert 0 < |flat| < |labels| by {
      TargetSelectionLength(S, labels, classes);
      InClassCountBounds(labels, classes, i, k);
    }
    SmallRemainder(|flat|, |labels|);
    assert Reshape(flat, |labels|).Err?;
  }

  lemma SmallRemainder(n: nat, q: nat)
    requires 0 < n < q
    ensures n % q != 0
  {
    assert n % q == n;
  }

  // ----- a row's loss -----

  /** relu keeps exactly the positive entries positive. */
  lemma RelusKeepViolations(v: Vector)
    ensures PositiveEntries(Relus(v)) == PositiveEntries(v)
    ensures forall k :: 0 <= k < |v| ==> Relus(v)[k] >= 0.0
  {
  }

  /** A row's loss is reduce_mean_nonzero of its relus: the mean violation
      over the violating entries. It is non-negative, zero exactly when no
      entry is positive, and at most b when every entry is. */
  lemma RowLossIsMeanViolation(v: Vector, b: real)
    ensures RowLoss(v) == ReduceMeanNonzero(Relus(v))
    ensures RowLoss(v) >= 0.0
    ensures RowLoss(v) == 0.0 <==> forall k :: 0 <= k < |v| ==> v[k] <= 0.0
    ensures b >= 0.0 && (forall k :: 0 <= k < |v| ==> v[k] <= b) ==> RowLoss(v) <= b
  {
    var r := Relus(v);
    RelusKeepViolations(v);
    ReduceMeanNonzeroGuarded(r, b);
    ReduceMeanNonzeroIsMaskedMean(r);
    MaskedReduceMeanGuarded(r, PositiveEntries(r), b);
    if RowLoss(v) == 0.0 {
      forall k | 0 <= k < |v| ensures v[k] <= 0.0 {
        assert r[k] == 0.0;
      }
    }
    if forall k :: 0 <= k < |v| ==> v[k] <= 0.0 {
      forall k | 0 <= k < |v| ensures r[k] == 0.0 {
      }
    }
  }

  // ----- the margins -----

  /** m + neg[i][j] - pos[i][0]: the margins when every row has one target. */
  function SingleTargetMargins(m: real, pos: Matrix, neg: Matrix): (M: Matrix)
    requires |pos| == |neg| && forall i :: 0 <= i < |pos| ==> |pos[i]| == 1
    ensures |M| == |pos| && forall i :: 0 <= i < |pos| ==> |M[i]| == |neg[i]|
  {
    seq(|pos|, i requires 0 <= i < |pos| =>
      seq(|neg[i]|, j requires 0 <= j < |neg[i]| => m + neg[i][j] - pos[i][0]))
  }

  /** With one target per row, every row broadcasts and entry j of row i
      is m + neg[i][j] - the target. */
  lemma {:induction false} MarginsOfSingleTargets(m: real, pos: Matrix, neg: Matrix)
    requires |pos| == |neg| && forall i :: 0 <= i < |pos| ==> |pos[i]| == 1
    ensures Margins(m, pos, neg) == Ok(SingleTargetMargins(m, pos, neg))
  {
    if |pos| > 0 {
      MarginsOfSingleTargets(m, pos[1..], neg[1..]);
      var want := SingleTargetMargins(m, pos, neg);
      var b := BroadcastRow(m, pos[0], neg[0]);
      assert b.Ok? && |b.value| == |want[0]|;
      forall j | 0 <= j < |want[0]| ensures b.value[j] == want[0][j] {
        if |pos[0]| == |neg[0]| {
          assert j == 0;
        }
      }
      assert b.value == want[0];
      assert want[1..] == SingleTargetMargins(m, pos[1..], neg[1..]);
      assert want == [want[0]] + want[1..];
    }
  }

  // ----- the loss -----

  /** The entry at t beats every other entry of the row by at least m. */
  predicate RowBeats(row: Vector, t: nat, m: real)
    requires t < |row|
  {
    forall c :: 0 <= c < |row| && c != t ==> m + row[c] <= row[t]
  }

  /** Every example's target logit beats every other class's logit by at
      least the margin m. */
  predicate TargetsSeparated(S: Matrix, labels: seq<int>, classes: nat, m: real)
    requires IsMatrix(S, |labels|, classes) && InClasses(labels, classes)
  {
    forall i :: 0 <= i < |labels| ==> RowBeats(S[i], labels[i], m)
  }

  /** The margin rows of a batch whose labels all name a class. */
  function TargetMargins(S: Matrix, labels: seq<int>, classes: nat, m: real): (M: Matrix)
    requires IsMatrix(S, |labels|, classes) && InClasses(labels, classes)
    ensures |M| == |labels|
  {
    seq(|labels|, i requires 0 <= i < |labels| =>
      var others := Without(S[i], labels[i]);
      seq(|others|, j requires 0 <= j < |others| => m + others[j] - S[i][labels[i]]))
  }

  /** With every label naming a class, the margins are m + other - target
      over the other classes of each row. */
  lemma MarginsAreTargetMargins(S: Matrix, labels: seq<int>, classes: nat, m: real)
    requires IsMatrix(S, |labels|, classes) && |labels| > 0 && InClasses(labels, classes)
    ensures SplitLogits(S, labels, classes).Ok?
    ensures var split := SplitLogits(S, labels, classes).value;
      Margins(m, split.pos, split.neg) == Ok(TargetMargins(S, labels, classes, m))
  {
    OneHotSplit(S, labels, classes);
    var split := SplitLogits(S, labels, classes).value;
    MarginsOfSingleTargets(m, split.pos, split.neg);
    var M := TargetMargins(S, labels, classes, m);
    var N := SingleTargetMargins(m, split.pos, split.neg);
    forall i | 0 <= i < |labels| ensures M[i] == N[i] {
      assert split.neg[i] == Without(S[i], labels[i]);
      assert split.pos[i][0] == S[i][labels[i]];
    }
    assert M == N;
  }

  /** Row i's margins are all non-positive exactly when its target beats
      every other class by m. */
  lemma RowSeparated(S: Matrix, labels: seq<int>, classes: nat, m: real, i: nat)
    requires IsMatrix(S, |labels|, classes) && InClasses(labels, classes) && i < |labels|
    ensures (forall j :: 0 <= j < |TargetMargins(S, labels, classes, m)[i]| ==> TargetMargins(S, labels, classes, m)[i][j] <= 0.0)
      <==> RowBeats(S[i], labels[i], m)
  {
    var row := TargetMargins(S, labels, classes, m)[i];
    var t := S[i][labels[i]];
    WithoutBounded(S[i], labels[i], m, t);
    assert forall j :: 0 <= j < |row| ==> (row[j] <= 0.0 <==> m + Without(S[i], labels[i])[j] <= t);
  }

  /** With labels that all name a class, the loss of a non-empty batch is
      defined and non-negative, and it is zero exactly when every target
      logit beats every other class's logit by the margin. */
  lemma SplitSoftmaxProperties(F: Matrix, W: Matrix, d: nat, labels: seq<int>, m: real)
    requires IsMatrix(F, |F|, d) && IsMatrix(W, |W|, d)
    requires |labels| == |F| > 0 && InClasses(labels, |W|)
    ensures SplitSoftmaxLoss(F, W, d, labels, m).Ok?
    ensures SplitSoftmaxLoss(F, W, d, labels, m).value >= 0.0
    ensures SplitSoftmaxLoss(F, W, d, labels, m).value == 0.0
      <==> TargetsSeparated(ClassLogits(F, W, d), labels, |W|, m)
  {
    var S := ClassLogits(F, W, d);
    MarginsAreTargetMargins(S, labels, |W|, m);
    var M := TargetMargins(S, labels, |W|, m);
    var v := seq(|M|, i requires 0 <= i < |M| => RowScale * RowLoss(M[i]));
    assert SplitSoftmaxLoss(F, W, d, labels, m) == Mean(v);
    forall i | 0 <= i < |M|
      ensures v[i] >= 0.0
      ensures v[i] == 0.0 <==> RowBeats(S[i], labels[i], m)
    {
      RowLossIsMeanViolation(M[i], 0.0);
      RowSeparated(S, labels, |W|, m, i);
    }
    MeanNonnegative(v);
  }

  /** split_softmax fails on an empty batch and whenever some labels name a
      class and others do not. */
  lemma SplitSoftmaxFails(F: Matrix, W: Matrix, d: nat, labels: seq<int>, m: real)
    requires IsMatrix(F, |F|, d) && IsMatrix(W, |W|, d)
    ensures |labels| != |F| || |labels| == 0 ==> SplitSoftmaxLoss(F, W, d, labels, m).Err?
    ensures |labels| == |F| && (exists i, k :: (0 <= i < |labels| && 0 <= k < |labels|
        && 0 <= labels[i] < |W| && !(0 <= labels[k] < |W|)))
      ==> SplitSoftmaxLoss(F, W, d, labels, m) == Err(ReshapeMismatch)
  {
    if |labels| == |F| {
      if exists i, k :: 0 <= i < |labels| && 0 <= k < |labels| && 0 <= labels[i] < |W| && !(0 <= labels[k] < |W|) {
        var i, k :| 0 <= i < |labels| && 0 <= k < |labels| && 0 <= labels[i] < |W| && !(0 <= labels[k] < |W|);
        MixedLabelsFail(ClassLogits(F, W, d), labels, |W|, i, k);
      }
    }
  }
}

=== FILE: triplet.dfy ===
/** Metric-learning losses over the batch self-distance matrix:
    triplet_loss with hard-negative mining, triplet_avghard_loss, and
    contrastive_loss (all with normalize=False; the l2_normalize option is
    not modelled).
 */
module Triplet {
  import opened Linalg
  import opened Outcome
  import opened Selection
  import opened Masks
  import opened Reductions
  import opened Distance

  /** euclidean_distance(E, transpose(E), sqrt=False) */
  function SelfDistance(E: Matrix, d: nat): (D: Matrix)
    requires IsMatrix(E, |E|, d)
    ensures IsMatrix(D, |E|, |E|)
  {
    EuclideanDistance(E, Transpose(E, d), d, |E|)
  }

  /** relu(d_pos - d_neg_min + margin); an anchor with no negative has
      d_neg_min = +inf and contributes 0. */
  function TripletHinge(pos: real, closest: Option<real>, margin: real): real {
    match closest
    case None => 0.0
    case Some(x) => Relu(pos - x + margin)
  }

  /** The [batch, P] hinge matrix: row i pairs each positive distance of
      anchor i with the closest negative of that anchor. */
  function TripletHinges(pos: Matrix, neg: Matrix, margin: real): (H: Matrix)
    requires |pos| == |neg|
    ensures |H| == |pos| && forall i :: 0 <= i < |pos| ==> |H[i]| == |pos[i]|
  {
    seq(|pos|, i requires 0 <= i < |pos| =>
      seq(|pos[i]|, j requires 0 <= j < |pos[i]| =>
        TripletHinge(pos[i][j], ReduceMinByNegation(neg[i]), margin)))
  }

  /** triplet_loss (lines 969-1004): positive and negative distances are
      selected by mask and reshaped to [batch, -1], the negatives are mined
      to the closest one per anchor, and the hinges are averaged. A single
      label gives a [1, 1] label_mat that broadcasts against the batch
      masks, as a batch whose labels are all equal would. */
  function TripletLoss(labels: seq<int>, E: Matrix, d: nat, margin: real): (r: Result<real>)
    requires IsMatrix(E, |E|, d)
    ensures r.Ok? ==> |labels| == |E| || |labels| == 1
  {
    if |labels| != |E| && |labels| != 1 then Err(ShapeMismatch)
    else
      var lab := Broadcast(labels, |E|);
      var D := SelfDistance(E, d);
      var pos :- Reshape(FlatSelect(D, PositivePairs(lab)), |E|);
      var neg :- Reshape(FlatSelect(D, NegativePairs(lab)), |E|);
      MeanAll(TripletHinges(pos, neg, margin))
  }

  /** One entry of triplet_avghard_loss before the positive mask: the mean
      of the violating hinges relu(d_ij - d_ik + margin) over the negatives
      k of anchor i (masked_reduce_mean with mask "negative and > 0"). */
  function AvgHardTerm(distRow: Vector, negRow: seq<bool>, dpos: real, margin: real): real
    requires |distRow| == |negRow|
  {
    var t := seq(|distRow|, k requires 0 <= k < |distRow| => Relu(dpos - distRow[k] + margin));
    MaskedReduceMean(t, seq(|distRow|, k requires 0 <= k < |distRow| => negRow[k] && t[k] > 0.0))
  }

  /** triplet_avghard_loss (lines 930-967). A single label does not
      rescue a mismatch here: its [1, batch] tile of label_mask_neg cannot
      be reshaped to [batch, batch, batch] once the batch exceeds one. */
  function TripletAvgHardLoss(labels: seq<int>, E: Matrix, d: nat, margin: real): Result<real>
    requires IsMatrix(E, |E|, d)
  {
    if |labels| != |E| then Err(ShapeMismatch)
    else Mean(FlatSelect(AvgHardTerms(labels, E, d, margin), PositivePairs(labels)))
  }

  function AvgHardTerms(labels: seq<int>, E: Matrix, d: nat, margin: real): (L: Matrix)
    requires IsMatrix(E, |E|, d) && |labels| == |E|
    ensures IsMatrix(L, |E|, |E|)
  {
    var D := SelfDistance(E, d);
    var N := DifferentLabels(labels);
    seq(|E|, i requires 0 <= i < |E| =>
      seq(|E|, j requires 0 <= j < |E| => AvgHardTerm(D[i], N[i], D[i][j], margin)))
  }

  /** relu(margin - v) entrywise */
  function MarginHinges(v: Vector, margin: real): (r: Vector)
    ensures |r| == |v|
  {
    seq(|v|, k requires 0 <= k < |v| => Relu(margin - v[k]))
  }

  /** contrastive_loss (lines 1159-1194): mean positive distance plus mean
      hinge on the negative distances. A single label broadcasts as in
      triplet_loss. */
  function ContrastiveLoss(labels: seq<int>, E: Matrix, d: nat, margin: real): Result<real>
    requires IsMatrix(E, |E|, d)
  {
    if |labels| != |E| && |labels| != 1 then Err(ShapeMismatch)
    else
      var lab := Broadcast(labels, |E|);
      var D := SelfDistance(E, d);
      var lossPos :- Mean(FlatSelect(D, PositivePairs(lab)));
      var lossNeg :- Mean(MarginHinges(FlatSelect(D, NegativePairs(lab)), margin));
      Ok(lossPos + lossNeg)
  }

  // ----- triplet_loss -----

  /** A hinge against the closest negative vanishes exactly when the
      positive distance plus the margin is at most every negative distance. */
  lemma HingeZeroIff(pos: real, negRow: Vector, margin: real)
    ensures TripletHinge(pos, ReduceMinByNegation(negRow), margin) >= 0.0
    ensures TripletHinge(pos, ReduceMinByNegation(negRow), margin) == 0.0 <==>
      forall k :: 0 <= k < |negRow| ==> pos + margin <= negRow[k]
  {
    match ReduceMinByNegation(negRow)
    case None =>
    case Some(x) =>
      var k :| 0 <= k < |negRow| && negRow[k] == x;
  }

  lemma TripletHingesNonnegative(pos: Matrix, neg: Matrix, margin: real)
    requires |pos| == |neg|
    ensures var H := TripletHinges(pos, neg, margin);
      forall i, a :: 0 <= i < |H| && 0 <= a < |H[i]| ==> H[i][a] >= 0.0
  {
    var H := TripletHinges(pos, neg, margin);
    forall i, a | 0 <= i < |H| && 0 <= a < |H[i]| ensures H[i][a] >= 0.0 {
      HingeZeroIff(pos[i][a], neg[i], margin);
    }
  }

  /** Whatever the batch, a triplet loss that evaluates is non-negative. */
  lemma TripletLossNonnegative(labels: seq<int>, E: Matrix, d: nat, margin: real)
    requires IsMatrix(E, |E|, d)
    ensures TripletLoss(labels, E, d, margin).Ok? ==> TripletLoss(labels, E, d, margin).value >= 0.0
  {
    if TripletLoss(labels, E, d, margin).Ok? {
      var lab := Broadcast(labels, |E|);
      var D := SelfDistance(E, d);
      var pos := Reshape(FlatSelect(D, PositivePairs(lab)), |E|).value;
      var neg := Reshape(FlatSelect(D, NegativePairs(lab)), |E|).value;
      TripletHingesNonnegative(pos, neg, margin);
      MeanAllNonnegative(TripletHinges(pos, neg, margin));
    }
  }

  /** Two selections from one row: every kept positive plus the margin is at
      most every kept negative exactly when this holds position by position. */
  lemma SelectedPairsOrdered(row: Vector, keepPos: seq<bool>, keepNeg: seq<bool>, margin: real)
    requires |row| == |keepPos| == |keepNeg|
    ensures AllPairsOrdered(SelectRow(row, keepPos), SelectRow(row, keepNeg), margin) <==>
      forall j, k :: 0 <= j < |row| && 0 <= k < |row| && keepPos[j] && keepNeg[k] ==> row[j] + margin <= row[k]
  {
    if AllPairsOrdered(SelectRow(row, keepPos), SelectRow(row, keepNeg), margin) {
      SelectedToPositions(row, keepPos, keepNeg, margin);
    }
    if forall j, k :: 0 <= j < |row| && 0 <= k < |row| && keepPos[j] && keepNeg[k] ==> row[j] + margin <= row[k] {
      PositionsToSelected(row, keepPos, keepNeg, margin);
    }
  }

  /** Every entry of `pos` plus the margin is at most every entry of `neg`. */
  predicate AllPairsOrdered(pos: Vector, neg: Vector, margin: real) {
    forall a, b :: 0 <= a < |pos| && 0 <= b < |neg| ==> pos[a] + margin <= neg[b]
  }

  lemma SelectedToPositions(row: Vector, keepPos: seq<bool>, keepNeg: seq<bool>, margin: real)
    requires |row| == |keepPos| == |keepNeg|
    requires AllPairsOrdered(SelectRow(row, keepPos), SelectRow(row, keepNeg), margin)
    ensures forall j, k :: 0 <= j < |row| && 0 <= k < |row| && keepPos[j] && keepNeg[k] ==> row[j] + margin <= row[k]
  {
    forall j, k | 0 <= j < |row| && 0 <= k < |row| && keepPos[j] && keepNeg[k]
      ensures row[j] + margin <= row[k]
    {
      var a := SelectRowImage(row, keepPos, j);
      var b := SelectRowImage(row, keepNeg, k);
    }
  }

  lemma PositionsToSelected(row: Vector, keepPos: seq<bool>, keepNeg: seq<bool>, margin: real)
    requires |row| == |keepPos| == |keepNeg|
    requires forall j, k :: 0 <= j < |row| && 0 <= k < |row| && keepPos[j] && keepNeg[k] ==> row[j] + margin <= row[k]
    ensures AllPairsOrdered(SelectRow(row, keepPos), SelectRow(row, keepNeg), margin)
  {
    var sp := SelectRow(row, keepPos);
    var sn := SelectRow(row, keepNeg);
    forall a, b | 0 <= a < |sp| && 0 <= b < |sn| ensures sp[a] + margin <= sn[b] {
      var j := SelectRowOrigin(row, keepPos, a);
      var k := SelectRowOrigin(row, keepNeg, b);
    }
  }

  /** The hinge rows vanish exactly when every selected positive of a row
      plus the margin is at most every selected negative of that row. */
  lemma TripletHingesZeroIff(pos: Matrix, neg: Matrix, margin: real)
    requires |pos| == |neg|
    ensures var H := TripletHinges(pos, neg, margin);
      (forall i, a :: 0 <= i < |H| && 0 <= a < |H[i]| ==> H[i][a] == 0.0) <==>
      (forall i :: 0 <= i < |pos| ==> AllPairsOrdered(pos[i], neg[i], margin))
  {
    var H := TripletHinges(pos, neg, margin);
    forall i, a | 0 <= i < |pos| && 0 <= a < |pos[i]|
      ensures H[i][a] == 0.0 <==> forall b :: 0 <= b < |neg[i]| ==> pos[i][a] + margin <= neg[i][b]
    {
      HingeZeroIff(pos[i][a], neg[i], margin);
    }
  }

  /** On a balanced batch the two reshapes line up with the anchors, so the
      loss is the mean of the per-anchor hinge rows. */
  lemma TripletLossAligned(labels: seq<int>, E: Matrix, d: nat, margin: real, p: nat, q: nat)
    requires IsMatrix(E, |E|, d) && |labels| == |E| > 0
    requires UniformCount(PositivePairs(labels), p) && UniformCount(NegativePairs(labels), q)
    ensures var D := SelfDistance(E, d);
      TripletLoss(labels, E, d, margin) ==
        MeanAll(TripletHinges(RowSelections(D, PositivePairs(labels)), RowSelections(D, NegativePairs(labels)), margin))
  {
    var D := SelfDistance(E, d);
    ReshapeAligned(D, PositivePairs(labels), p);
    ReshapeAligned(D, NegativePairs(labels), q);
  }

  /** Every triplet anchored at i meets the margin in squared distance. */
  predicate AnchorMeetsMargin(labels: seq<int>, E: Matrix, margin: real, i: nat)
    requires |labels| == |E| && i < |E|
    requires forall r :: 0 <= r < |E| ==> |E[r]| == |E[i]|
  {
    forall j, k ::
      0 <= j < |E| && 0 <= k < |E| && PositivePairs(labels)[i][j] && NegativePairs(labels)[i][k] ==>
        SqDist(E[i], E[j]) + margin <= SqDist(E[i], E[k])
  }

  /** Per anchor: its hinge row's ordering condition in terms of squared
      distances between embeddings. */
  lemma AnchorOrdered(labels: seq<int>, E: Matrix, d: nat, margin: real, i: nat)
    requires IsMatrix(E, |E|, d) && |labels| == |E| && i < |E|
    ensures var D := SelfDistance(E, d);
      var pos := SelectRow(D[i], PositivePairs(labels)[i]);
      var neg := SelectRow(D[i], NegativePairs(labels)[i]);
      AllPairsOrdered(pos, neg, margin) <==> AnchorMeetsMargin(labels, E, margin, i)
  {
    var D := SelfDistance(E, d);
    SelectedPairsOrdered(D[i], PositivePairs(labels)[i], NegativePairs(labels)[i], margin);
    SelfDistanceProperties(E, d);
  }

  /** The mean of a [n, p] hinge matrix evaluates exactly when p > 0, and is
      then zero exactly when every row's positives meet the margin against
      every negative of that row. */
  lemma HingeMeanZeroIff(pos: Matrix, neg: Matrix, margin: real, p: nat)
    requires |pos| == |neg| > 0 && IsMatrix(pos, |pos|, p)
    ensures MeanAll(TripletHinges(pos, neg, margin)).Ok? <==> p > 0
    ensures MeanAll(TripletHinges(pos, neg, margin)).Ok? ==>
      (MeanAll(TripletHinges(pos, neg, margin)).value == 0.0 <==>
        forall i :: 0 <= i < |pos| ==> AllPairsOrdered(pos[i], neg[i], margin))
  {
    var H := TripletHinges(pos, neg, margin);
    assert IsMatrix(H, |pos|, p);
    CountAllOfMatrix(H, p);
    if p > 0 {
      MulAtLeast(p, |pos|);
    }
    TripletHingesNonnegative(pos, neg, margin);
    MeanAllNonnegative(H);
    TripletHingesZeroIff(pos, neg, margin);
  }

  /** triplet_loss on a balanced batch, anchor by anchor. */
  lemma TripletLossBalancedByAnchor(labels: seq<int>, E: Matrix, d: nat, margin: real, p: nat, q: nat)
    requires IsMatrix(E, |E|, d) && |labels| == |E| > 0
    requires UniformCount(PositivePairs(labels), p) && UniformCount(NegativePairs(labels), q)
    ensures TripletLoss(labels, E, d, margin).Ok? <==> p > 0
    ensures TripletLoss(labels, E, d, margin).Ok? ==>
      (TripletLoss(labels, E, d, margin).value == 0.0 <==>
        forall i :: 0 <= i < |E| ==> AnchorMeetsMargin(labels, E, margin, i))
  {
    var D := SelfDistance(E, d);
    var pos := RowSelections(D, PositivePairs(labels));
    var neg := RowSelections(D, NegativePairs(labels));
    TripletLossAligned(labels, E, d, margin, p, q);
    HingeMeanZeroIff(pos, neg, margin, p);
    forall i | 0 <= i < |E|
      ensures AllPairsOrdered(pos[i], neg[i], margin) <==> AnchorMeetsMargin(labels, E, margin, i)
    {
      AnchorOrdered(labels, E, d, margin, i);
    }
  }

  lemma AnchorsMeetMargin(labels: seq<int>, E: Matrix, d: nat, margin: real)
    requires IsMatrix(E, |E|, d) && |labels| == |E|
    ensures (forall i :: 0 <= i < |E| ==> AnchorMeetsMargin(labels, E, margin, i)) <==>
      forall i, j, k ::
        0 <= i < |E| && 0 <= j < |E| && 0 <= k < |E| && PositivePairs(labels)[i][j] && NegativePairs(labels)[i][k] ==>
          SqDist(E[i], E[j]) + margin <= SqDist(E[i], E[k])
  {
    if forall i :: 0 <= i < |E| ==> AnchorMeetsMargin(labels, E, margin, i) {
      forall i, j, k |
        0 <= i < |E| && 0 <= j < |E| && 0 <= k < |E| && PositivePairs(labels)[i][j] && NegativePairs(labels)[i][k]
        ensures SqDist(E[i], E[j]) + margin <= SqDist(E[i], E[k])
      {
        assert AnchorMeetsMargin(labels, E, margin, i);
      }
    }
  }

  /** triplet_loss on a balanced batch (every anchor has p positives and q
      negatives): the loss evaluates exactly when p > 0, and it is zero
      exactly when every triplet (anchor i, positive j, negative k)
      satisfies ||e_i - e_j||^2 + margin <= ||e_i - e_k||^2. */
  lemma TripletLossBalanced(labels: seq<int>, E: Matrix, d: nat, margin: real, p: nat, q: nat)
    requires IsMatrix(E, |E|, d) && |labels| == |E| > 0
    requires UniformCount(PositivePairs(labels), p) && UniformCount(NegativePairs(labels), q)
    ensures TripletLoss(labels, E, d, margin).Ok? <==> p > 0
    ensures TripletLoss(labels, E, d, margin).Ok? ==>
      (TripletLoss(labels, E, d, margin).value == 0.0 <==>
        forall i, j, k ::
          0 <= i < |E| && 0 <= j < |E| && 0 <= k < |E| && PositivePairs(labels)[i][j] && NegativePairs(labels)[i][k] ==>
            SqDist(E[i], E[j]) + margin <= SqDist(E[i], E[k]))
  {
    TripletLossBalancedByAnchor(labels, E, d, margin, p, q);
    AnchorsMeetMargin(labels, E, d, margin);
  }

  /** One label broadcast over a batch of more than one example: every
      pair is positive and there are no negatives, so every hinge is
      mined against +inf and the loss is 0. */
  lemma TripletLossSingleLabel(c: int, E: Matrix, d: nat, margin: real)
    requires IsMatrix(E, |E|, d) && |E| > 1
    ensures TripletLoss([c], E, d, margin) == Ok(0.0)
  {
    var lab := Broadcast([c], |E|);
    assert TripletLoss([c], E, d, margin) == TripletLoss(lab, E, d, margin);
    forall i | 0 <= i < |E|
      ensures TrueCount(PositivePairs(lab)[i]) == |E| - 1 && TrueCount(NegativePairs(lab)[i]) == 0
    {
      CountAllBut(PositivePairs(lab)[i], i);
      CountNone(NegativePairs(lab)[i]);
    }
    TripletLossBalanced(lab, E, d, margin, |E| - 1, 0);
  }

  // ----- triplet_avghard_loss -----

  /** An average-hard entry is non-negative, and zero exactly when no
      negative of the anchor violates the margin. */
  lemma AvgHardTermZeroIff(distRow: Vector, negRow: seq<bool>, dpos: real, margin: real)
    requires |distRow| == |negRow|
    ensures AvgHardTerm(distRow, negRow, dpos, margin) >= 0.0
    ensures AvgHardTerm(distRow, negRow, dpos, margin) == 0.0 <==>
      forall k :: 0 <= k < |distRow| && negRow[k] ==> dpos + margin <= distRow[k]
  {
    var t := seq(|distRow|, k requires 0 <= k < |distRow| => Relu(dpos - distRow[k] + margin));
    var mask := seq(|distRow|, k requires 0 <= k < |distRow| => negRow[k] && t[k] > 0.0);
    MaskedReduceMeanGuarded(t, mask, 0.0);
    if forall k :: 0 <= k < |t| && mask[k] ==> t[k] == 0.0 {
      forall k | 0 <= k < |distRow| && negRow[k] ensures dpos + margin <= distRow[k] {
        assert t[k] == Relu(dpos - distRow[k] + margin);
      }
    }
  }

  /** Some entry of m is selected. */
  predicate AnySelected(m: Matrix, mask: seq<seq<bool>>)
    requires MaskFits(m, mask)
  {
    exists i, j :: 0 <= i < |m| && 0 <= j < |m[i]| && mask[i][j]
  }

  /** Every selected entry of m is zero. */
  predicate SelectedZero(m: Matrix, mask: seq<seq<bool>>)
    requires MaskFits(m, mask)
  {
    forall i, j :: 0 <= i < |m| && 0 <= j < |m[i]| && mask[i][j] ==> m[i][j] == 0.0
  }

  /** Every selected entry of m is at least the margin. */
  predicate SelectedAtLeast(m: Matrix, mask: seq<seq<bool>>, margin: real)
    requires MaskFits(m, mask)
  {
    forall i, j :: 0 <= i < |m| && 0 <= j < |m[i]| && mask[i][j] ==> m[i][j] >= margin
  }

  /** reduce_mean of a boolean_mask selection of non-negative entries:
      it evaluates exactly when something is selected, and is then
      non-negative and zero exactly when every selected entry is zero. */
  lemma SelectedMeanZeroIff(m: Matrix, mask: seq<seq<bool>>)
    requires MaskFits(m, mask)
    requires forall i, j :: 0 <= i < |m| && 0 <= j < |m[i]| && mask[i][j] ==> m[i][j] >= 0.0
    ensures Mean(FlatSelect(m, mask)).Ok? <==> AnySelected(m, mask)
    ensures Mean(FlatSelect(m, mask)).Ok? ==>
      && Mean(FlatSelect(m, mask)).value >= 0.0
      && (Mean(FlatSelect(m, mask)).value == 0.0 <==> SelectedZero(m, mask))
  {
    var flat := FlatSelect(m, mask);
    forall a | 0 <= a < |flat| ensures flat[a] >= 0.0 {
      var i, j := FlatSelectOrigin(m, mask, a);
    }
    MeanNonnegative(flat);
    SelectionNonEmpty(m, mask);
    SelectionZeroIff(m, mask);
  }

  lemma SelectionNonEmpty(m: Matrix, mask: seq<seq<bool>>)
    requires MaskFits(m, mask)
    ensures |FlatSelect(m, mask)| > 0 <==> AnySelected(m, mask)
  {
    if AnySelected(m, mask) {
      var i, j :| 0 <= i < |m| && 0 <= j < |m[i]| && mask[i][j];
      var a := FlatSelectImage(m, mask, i, j);
    }
    if |FlatSelect(m, mask)| > 0 {
      var i, j := FlatSelectOrigin(m, mask, 0);
    }
  }

  lemma SelectionZeroIff(m: Matrix, mask: seq<seq<bool>>)
    requires MaskFits(m, mask)
    ensures (forall a :: 0 <= a < |FlatSelect(m, mask)| ==> FlatSelect(m, mask)[a] == 0.0) <==> SelectedZero(m, mask)
  {
    if SelectedZero(m, mask) {
      SelectedZeroFlat(m, mask);
    } else {
      var i, j :| 0 <= i < |m| && 0 <= j < |m[i]| && mask[i][j] && m[i][j] != 0.0;
      var a := FlatSelectImage(m, mask, i, j);
    }
  }

  lemma SelectedZeroFlat(m: Matrix, mask: seq<seq<bool>>)
    requires MaskFits(m, mask) && SelectedZero(m, mask)
    ensures forall a :: 0 <= a < |FlatSelect(m, mask)| ==> FlatSelect(m, mask)[a] == 0.0
  {
    forall a | 0 <= a < |FlatSelect(m, mask)| ensures FlatSelect(m, mask)[a] == 0.0 {
      var i, j := FlatSelectOrigin(m, mask, a);
    }
  }

  /** reduce_mean(relu(margin - selection)): it evaluates exactly when
      something is selected, and is then non-negative and zero exactly when
      every selected entry is at least the margin. */
  lemma SelectedMarginMeanZeroIff(m: Matrix, mask: seq<seq<bool>>, margin: real)
    requires MaskFits(m, mask)
    ensures Mean(MarginHinges(FlatSelect(m, mask), margin)).Ok? <==> AnySelected(m, mask)
    ensures Mean(MarginHinges(FlatSelect(m, mask), margin)).Ok? ==>
      && Mean(MarginHinges(FlatSelect(m, mask), margin)).value >= 0.0
      && (Mean(MarginHinges(FlatSelect(m, mask), margin)).value == 0.0 <==> SelectedAtLeast(m, mask, margin))
  {
    var h := MarginHinges(FlatSelect(m, mask), margin);
    MeanNonnegative(h);
    SelectionNonEmpty(m, mask);
    HingesZeroIff(m, mask, margin);
  }

  lemma HingesZeroIff(m: Matrix, mask: seq<seq<bool>>, margin: real)
    requires MaskFits(m, mask)
    ensures (forall a :: 0 <= a < |FlatSelect(m, mask)| ==> MarginHinges(FlatSelect(m, mask), margin)[a] == 0.0)
      <==> SelectedAtLeast(m, mask, margin)
  {
    if SelectedAtLeast(m, mask, margin) {
      SelectedAtLeastHinges(m, mask, margin);
    } else {
      var i, j :| 0 <= i < |m| && 0 <= j < |m[i]| && mask[i][j] && m[i][j] < margin;
      var a := FlatSelectImage(m, mask, i, j);
      assert MarginHinges(FlatSelect(m, mask), margin)[a] == Relu(margin - m[i][j]);
    }
  }

  lemma SelectedAtLeastHinges(m: Matrix, mask: seq<seq<bool>>, margin: real)
    requires MaskFits(m, mask) && SelectedAtLeast(m, mask, margin)
    ensures forall a :: 0 <= a < |FlatSelect(m, mask)| ==> MarginHinges(FlatSelect(m, mask), margin)[a] == 0.0
  {
    var h := MarginHinges(FlatSelect(m, mask), margin);
    forall a | 0 <= a < |FlatSelect(m, mask)| ensures h[a] == 0.0 {
      var i, j := FlatSelectOrigin(m, mask, a);
    }
  }

  /** contrastive_loss in terms of the selected distances. */
  lemma ContrastiveLossBySelection(labels: seq<int>, E: Matrix, d: nat, margin: real)
    requires IsMatrix(E, |E|, d) && |labels| == |E|
    ensures ContrastiveLoss(labels, E, d, margin).Ok? <==>
      AnySelected(SelfDistance(E, d), PositivePairs(labels)) && AnySelected(SelfDistance(E, d), NegativePairs(labels))
    ensures ContrastiveLoss(labels, E, d, margin).Ok? ==>
      && ContrastiveLoss(labels, E, d, margin).value >= 0.0
      && (ContrastiveLoss(labels, E, d, margin).value == 0.0 <==>
        SelectedZero(SelfDistance(E, d), PositivePairs(labels)) &&
        SelectedAtLeast(SelfDistance(E, d), NegativePairs(labels), margin))
  {
    var D := SelfDistance(E, d);
    assert forall i, j :: 0 <= i < |E| && 0 <= j < |E| ==> D[i][j] >= 0.0 by {
      SelfDistanceProperties(E, d);
    }
    SelectedMeanZeroIff(D, PositivePairs(labels));
    SelectedMarginMeanZeroIff(D, NegativePairs(labels), margin);
  }

  /** On a square matrix, something is selected exactly when the square
      mask has a true entry. */
  lemma AnySelectedSquare(m: Matrix, mask: seq<seq<bool>>, n: nat)
    requires IsMatrix(m, n, n) && IsSquareMask(mask, n)
    ensures AnySelected(m, mask) <==> exists i, j :: 0 <= i < n && 0 <= j < n && mask[i][j]
  {
  }

  /** The selected distances are zero exactly when the selected pairs of
      embeddings coincide. */
  lemma SelectedDistancesZero(E: Matrix, d: nat, mask: seq<seq<bool>>)
    requires IsMatrix(E, |E|, d) && IsSquareMask(mask, |E|)
    ensures SelectedZero(SelfDistance(E, d), mask) <==>
      forall i, j :: 0 <= i < |E| && 0 <= j < |E| && mask[i][j] ==> E[i] == E[j]
  {
    var D := SelfDistance(E, d);
    forall i, j | 0 <= i < |E| && 0 <= j < |E| ensures D[i][j] == 0.0 <==> E[i] == E[j] {
      SelfDistanceEntry(E, d, i, j);
      SqDistZeroIff(E[i], E[j]);
    }
  }

  /** The selected distances reach the margin exactly when the selected
      pairs of embeddings are that far apart. */
  lemma SelectedDistancesAtLeast(E: Matrix, d: nat, mask: seq<seq<bool>>, margin: real)
    requires IsMatrix(E, |E|, d) && IsSquareMask(mask, |E|)
    ensures SelectedAtLeast(SelfDistance(E, d), mask, margin) <==>
      forall i, j :: 0 <= i < |E| && 0 <= j < |E| && mask[i][j] ==> SqDist(E[i], E[j]) >= margin
  {
    var D := SelfDistance(E, d);
    forall i, j | 0 <= i < |E| && 0 <= j < |E| ensures D[i][j] == SqDist(E[i], E[j]) {
      SelfDistanceEntry(E, d, i, j);
    }
  }

  lemma SelfDistanceEntry(E: Matrix, d: nat, i: nat, j: nat)
    requires IsMatrix(E, |E|, d) && i < |E| && j < |E|
    ensures SelfDistance(E, d)[i][j] == SqDist(E[i], E[j])
  {
    SelfDistanceProperties(E, d);
  }

  /** contrastive_loss evaluates exactly when the batch holds both a
      positive and a negative pair; it is then non-negative, and zero
      exactly when every positive pair coincides and every negative pair is
      at squared distance at least the margin. */
  lemma ContrastiveLossProperties(labels: seq<int>, E: Matrix, d: nat, margin: real)
    requires IsMatrix(E, |E|, d) && |labels| == |E|
    ensures ContrastiveLoss(labels, E, d, margin).Ok? <==>
      (exists i, j :: 0 <= i < |E| && 0 <= j < |E| && PositivePairs(labels)[i][j]) &&
      (exists i, j :: 0 <= i < |E| && 0 <= j < |E| && NegativePairs(labels)[i][j])
    ensures ContrastiveLoss(labels, E, d, margin).Ok? ==>
      && ContrastiveLoss(labels, E, d, margin).value >= 0.0
      && (ContrastiveLoss(labels, E, d, margin).value == 0.0 <==>
        (forall i, j :: 0 <= i < |E| && 0 <= j < |E| && PositivePairs(labels)[i][j] ==> E[i] == E[j]) &&
        (forall i, j :: 0 <= i < |E| && 0 <= j < |E| && NegativePairs(labels)[i][j] ==>
          SqDist(E[i], E[j]) >= margin))
  {
    ContrastiveLossBySelection(labels, E, d, margin);
    var D := SelfDistance(E, d);
    AnySelectedSquare(D, PositivePairs(labels), |E|);
    AnySelectedSquare(D, NegativePairs(labels), |E|);
    SelectedDistancesZero(E, d, PositivePairs(labels));
    SelectedDistancesAtLeast(E, d, NegativePairs(labels), margin);
  }

  /** One label broadcast over the batch leaves no negative pair, so the
      negative mean is 0/0 and contrastive_loss has no value. */
  lemma ContrastiveLossSingleLabel(c: int, E: Matrix, d: nat, margin: real)
    requires IsMatrix(E, |E|, d)
    ensures ContrastiveLoss([c], E, d, margin).Err?
  {
    var lab := Broadcast([c], |E|);
    assert ContrastiveLoss([c], E, d, margin) == ContrastiveLoss(lab, E, d, margin);
    ContrastiveLossProperties(lab, E, d, margin);
  }

  // ----- triplet_avghard_loss, whole -----

  /** Anchor i and positive j keep the margin against every differently
      labelled k. */
  predicate MeetsMargin(labels: seq<int>, E: Matrix, d: nat, margin: real, i: nat, j: nat)
    requires IsMatrix(E, |E|, d) && |labels| == |E| && i < |E| && j < |E|
  {
    forall k :: 0 <= k < |E| && DifferentLabels(labels)[i][k] ==>
      SqDist(E[i], E[j]) + margin <= SqDist(E[i], E[k])
  }

  /** Entry (i, j) of the average-hard matrix is non-negative, and zero
      exactly when pair (i, j) keeps the margin against every negative. */
  lemma AvgHardEntryZeroIff(labels: seq<int>, E: Matrix, d: nat, margin: real, i: nat, j: nat)
    requires IsMatrix(E, |E|, d) && |labels| == |E| && i < |E| && j < |E|
    ensures AvgHardTerms(labels, E, d, margin)[i][j] >= 0.0
    ensures AvgHardTerms(labels, E, d, margin)[i][j] == 0.0 <==> MeetsMargin(labels, E, d, margin, i, j)
  {
    var D := SelfDistance(E, d);
    var N := DifferentLabels(labels);
    forall k | 0 <= k < |E| ensures D[i][k] == SqDist(E[i], E[k]) {
      SelfDistanceEntry(E, d, i, k);
    }
    AvgHardTermZeroIff(D[i], N[i], D[i][j], margin);
  }

  /** The positive entries of the average-hard matrix all vanish exactly
      when every triplet (anchor i, positive j, differently labelled k)
      keeps the margin. */
  lemma AvgHardPairsMeetMargin(labels: seq<int>, E: Matrix, d: nat, margin: real)
    requires IsMatrix(E, |E|, d) && |labels| == |E|
    ensures SelectedZero(AvgHardTerms(labels, E, d, margin), PositivePairs(labels)) <==>
      forall i, j, k ::
        0 <= i < |E| && 0 <= j < |E| && 0 <= k < |E| && PositivePairs(labels)[i][j] && DifferentLabels(labels)[i][k] ==>
          SqDist(E[i], E[j]) + margin <= SqDist(E[i], E[k])
  {
    var L := AvgHardTerms(labels, E, d, margin);
    forall i, j | 0 <= i < |E| && 0 <= j < |E|
      ensures L[i][j] == 0.0 <==> MeetsMargin(labels, E, d, margin, i, j)
    {
      AvgHardEntryZeroIff(labels, E, d, margin, i, j);
    }
  }

  /** triplet_avghard_loss evaluates exactly when the labels match the
      batch and some positive pair exists; it is then non-negative, and
      zero exactly when every triplet (anchor i, positive j, differently
      labelled k) satisfies ||e_i - e_j||^2 + margin <= ||e_i - e_k||^2.
      No balance is needed: the positive selection is averaged flat. */
  lemma TripletAvgHardLossProperties(labels: seq<int>, E: Matrix, d: nat, margin: real)
    requires IsMatrix(E, |E|, d)
    ensures TripletAvgHardLoss(labels, E, d, margin).Ok? <==>
      |labels| == |E| && exists i, j :: 0 <= i < |E| && 0 <= j < |E| && PositivePairs(labels)[i][j]
    ensures TripletAvgHardLoss(labels, E, d, margin).Ok? ==>
      && TripletAvgHardLoss(labels, E, d, margin).value >= 0.0
      && (TripletAvgHardLoss(labels, E, d, margin).value == 0.0 <==>
        forall i, j, k ::
          0 <= i < |E| && 0 <= j < |E| && 0 <= k < |E| && PositivePairs(labels)[i][j] && DifferentLabels(labels)[i][k] ==>
            SqDist(E[i], E[j]) + margin <= SqDist(E[i], E[k]))
  {
    if |labels| == |E| {
      var L := AvgHardTerms(labels, E, d, margin);
      var P := PositivePairs(labels);
      forall i, j | 0 <= i < |E| && 0 <= j < |E| && P[i][j] ensures L[i][j] >= 0.0 {
        AvgHardEntryZeroIff(labels, E, d, margin, i, j);
      }
      SelectedMeanZeroIff(L, P);
      AnySelectedSquare(L, P, |E|);
      AvgHardPairsMeetMargin(labels, E, d, margin);
    }
  }
}

=== FILE: updates.dfy ===
/** The centre updates that run beside the gradient path. Each gathers the
    pre-update centre of every example's class, forms
    diff_centers = rate * (centre - target), divides by the example's
    appear-time and scatter_subs the rows back into the table.

    The variants differ only in the rate and the target:
      Pull(alpha)  center_loss, euc_loss, class_divergence:
                   alpha * (c - x) / n
      Decay        softmax_loss: 0.01 * c / n (no target)
      Split        split_softmax: 0.5 * (c - x) / (1 + n)
      Imprint      am_softmax_imprint: (c - x) / n; the alpha-scaled
                   difference is computed and then never used
    The l2 renormalisation that split_softmax and am_softmax_imprint apply
    afterwards is not modelled, so the closed forms are the pre-normalised
    rows.
 */
module CenterUpdates {
  import opened Linalg
  import opened Outcome
  import opened Centers
  import opened Reductions

  /** The fixed alpha of softmax_loss's decay branch (line 172). */
  const DecayRate: real := 0.01

  datatype Rule =
    | Pull(alpha: real)
    | Decay
    | Split
    | Imprint

  /** One coordinate of diff_centers, for an example whose class centre
      has coordinate a, whose target has coordinate x and whose class
      appears n times in the batch. */
  function DiffEntry(rule: Rule, a: real, x: real, n: nat): real
    requires n > 0
  {
    match rule
    case Pull(alpha) => alpha * ((a - x) / n as real)
    case Decay => DecayRate * (a / n as real)
    case Split => 0.5 * ((a - x) / (1 + n) as real)
    case Imprint => (a - x) / n as real
  }

  /** The per-example weight of (centre - target) in diff_centers. */
  function Rate(rule: Rule, n: nat): real
    requires n > 0
  {
    match rule
    case Pull(alpha) => alpha / n as real
    case Decay => DecayRate / n as real
    case Split => 0.5 / (1 + n) as real
    case Imprint => 1.0 / n as real
  }

  /** What the centre is pulled towards: the target, or 0 for the decay. */
  function Target(rule: Rule, x: real): real {
    if rule.Decay? then 0.0 else x
  }

  /** The whole update: gather, diff, divide by the appear-times,
      scatter_sub. Only the decay branch has no targets. In the others the
      subtraction broadcasts a single target row against every gathered
      centre; any other count mismatch fails. */
  function UpdateCenters(rule: Rule, C: Matrix, d: nat, labels: seq<int>, X: Matrix): Result<Matrix>
    requires IsMatrix(C, |C|, d) && IsMatrix(X, |X|, d)
  {
    if !rule.Decay? && |labels| != |X| && |X| != 1 then Err(ShapeMismatch)
    else
      var batch :- Gather(C, labels);
      ScatterSub(C, d, labels, Diffs(rule, batch, d, AppearTimes(labels), TargetRows(rule, X, d, |labels|)))
  }

  /** The targets lined up with n labels: the batch itself, or n copies of
      a single row. The decay has none and keeps whatever it was given. */
  function TargetRows(rule: Rule, X: Matrix, d: nat, n: nat): (T: Matrix)
    requires IsMatrix(X, |X|, d) && (rule.Decay? || |X| == n || |X| == 1)
    ensures IsMatrix(T, |T|, d) && (rule.Decay? || |T| == n)
  {
    if rule.Decay? then X
    else
      BroadcastMatrix(X, n, d);
      Broadcast(X, n)
  }

  /** diff_centers, one row per example: example k's gathered centre,
      target and appear-time give row k. */
  function Diffs(rule: Rule, batch: Matrix, d: nat, appear: seq<nat>, X: Matrix): (D: Matrix)
    requires IsMatrix(batch, |appear|, d) && IsMatrix(X, |X|, d)
    requires rule.Decay? || |X| == |appear|
    ensures IsMatrix(D, |appear|, d)
  {
    seq(|appear|, k requires 0 <= k < |appear| =>
      seq(d, j requires 0 <= j < d =>
        if appear[k] == 0 then 0.0
        else DiffEntry(rule, batch[k][j], if rule.Decay? then 0.0 else X[k][j], appear[k])))
  }

  /** Coordinate j of every example's target, 0 for the decay. */
  function Targets(rule: Rule, X: Matrix, d: nat, b: nat, j: nat): (y: Vector)
    requires IsMatrix(X, |X|, d) && j < d
    requires rule.Decay? || |X| == b
    ensures |y| == b
  {
    seq(b, k requires 0 <= k < b => if rule.Decay? then 0.0 else X[k][j])
  }

  /** The sum over class c of the targets' coordinate j. */
  function PulledSum(rule: Rule, labels: seq<int>, X: Matrix, d: nat, c: int, j: nat): real
    requires IsMatrix(X, |X|, d) && j < d
    requires rule.Decay? || |X| == |labels|
  {
    if rule.Decay? then 0.0 else Picked(labels, Col(X, j), c)
  }

  /** The amount the update takes from an entry with centre coordinate a
      whose class appears n times with targets summing to pulled: nothing
      for a class absent from the batch, rate * (n * a - pulled)
      otherwise. */
  function Taken(rule: Rule, n: nat, a: real, pulled: real): real {
    if n == 0 then 0.0 else Rate(rule, n) * (n as real * a - pulled)
  }

  /** r is the table C after the update: every entry has lost what the
      update takes from it. */
  predicate ClosedForm(rule: Rule, C: Matrix, d: nat, labels: seq<int>, X: Matrix, r: Matrix)
    requires IsMatrix(C, |C|, d) && IsMatrix(X, |X|, d)
    requires rule.Decay? || |labels| == |X|
  {
    && IsMatrix(r, |C|, d)
    && forall c, j :: 0 <= c < |C| && 0 <= j < d ==>
         r[c][j] == C[c][j] - Taken(rule, Count(labels, c), C[c][j], PulledSum(rule, labels, X, d, c, j))
  }

  /** batch holds the centre of every example's class. */
  predicate Gathered(C: Matrix, labels: seq<int>, batch: Matrix) {
    && InRange(labels, |C|)
    && |batch| == |labels|
    && forall k :: 0 <= k < |labels| ==> batch[k] == C[labels[k]]
  }

  /** appear holds every example's class size. */
  predicate Appearances(labels: seq<int>, appear: seq<nat>) {
    && |appear| == |labels|
    && forall k :: 0 <= k < |labels| ==> appear[k] == Count(labels, labels[k]) >= 1
  }

  // ----- lemmas -----

  /** Every variant's diff is its rate times (centre - target). */
  lemma DiffIsRateTimesGap(rule: Rule, a: real, x: real, n: nat)
    requires n > 0
    ensures DiffEntry(rule, a, x, n) == Rate(rule, n) * (a - Target(rule, x))
  {
    match rule
    case Pull(alpha) => PullDiff(alpha, a, x, n);
    case Decay => DecayDiff(a, x, n);
    case Split => SplitDiff(a, x, n);
    case Imprint => ImprintDiff(a, x, n);
  }

  lemma PullDiff(alpha: real, a: real, x: real, n: nat)
    requires n > 0
    ensures DiffEntry(Pull(alpha), a, x, n) == Rate(Pull(alpha), n) * (a - Target(Pull(alpha), x))
  {
    ScaleQuotient(alpha, a - x, n as real);
  }

  lemma DecayDiff(a: real, x: real, n: nat)
    requires n > 0
    ensures DiffEntry(Decay, a, x, n) == Rate(Decay, n) * (a - Target(Decay, x))
  {
    ScaleQuotient(DecayRate, a, n as real);
  }

  lemma SplitDiff(a: real, x: real, n: nat)
    requires n > 0
    ensures DiffEntry(Split, a, x, n) == Rate(Split, n) * (a - Target(Split, x))
  {
    ScaleQuotient(0.5, a - x, (1 + n) as real);
  }

  lemma ImprintDiff(a: real, x: real, n: nat)
    requires n > 0
    ensures DiffEntry(Imprint, a, x, n) == Rate(Imprint, n) * (a - Target(Imprint, x))
  {
    ScaleQuotient(1.0, a - x, n as real);
  }

  lemma ScaleQuotient(k: real, g: real, m: real)
    requires m != 0.0
    ensures k * (g / m) == (k / m) * g
  {
  }

  /** The update succeeds exactly when the targets match the labels, are
      a single row, or there are none, and every label indexes the table;
      then entry (c, j) of a class absent from the batch is unchanged, and
      that of a class present n times has lost
      rate * (n * centre - sum of its targets), a single target row
      counting once per example. */
  lemma UpdateClosedForm(rule: Rule, C: Matrix, d: nat, labels: seq<int>, X: Matrix)
    requires IsMatrix(C, |C|, d) && IsMatrix(X, |X|, d)
    ensures UpdateCenters(rule, C, d, labels, X).Ok? <==>
      (rule.Decay? || |labels| == |X| || |X| == 1) && InRange(labels, |C|)
    ensures (rule.Decay? || |labels| == |X| || |X| == 1) && InRange(labels, |C|) ==>
      ClosedForm(rule, C, d, labels, TargetRows(rule, X, d, |labels|), UpdateCenters(rule, C, d, labels, X).value)
  {
    if (rule.Decay? || |labels| == |X| || |X| == 1) && InRange(labels, |C|) {
      var T := TargetRows(rule, X, d, |labels|);
      var batch := Gather(C, labels).value;
      var appear := AppearTimes(labels);
      forall k | 0 <= k < |labels| ensures appear[k] == Count(labels, labels[k]) >= 1 {
        AppearTimesCount(labels, k);
      }
      assert Gathered(C, labels, batch);
      assert Appearances(labels, appear);
      var D := Diffs(rule, batch, d, appear, T);
      ScatterSubClosedForm(C, d, labels, D);
      var r := UpdateCenters(rule, C, d, labels, X).value;
      assert r == ScatterSub(C, d, labels, D).value;
      forall c, j | 0 <= c < |C| && 0 <= j < d
        ensures r[c][j] == C[c][j] - Taken(rule, Count(labels, c), C[c][j], PulledSum(rule, labels, T, d, c, j))
      {
        ClassEntry(rule, C, d, labels, T, batch, appear, c, j);
      }
    }
  }

  /** What scatter_sub takes from entry (c, j). */
  lemma ClassEntry(rule: Rule, C: Matrix, d: nat, labels: seq<int>, X: Matrix, batch: Matrix, appear: seq<nat>, c: nat, j: nat)
    requires IsMatrix(C, |C|, d) && IsMatrix(X, |X|, d) && c < |C| && j < d
    requires rule.Decay? || |labels| == |X|
    requires Gathered(C, labels, batch) && IsMatrix(batch, |labels|, d) && Appearances(labels, appear)
    ensures Picked(labels, Col(Diffs(rule, batch, d, appear, X), j), c)
      == Taken(rule, Count(labels, c), C[c][j], PulledSum(rule, labels, X, d, c, j))
  {
    var u := Col(Diffs(rule, batch, d, appear, X), j);
    var n := Count(labels, c);
    if n == 0 {
      PickedAbsent(labels, u, c);
    } else {
      var y := Targets(rule, X, d, |labels|, j);
      DiffsOfClass(rule, C, d, labels, X, batch, appear, c, j);
      AffineTaken(rule, labels, u, y, c, n, C[c][j]);
      PulledIsPicked(rule, labels, X, d, c, j);
    }
  }

  /** A class whose every diff is its rate times the gap to its target
      loses rate * (n * a - sum of its targets). */
  lemma AffineTaken(rule: Rule, labels: seq<int>, u: Vector, y: Vector, c: int, n: nat, a: real)
    requires |labels| == |u| == |y| && n == Count(labels, c) > 0
    requires forall k :: 0 <= k < |labels| && labels[k] == c ==> ScaledGap(u[k], Rate(rule, n), a, y[k])
    ensures Picked(labels, u, c) == Taken(rule, n, a, Picked(labels, y, c))
  {
    var t, p := Picked(labels, u, c), Picked(labels, y, c);
    assert ScaledGap(t, Rate(rule, n), n as real * a, p) by {
      PickedAffine(labels, u, y, c, Rate(rule, n), a);
    }
    TakenOfGap(rule, n, a, t, p);
  }

  lemma TakenOfGap(rule: Rule, n: nat, a: real, t: real, pulled: real)
    requires n > 0 && ScaledGap(t, Rate(rule, n), n as real * a, pulled)
    ensures t == Taken(rule, n, a, pulled)
  {
  }

  /** Within class c, every diff is the class's rate times the gap between
      its centre and the example's target. */
  lemma DiffsOfClass(rule: Rule, C: Matrix, d: nat, labels: seq<int>, X: Matrix, batch: Matrix, appear: seq<nat>, c: nat, j: nat)
    requires IsMatrix(C, |C|, d) && IsMatrix(X, |X|, d) && c < |C| && j < d
    requires rule.Decay? || |labels| == |X|
    requires Gathered(C, labels, batch) && IsMatrix(batch, |labels|, d) && Appearances(labels, appear)
    requires Count(labels, c) > 0
    ensures var u := Col(Diffs(rule, batch, d, appear, X), j);
      var y := Targets(rule, X, d, |labels|, j);
      forall k :: 0 <= k < |labels| && labels[k] == c ==> ScaledGap(u[k], Rate(rule, Count(labels, c)), C[c][j], y[k])
  {
    var u := Col(Diffs(rule, batch, d, appear, X), j);
    var y := Targets(rule, X, d, |labels|, j);
    var n := Count(labels, c);
    forall k | 0 <= k < |labels| && labels[k] == c
      ensures ScaledGap(u[k], Rate(rule, n), C[c][j], y[k])
    {
      var x := if rule.Decay? then 0.0 else X[k][j];
      assert appear[k] == n;
      assert batch[k][j] == C[c][j];
      assert u[k] == DiffEntry(rule, C[c][j], x, n);
      assert y[k] == Target(rule, x);
      GapStep(rule, n, C[c][j], x, u[k], y[k]);
    }
  }

  lemma GapStep(rule: Rule, n: nat, a: real, x: real, du: real, y: real)
    requires n > 0 && du == DiffEntry(rule, a, x, n) && y == Target(rule, x)
    ensures ScaledGap(du, Rate(rule, n), a, y)
  {
    DiffIsRateTimesGap(rule, a, x, n);
  }

  lemma PulledIsPicked(rule: Rule, labels: seq<int>, X: Matrix, d: nat, c: int, j: nat)
    requires IsMatrix(X, |X|, d) && j < d
    requires rule.Decay? || |X| == |labels|
    ensures Picked(labels, Targets(rule, X, d, |labels|, j), c) == PulledSum(rule, labels, X, d, c, j)
  {
    var y := Targets(rule, X, d, |labels|, j);
    if rule.Decay? {
      PickedZeros(labels, y, c);
    } else {
      assert y == Col(X, j);
    }
  }

  /** The point a fraction f of the way from a to b. */
  function Lerp(a: real, b: real, f: real): real {
    a + f * (b - a)
  }

  lemma LerpForm(a: real, b: real, f: real)
    ensures a - f * (a - b) == Lerp(a, b, f)
  {
  }

  /** An update with targets and in-range labels succeeds with a table of
      the same shape. */
  lemma UpdateShape(rule: Rule, C: Matrix, d: nat, labels: seq<int>, X: Matrix)
    requires IsMatrix(C, |C|, d) && IsMatrix(X, |labels|, d) && InRange(labels, |C|)
    ensures UpdateCenters(rule, C, d, labels, X).Ok?
    ensures IsMatrix(UpdateCenters(rule, C, d, labels, X).value, |C|, d)
  {
    UpdateClosedForm(rule, C, d, labels, X);
  }

  /** One entry of a successful update with targets. */
  lemma UpdatedEntry(rule: Rule, C: Matrix, d: nat, labels: seq<int>, X: Matrix, c: nat, j: nat)
    requires IsMatrix(C, |C|, d) && IsMatrix(X, |labels|, d) && InRange(labels, |C|)
    requires !rule.Decay? && c < |C| && j < d
    ensures UpdateCenters(rule, C, d, labels, X).Ok?
    ensures var r := UpdateCenters(rule, C, d, labels, X).value;
      && IsMatrix(r, |C|, d)
      && r[c][j] == C[c][j] - Taken(rule, Count(labels, c), C[c][j], Picked(labels, Col(X, j), c))
  {
    UpdateClosedForm(rule, C, d, labels, X);
  }

  /** center_loss, euc_loss, class_divergence: a class present in the
      batch moves a fraction alpha of the way from its centre to its batch
      mean, (1 - alpha) * centre + alpha * mean; the other rows are
      unchanged. */
  lemma PullUpdate(alpha: real, C: Matrix, d: nat, labels: seq<int>, X: Matrix)
    requires IsMatrix(C, |C|, d) && IsMatrix(X, |labels|, d) && InRange(labels, |C|)
    ensures UpdateCenters(Pull(alpha), C, d, labels, X).Ok?
    ensures var r := UpdateCenters(Pull(alpha), C, d, labels, X).value;
      && IsMatrix(r, |C|, d)
      && (forall c, j :: 0 <= c < |C| && 0 <= j < d && Count(labels, c) == 0 ==> r[c][j] == C[c][j])
      && (forall c, j :: 0 <= c < |C| && 0 <= j < d && Count(labels, c) > 0 ==>
            r[c][j] == Lerp(C[c][j], ClassMean(labels, X, d, c, j), alpha))
  {
    UpdateShape(Pull(alpha), C, d, labels, X);
    var r := UpdateCenters(Pull(alpha), C, d, labels, X).value;
    forall c, j | 0 <= c < |C| && 0 <= j < d
      ensures Count(labels, c) == 0 ==> r[c][j] == C[c][j]
      ensures Count(labels, c) > 0 ==> r[c][j] == Lerp(C[c][j], ClassMean(labels, X, d, c, j), alpha)
    {
      UpdatedEntry(Pull(alpha), C, d, labels, X, c, j);
      if Count(labels, c) > 0 {
        PullAlgebra(alpha, Count(labels, c), C[c][j], Picked(labels, Col(X, j), c), r[c][j]);
      }
    }
  }

  /** A single feature row is broadcast to every example, so the update
      is the one for that many copies of the row: every class present in
      the batch moves a fraction alpha of the way to the row, the others
      stay. */
  lemma PullTowardsSingleRow(alpha: real, C: Matrix, labels: seq<int>, x: Vector)
    requires IsMatrix(C, |C|, |x|) && InRange(labels, |C|)
    ensures UpdateCenters(Pull(alpha), C, |x|, labels, [x]).Ok?
    ensures var r := UpdateCenters(Pull(alpha), C, |x|, labels, [x]).value;
      && IsMatrix(r, |C|, |x|)
      && forall c, j :: 0 <= c < |C| && 0 <= j < |x| ==>
           r[c][j] == if Count(labels, c) == 0 then C[c][j] else Lerp(C[c][j], x[j], alpha)
  {
    var d := |x|;
    var Y := Broadcast([x], |labels|);
    assert UpdateCenters(Pull(alpha), C, d, labels, [x]) == UpdateCenters(Pull(alpha), C, d, labels, Y);
    PullUpdate(alpha, C, d, labels, Y);
    forall c, j | 0 <= c < |C| && 0 <= j < d && Count(labels, c) > 0
      ensures ClassMean(labels, Y, d, c, j) == x[j]
    {
      ClassMeanOfCopies(labels, Y, d, c, j, x[j]);
    }
  }

  lemma PullAlgebra(alpha: real, n: nat, a: real, s: real, v: real)
    requires n > 0 && v == a - Taken(Pull(alpha), n, a, s)
    ensures v == Lerp(a, s / n as real, alpha)
  {
    var m := n as real;
    assert Rate(Pull(alpha), n) * m == alpha;
    RateIsStep(Rate(Pull(alpha), n), m, a, s, alpha, v);
  }

  /** Taking r * (m * a - s) from a, where r * m = f, moves a the fraction
      f of the way to s / m. */
  lemma RateIsStep(r: real, m: real, a: real, s: real, f: real, v: real)
    requires m > 0.0 && r * m == f && v == a - r * (m * a - s)
    ensures v == Lerp(a, s / m, f)
  {
    var b := s / m;
    assert s == m * b;
    assert r * (m * a - m * b) == f * (a - b);
    LerpForm(a, b, f);
  }

  /** softmax_loss's decay branch: every class present in the batch
      shrinks to 0.99 of its centre, however often it appears; the other
      rows are unchanged. */
  lemma DecayUpdate(C: Matrix, d: nat, labels: seq<int>)
    requires IsMatrix(C, |C|, d) && InRange(labels, |C|)
    ensures UpdateCenters(Decay, C, d, labels, []).Ok?
    ensures var r := UpdateCenters(Decay, C, d, labels, []).value;
      && IsMatrix(r, |C|, d)
      && (forall c, j :: 0 <= c < |C| && 0 <= j < d ==>
            r[c][j] == if Count(labels, c) == 0 then C[c][j] else 0.99 * C[c][j])
  {
    UpdateClosedForm(Decay, C, d, labels, []);
    var r := UpdateCenters(Decay, C, d, labels, []).value;
    forall c, j | 0 <= c < |C| && 0 <= j < d
      ensures r[c][j] == if Count(labels, c) == 0 then C[c][j] else 0.99 * C[c][j]
    {
      DecayAlgebra(Count(labels, c), C[c][j], r[c][j]);
    }
  }

  lemma DecayAlgebra(n: nat, a: real, v: real)
    requires v == a - Taken(Decay, n, a, 0.0)
    ensures v == if n == 0 then a else 0.99 * a
  {
    if n > 0 {
      var m := n as real;
      var q := DecayRate / m;
      assert q * m == DecayRate;
      assert q * (m * a - 0.0) == DecayRate * a;
    }
  }

  /** The fraction of the way split_softmax moves a centre that appears n
      times. */
  function SplitStep(n: nat): (f: real)
    requires n > 0
    ensures 0.0 < f < 0.5
  {
    var m := n as real;
    var f := 0.5 * m / (1.0 + m);
    assert f * (1.0 + m) == 0.5 * m;
    f
  }

  /** split_softmax: a class present n times moves a fraction
      0.5 * n / (1 + n) of the way from its centre to its batch mean; the
      fraction is never negative and always below 1/2. The other rows are
      unchanged. */
  lemma SplitUpdate(C: Matrix, d: nat, labels: seq<int>, X: Matrix)
    requires IsMatrix(C, |C|, d) && IsMatrix(X, |labels|, d) && InRange(labels, |C|)
    ensures UpdateCenters(Split, C, d, labels, X).Ok?
    ensures var r := UpdateCenters(Split, C, d, labels, X).value;
      && IsMatrix(r, |C|, d)
      && (forall c, j :: 0 <= c < |C| && 0 <= j < d && Count(labels, c) == 0 ==> r[c][j] == C[c][j])
      && (forall c, j :: 0 <= c < |C| && 0 <= j < d && Count(labels, c) > 0 ==>
            r[c][j] == Lerp(C[c][j], ClassMean(labels, X, d, c, j), SplitStep(Count(labels, c))))
  {
    UpdateShape(Split, C, d, labels, X);
    var r := UpdateCenters(Split, C, d, labels, X).value;
    forall c, j | 0 <= c < |C| && 0 <= j < d
      ensures Count(labels, c) == 0 ==> r[c][j] == C[c][j]
      ensures Count(labels, c) > 0 ==> r[c][j] == Lerp(C[c][j], ClassMean(labels, X, d, c, j), SplitStep(Count(labels, c)))
    {
      SplitEntry(C, d, labels, X, c, j);
    }
  }

  lemma SplitEntry(C: Matrix, d: nat, labels: seq<int>, X: Matrix, c: nat, j: nat)
    requires IsMatrix(C, |C|, d) && IsMatrix(X, |labels|, d) && InRange(labels, |C|) && c < |C| && j < d
    ensures UpdateCenters(Split, C, d, labels, X).Ok?
    ensures var r := UpdateCenters(Split, C, d, labels, X).value;
      && IsMatrix(r, |C|, d)
      && (Count(labels, c) == 0 ==> r[c][j] == C[c][j])
      && (Count(labels, c) > 0 ==> r[c][j] == Lerp(C[c][j], ClassMean(labels, X, d, c, j), SplitStep(Count(labels, c))))
  {
    UpdatedEntry(Split, C, d, labels, X, c, j);
    var n := Count(labels, c);
    if n > 0 {
      var s := Picked(labels, Col(X, j), c);
      SplitAlgebra(n, C[c][j], s, UpdateCenters(Split, C, d, labels, X).value[c][j]);
      assert ClassMean(labels, X, d, c, j) == s / n as real;
    }
  }

  lemma SplitAlgebra(n: nat, a: real, s: real, v: real)
    requires n > 0 && v == a - Taken(Split, n, a, s)
    ensures v == Lerp(a, s / n as real, SplitStep(n))
  {
    var m := n as real;
    assert (1 + n) as real == 1.0 + m;
    assert Rate(Split, n) * m == SplitStep(n);
    RateIsStep(Rate(Split, n), m, a, s, SplitStep(n), v);
  }

  /** am_softmax_imprint, before renormalisation: every class present in
      the batch becomes exactly its batch mean, whatever numeric alpha is
      (the default alpha = 'auto' makes the unused damped product at line
      483 raise before the update exists); the other rows are unchanged. */
  lemma ImprintUpdate(C: Matrix, d: nat, labels: seq<int>, X: Matrix)
    requires IsMatrix(C, |C|, d) && IsMatrix(X, |labels|, d) && InRange(labels, |C|)
    ensures UpdateCenters(Imprint, C, d, labels, X).Ok?
    ensures var r := UpdateCenters(Imprint, C, d, labels, X).value;
      && IsMatrix(r, |C|, d)
      && (forall c, j :: 0 <= c < |C| && 0 <= j < d && Count(labels, c) == 0 ==> r[c][j] == C[c][j])
      && (forall c, j :: 0 <= c < |C| && 0 <= j < d && Count(labels, c) > 0 ==>
            r[c][j] == ClassMean(labels, X, d, c, j))
  {
    UpdateShape(Imprint, C, d, labels, X);
    var r := UpdateCenters(Imprint, C, d, labels, X).value;
    forall c, j | 0 <= c < |C| && 0 <= j < d
      ensures Count(labels, c) == 0 ==> r[c][j] == C[c][j]
      ensures Count(labels, c) > 0 ==> r[c][j] == ClassMean(labels, X, d, c, j)
    {
      UpdatedEntry(Imprint, C, d, labels, X, c, j);
      if Count(labels, c) > 0 {
        ImprintAlgebra(Count(labels, c), C[c][j], Picked(labels, Col(X, j), c), r[c][j]);
      }
    }
  }

  lemma ImprintAlgebra(n: nat, a: real, s: real, v: real)
    requires n > 0 && v == a - Taken(Imprint, n, a, s)
    ensures v == s / n as real
  {
    var m := n as real;
    var q := 1.0 / m;
    assert q * m == 1.0;
    assert q * s == s / m;
    assert q * (m * a - s) == a - s / m;
  }

  // ----- the centre-loss value -----

  /** center_loss's value: coef * 0.5 * the mean over the batch of the
      squared distance from each feature to its class centre. The
      subtraction broadcasts a single label or a single feature row
      against the other operand; any other count mismatch fails. */
  function CenterLoss(C: Matrix, d: nat, labels: seq<int>, X: Matrix, coef: real): Result<real>
    requires IsMatrix(C, |C|, d) && IsMatrix(X, |X|, d)
  {
    if !Broadcastable(|labels|, |X|) then Err(ShapeMismatch)
    else
      var batch :- Gather(C, labels);
      var n := BroadcastSize(|labels|, |X|);
      var B := Broadcast(batch, n);
      var Y := Broadcast(X, n);
      BroadcastMatrix(batch, n, d);
      BroadcastMatrix(X, n, d);
      var m :- Mean(seq(n, k requires 0 <= k < n => SqDist(B[k], Y[k])));
      Ok(coef * 0.5 * m)
  }

  /** The centre loss is defined for a non-empty broadcast batch whose
      labels index the table; it is non-negative for coef >= 0 and, for
      coef > 0, zero exactly when every (broadcast) feature sits on the
      centre of its (broadcast) label. */
  lemma CenterLossProperties(C: Matrix, d: nat, labels: seq<int>, X: Matrix, coef: real)
    requires IsMatrix(C, |C|, d) && IsMatrix(X, |X|, d)
    ensures CenterLoss(C, d, labels, X, coef).Ok? <==>
      Broadcastable(|labels|, |X|) && BroadcastSize(|labels|, |X|) > 0 && InRange(labels, |C|)
    ensures CenterLoss(C, d, labels, X, coef).Ok? && coef >= 0.0 ==> CenterLoss(C, d, labels, X, coef).value >= 0.0
    ensures CenterLoss(C, d, labels, X, coef).Ok? && coef > 0.0 ==>
      var n := BroadcastSize(|labels|, |X|);
      (CenterLoss(C, d, labels, X, coef).value == 0.0 <==>
        forall k :: 0 <= k < n ==> Broadcast(X, n)[k] == C[Broadcast(labels, n)[k]])
  {
    if Broadcastable(|labels|, |X|) && InRange(labels, |C|) {
      var batch := Gather(C, labels).value;
      var n := BroadcastSize(|labels|, |X|);
      var B := Broadcast(batch, n);
      var Y := Broadcast(X, n);
      var L := Broadcast(labels, n);
      BroadcastMatrix(batch, n, d);
      BroadcastMatrix(X, n, d);
      var v := seq(n, k requires 0 <= k < n => SqDist(B[k], Y[k]));
      forall k | 0 <= k < n ensures v[k] >= 0.0 && (v[k] == 0.0 <==> Y[k] == C[L[k]]) {
        assert B[k] == C[L[k]];
        SqDistNonnegative(B[k], Y[k]);
        SqDistZeroIff(B[k], Y[k]);
      }
      MeanNonnegative(v);
      if n > 0 {
        var m := Mean(v).value;
        if coef >= 0.0 {
          ProductNonnegative(coef * 0.5, m);
        }
      }
    }
  }
}
